=== FILE: README.md ===
# simplesheet core in Dafny

This project models the pure logic at the heart of simplesheet, a
spreadsheet web application with a TypeScript/React front end and a
PHP/Laravel back end. It covers seven parts:

- **Visible rows** (`resolvers.ts`). Cell text is coerced to a number or a string (`resolveValue`). A sheet filter with `|`-separated alternatives is evaluated (`resolveFilter`). The ordered list of visible rows is then derived in three steps:
  1. filter the sheet's rows;
  2. sort the survivors stably by several keys (lodash `orderBy`);
  3. cluster them by a combined group key, with a `ROW_BREAK` after each cluster.

  Modules: `Values`, `VisibleRows`, `Grouping`, and `Ordering` for lodash's `orderBy`.
- **CSV import** (`SheetBuilder.php`). Modules `SettingsCell` and `SheetBuilder` cover:
  - the `[TS][key=value]…` settings-cell parser;
  - detection of the column-settings record and the sheet-view records;
  - the columns, rows and cells built from the records, including `COLUMN_BREAK` slots and the 50 / 8×length / 300 width rule;
  - the 2500-element insert batches;
  - the sheet views;
  - applying column settings.
- **Filter box** (`SheetActionFilter.tsx`). Module `FilterInput` parses `"<column> <op> <value>;"` into a new filter.
- **Older sheet actions** (`actions.ts`). Module `SheetActions` covers:
  - `loadSheet`'s keying of rows and columns by id;
  - the visible columns, ordered by position;
  - the visible rows, sorted on raw values;
  - `createSort`.
- **Row deletion** (`deleteSheetRows.tsx`). Module `DeleteRows` covers:
  - the ids selected by a range;
  - the next rows and visible rows;
  - the undo snapshot;
  - the forward/undo pair recorded as a history step.
- **Cell keyboard** (`SheetCellContainer.tsx`). Module `CellKeyboard` models the cell's handlers as pure functions from an event to the list of effects emitted. `Interpret` gives the cell's state after those effects.
- **User reducer** (`user/reducers.ts`). Module `UserReducer` models the shallow and nested merges of `userReducer`.

Shared vocabulary lives in four modules:

- `Wrappers`: `Option` and `Result`.
- `Text`:
  - `split`/`explode` and `join`/`implode`;
  - `trim`;
  - `String.replace` and `str_replace`;
  - `Str::contains` and `indexOf`;
  - ASCII lower-casing;
  - code-unit string order;
  - UTF-8 and UTF-16 lengths.
- `Sorting`: `map`, `filter`, a stable insertion sort and `reverse`.
- `Ordering`: lodash `orderBy`, modelled after its implementation. Each element is decorated with its criteria and original index, the decorated list is sorted with `compareMultiple`, and the index breaks full ties.

JavaScript objects are modelled as insertion-ordered tables (`SheetActions.Table`): a key list plus a map. Calls to code that is not part of this model become parameters or emitted effect tokens:

- UUID generation, `resolveSheetRowLeaders`;
- `updateSheetSelectionFromArrowKey`, `createHistoryStep`;
- the `mutation.*` calls;
- the database inserts.

Where JavaScript would throw, the model either states a precondition or returns an error:

- a missing row, or a missing filter or cell that `every` reaches, in the filter step: precondition;
- a missing sort cell: precondition;
- a missing row in a deletion: `Result` error.

## Model

| member | source | states |
|---|---|---|
| Values.ParseNumber | resources/js/bundles/App/state/sheet/resolvers.ts:49 | `Number()` on text: text that is empty or all whitespace reads as 0 |
| Values.ParseNumberRejects | resources/js/bundles/App/state/sheet/resolvers.ts:49 | text with any character that cannot belong to a numeral is NaN |
| Values.ParseShowInt | resources/js/bundles/App/state/sheet/resolvers.ts:49 | round trip: the decimal spelling of every integer reads back as that integer |
| Values.ResolveValue | resources/js/bundles/App/state/sheet/resolvers.ts:47-50 | the result is a string exactly when the text, after the first `%` is removed (`null` read as `""`), is not numeric; the string is that text; otherwise the number is its numeric value |
| Values.ResolveEmpty | resources/js/bundles/App/state/sheet/resolvers.ts:47-50 | `null` and `""` both resolve to the number 0 |
| Values.ResolveNumeral | resources/js/bundles/App/state/sheet/resolvers.ts:47-50 | a numeral resolves to its number |
| Values.ResolvePercent | resources/js/bundles/App/state/sheet/resolvers.ts:48-49 | a numeral with one trailing `%` resolves to the number |
| Values.StrippedDouble | resources/js/bundles/App/state/sheet/resolvers.ts:48 | only the first `%` is removed: `s%%` becomes `s%` |
| Values.TrailingPercentRejected | resources/js/bundles/App/state/sheet/resolvers.ts:49 | text still ending in `%` is not numeric |
| Values.ResolveDoublePercent | resources/js/bundles/App/state/sheet/resolvers.ts:48-49 | `"5%%"`-style text stays the string `"5%"` |
| Values.ResolveText | resources/js/bundles/App/state/sheet/resolvers.ts:47-50 | non-numeric text without `%` resolves to itself as a string |
| Values.MixedKindsNeverCompare | resources/js/bundles/App/state/sheet/resolvers.ts:23-40 | a number against a non-numeric string satisfies no operator except `!=` |
| Values.ValCmp | resources/js/bundles/App/state/sheet/resolvers.ts:76-80 | the comparator `orderBy` applies to resolved values: negative exactly when the first is less, positive exactly when the second is less |
| Values.ValAntisymmetric | resources/js/bundles/App/state/sheet/resolvers.ts:80 | swapping the operands negates the comparison |
| Values.ValTransitive | resources/js/bundles/App/state/sheet/resolvers.ts:80 | within one kind, "not after" is transitive |
| Values.ValPreorder | resources/js/bundles/App/state/sheet/resolvers.ts:80 | values of one kind are totally preordered |
| Values.MixedKindsNotTransitive | resources/js/bundles/App/state/sheet/resolvers.ts:80 | with numbers and strings mixed in one column the comparator is not transitive: 1 ties "a", "a" ties 0, yet 1 > 0 |
| Values.Any | resources/js/bundles/App/state/sheet/resolvers.ts:24 | `some`: true exactly when some element satisfies the test |
| Values.All | resources/js/bundles/App/state/sheet/resolvers.ts:27 | `every`: true exactly when all elements satisfy the test |
| Values.SingleAlternative | resources/js/bundles/App/state/sheet/resolvers.ts:20 | text without a vertical bar is a single alternative, trimmed |
| Values.AlternativesOfJoin | resources/js/bundles/App/state/sheet/resolvers.ts:20 | pieces joined with vertical bars come back as the same number of alternatives, each trimmed |
| Values.ResolveFilter | resources/js/bundles/App/state/sheet/resolvers.ts:18-42 | `=`, `>`, `>=`, `<`, `<=` hold exactly when some alternative satisfies the operator against the resolved cell; `!=` holds exactly when every alternative differs |
| Values.NeIsNotEq | resources/js/bundles/App/state/sheet/resolvers.ts:23-28 | `!=` is exactly the negation of `=` on the same inputs |
| Values.NumberAgainstTextFails | resources/js/bundles/App/state/sheet/resolvers.ts:29-40 | a numeric cell never passes `=`, `>`, `>=`, `<` or `<=` against alternatives that are all text |
| Values.EqOneAlternative | resources/js/bundles/App/state/sheet/resolvers.ts:20-28 | against filter text with a single alternative, `=` holds exactly when the resolved cell loosely equals that alternative |
| Values.NumeralEqNumeral | resources/js/bundles/App/state/sheet/resolvers.ts:20-28 | a numeral cell passes `=` against a single numeral exactly when the two numbers are equal |
| VisibleRows.PassingIdsKeep | resources/js/bundles/App/state/sheet/resolvers.ts:62-69 | mapping failures to `undefined` and dropping falsy ids is the order-preserving filter of the passing rows |
| VisibleRows.EveryFilter | resources/js/bundles/App/state/sheet/resolvers.ts:64-68 | `every` read left to right, stopping at the first failing filter, is true exactly when the row passes every filter |
| VisibleRows.EveryStopsAtFailure | resources/js/bundles/App/state/sheet/resolvers.ts:64-68 | after a filter the row fails, nothing further is read: later filter ids may be missing and their cells unresolvable |
| VisibleRows.FailingFirstFilterHidesRow | resources/js/bundles/App/state/sheet/resolvers.ts:62-69 | a row with cell `2` that fails `= 1` on its first filter is dropped without error, though the second filter's column has no cell in that row |
| VisibleRows.FilterStep | resources/js/bundles/App/state/sheet/resolvers.ts:62 | without a filters object every row is kept, in order |
| VisibleRows.FilterStepKeepsPassing | resources/js/bundles/App/state/sheet/resolvers.ts:62-69 | with filters, the result is the subsequence of the sheet's rows that pass every filter: an id is kept exactly when it is a row that passes, which is exactly when the short-circuit `every` is true on it |
| VisibleRows.SortStep | resources/js/bundles/App/state/sheet/resolvers.ts:80 | the sort step returns a permutation of the filtered ids |
| VisibleRows.OneKindPreordered | resources/js/bundles/App/state/sheet/resolvers.ts:72-80 | when each sort column holds values of one kind, the sort keys are totally preordered |
| VisibleRows.SortStepPair | resources/js/bundles/App/state/sheet/resolvers.ts:72-80 | any two places of the sorted list are in key order (lexicographic, each sort in its direction), full ties in filtered order |
| VisibleRows.SortStepOrdered | resources/js/bundles/App/state/sheet/resolvers.ts:72-80 | the whole sorted list is in that order: a stable lexicographic multi-key sort |
| VisibleRows.CombineKeyOne | resources/js/bundles/App/state/sheet/resolvers.ts:92 | with one group the key is the raw value as JavaScript prints it, neither lower-cased nor followed by `-` |
| VisibleRows.CombineKeyStep | resources/js/bundles/App/state/sheet/resolvers.ts:92 | each further group adds its value lower-cased (nothing when falsy) and a `-` |
| VisibleRows.CombineKeyExamples | resources/js/bundles/App/state/sheet/resolvers.ts:88-92 | `["Ab","Cd"]` gives `"Abcd-"`; `[undefined, null, ""]` gives `"undefined--"` |
| VisibleRows.GroupedOutput | resources/js/bundles/App/state/sheet/resolvers.ts:87-101 | grouping keeps exactly the sorted rows, writes one `ROW_BREAK` per distinct key and ends in a `ROW_BREAK` |
| VisibleRows.GroupKeyReadsGroups | resources/js/bundles/App/state/sheet/resolvers.ts:87-92 | for a stored row whose groups all exist, the key combines the values read through every group record |
| VisibleRows.GroupKeyMissingRow | resources/js/bundles/App/state/sheet/resolvers.ts:89 | a missing row's key reads no group record: every value is `undefined` |
| VisibleRows.DanglingSecondGroupAccepted | resources/js/bundles/App/state/sheet/resolvers.ts:83-101 | with no rows to group, a second group id that names nothing stored is accepted and the list is empty; only the first group's `order` is read |
| VisibleRows.ResolveVisibleRows | resources/js/bundles/App/state/sheet/resolvers.ts:55-103 | the output's rows are a permutation of the filtered rows; with no groups it is exactly the filtered, sorted list with no `ROW_BREAK`; with groups there is one `ROW_BREAK` per distinct key, the last entry included |
| Grouping.Flatten | resources/js/bundles/App/state/sheet/resolvers.ts:96-100 | the output lists each cluster's ids in order with one break per cluster, a break last |
| Grouping.ClustersPermutation | resources/js/bundles/App/state/sheet/resolvers.ts:87-98 | the clusters of all keys together hold exactly the sorted ids |
| Grouping.AscendingKeys | resources/js/bundles/App/state/sheet/resolvers.ts:95 | `Object.keys(grouped).sort()`: each key once, all keys present, strictly ascending by code unit |
| Grouping.ReverseDescending | resources/js/bundles/App/state/sheet/resolvers.ts:95 | reversing a strictly ascending key list makes it strictly descending |
| Grouping.OrderedKeys | resources/js/bundles/App/state/sheet/resolvers.ts:95 | the cluster order is ascending or descending by key, according to the first group's order only |
| Grouping.ClustersFacts | resources/js/bundles/App/state/sheet/resolvers.ts:87-98 | each cluster is non-empty, all its rows share its key, and it is exactly the rows with that key in sorted order |
| Grouping.GroupRows | resources/js/bundles/App/state/sheet/resolvers.ts:87-100 | one non-empty cluster per distinct key; clusters ordered by key; each cluster holds the rows with its key in sorted order; together a permutation |
| Grouping.GroupedEntries | resources/js/bundles/App/state/sheet/resolvers.ts:87-101 | the grouped output keeps exactly the filtered rows, has one break per distinct key, and ends in a break |
| Ordering.OrderBy | resources/js/bundles/App/state/sheet/resolvers.ts:80 | lodash `orderBy` returns a permutation of its input |
| Ordering.OrderByAt | resources/js/bundles/App/state/sheet/resolvers.ts:80 | each output place holds the value of the decorated element sorted there |
| Ordering.CriteriaAntisymmetric | resources/js/bundles/App/state/sheet/resolvers.ts:80 | `compareMultiple` changes sign when its operands are swapped |
| Ordering.CriteriaTransitive | resources/js/bundles/App/state/sheet/resolvers.ts:80 | `compareMultiple` is transitive when every criterion column is preordered |
| Ordering.OrderByKeyedSorted | resources/js/bundles/App/state/sheet/resolvers.ts:80 | decorated elements come out in criteria order, full ties by original index |
| Ordering.OrderByStable | resources/js/bundles/App/state/sheet/actions.ts:25 | for distinct keys, any two output places are in criteria order, full ties in input order |
| Sorting.InsertionSortSorted | resources/js/bundles/App/state/sheet/resolvers.ts:80 | the sort under a total preorder yields a sorted list |
| Sorting.KeepMembers | resources/js/bundles/App/state/sheet/actions/deleteSheetRows.tsx:60-61 | `filter` keeps exactly the elements that pass |
| Sorting.KeepCount | resources/js/bundles/App/state/sheet/resolvers.ts:69 | `filter` keeps every passing element as often as it occurs and drops the rest |
| Sorting.KeepBoth | resources/js/bundles/App/state/sheet/actions/deleteSheetRows.tsx:60-61 | filtering by one test and then another keeps what one filter by both tests keeps, in order |
| Text.Split | resources/js/bundles/App/bundles/Sheet/SheetActionFilter.tsx:64 | `split`: at least one piece, no piece holds the separator, and joining the pieces gives back the text |
| Text.SplitJoin | resources/js/bundles/App/bundles/Sheet/SheetActionFilter.tsx:64-66 | splitting separator-free pieces joined by the separator gives back the pieces |
| Text.Trim | resources/js/bundles/App/state/sheet/resolvers.ts:20 | `trim`: no whitespace at either end, text without whitespace unchanged, nothing added |
| Text.TrimKeeps | resources/js/bundles/App/state/sheet/resolvers.ts:20 | `trim` keeps every non-whitespace character |
| Text.RemoveFirstAt | resources/js/bundles/App/state/sheet/resolvers.ts:48 | `replace('%', '')` removes exactly the first `%` |
| Text.RemoveFirstOfAppended | resources/js/bundles/App/state/sheet/resolvers.ts:48 | text before the first `%` and text after it are kept as they are |
| Text.RemoveAll | app/Utils/SheetBuilder.php:196 | `str_replace(pat, '')`: never longer, adds no characters, removes every occurrence of a one-character pattern, and leaves text without the pattern unchanged |
| Text.Contains | app/Utils/SheetBuilder.php:41 | `Str::contains` holds exactly when the pattern occurs somewhere |
| Text.IndexOf | resources/js/bundles/App/state/sheet/actions/deleteSheetRows.tsx:41-42 | `indexOf`: -1 exactly when absent, otherwise the first place holding the element |
| Text.StrCmp | resources/js/bundles/App/state/sheet/resolvers.ts:95 | code-unit string order: zero exactly on equal strings |
| Text.StrCmpTransitive | resources/js/bundles/App/state/sheet/resolvers.ts:95 | code-unit string order is transitive |
| Text.Utf8Length | app/Utils/SheetBuilder.php:44 | `strlen`: one to four bytes per character, one per ASCII character |
| Text.Utf16Length | resources/js/bundles/App/bundles/Sheet/SheetCellContainer.tsx:115 | `key.length`: one or two code units per character |
| SettingsCell.SettingOf | app/Utils/SheetBuilder.php:206-219 | the key is the first `=`-piece and the value is the rest joined back with `=` |
| SettingsCell.ApplyFragment | app/Utils/SheetBuilder.php:204-221 | a fragment without `=` changes nothing; otherwise at most one key is added, and only the fragment's key can change value |
| SettingsCell.ApplyFragments | app/Utils/SheetBuilder.php:202-223 | fragments without `=` change nothing; each fragment adds at most one key |
| SettingsCell.ParseSettings | app/Utils/SheetBuilder.php:194-228 | the parse always yields a map (never null); text without `=` yields the empty map |
| SettingsCell.EncodingHasNoFlag | app/Utils/SheetBuilder.php:196 | removing `[TS]` leaves an encoded list of settings untouched |
| SettingsCell.ReadPiece | app/Utils/SheetBuilder.php:204-221 | one `[key=value` piece sets exactly that key to that value, `=` in the value included |
| SettingsCell.ReadPieces | app/Utils/SheetBuilder.php:202-223 | the pieces of an encoded list set the keys in order, a later key winning |
| SettingsCell.ParseEncoded | app/Utils/SheetBuilder.php:196-221 | round trip: `[TS]` followed by `[k=v]` fragments parses back to exactly those settings, later duplicates winning |
| SheetBuilder.BaseWidth | app/Utils/SheetBuilder.php:44 | a column starts at the larger of 50 and 8 pixels per byte of its name |
| SheetBuilder.HeaderBreaks | app/Utils/SheetBuilder.php:39-61 | a slot is `COLUMN_BREAK` exactly when its name contains `COLUMN_BREAK` |
| SheetBuilder.HeaderColumns | app/Utils/SheetBuilder.php:41-51 | column `j` is the `j`-th non-break name with its sample value, its base width and the `j`-th fresh id |
| SheetBuilder.HeaderSlotIds | app/Utils/SheetBuilder.php:53-58 | the non-break slots list the new columns' ids in order |
| SheetBuilder.Widen | app/Utils/SheetBuilder.php:90-93 | one value widens a column to at most 300; the result is 300, the old width or 8 pixels per byte of the value |
| SheetBuilder.AddRow | app/Utils/SheetBuilder.php:73-94 | a data record adds one row and one cell per column and keeps the earlier cells |
| SheetBuilder.SkippingIsFiltering | app/Utils/SheetBuilder.php:67-71 | skipping records whose first cell contains `[TS]` is the same as building from the data records only |
| SheetBuilder.LongestValue | app/Utils/SheetBuilder.php:90 | the longest byte length of a column's values over the data records |
| SheetBuilder.WidthClosedForm | app/Utils/SheetBuilder.php:90-93 | after at least one data row, a width is `min(300, max(start, 8 * longest))` |
| SheetBuilder.AddRowsClosedForm | app/Utils/SheetBuilder.php:67-96 | after the loop, every row and every cell sits at its place with its fresh id, column and value |
| SheetBuilder.Chunk | app/Utils/SheetBuilder.php:102-109 | every chunk has between 1 and n elements, all but the last exactly n, and the chunks concatenate to the input |
| SheetBuilder.ChunkCount | app/Utils/SheetBuilder.php:102-109 | the number of chunks is the least k with k * n at least the length |
| SheetBuilder.Batches | app/Utils/SheetBuilder.php:102-109 | inserts go in batches of 1 to 2500 that concatenate to the list |
| SheetBuilder.BuildSheet | app/Utils/SheetBuilder.php:32-112 | one slot per header key, one column per non-break name, one row per data record, rows × columns cells |
| SheetBuilder.BuildSheetBreaks | app/Utils/SheetBuilder.php:39-61 | the returned slot `i` is `COLUMN_BREAK` exactly when the `i`-th name contains `COLUMN_BREAK` |
| SheetBuilder.BuildSheetSlots | app/Utils/SheetBuilder.php:53-58 | the returned slots name the created columns, in order |
| SheetBuilder.BuildSheetColumn | app/Utils/SheetBuilder.php:41-51 | column `j` has the `j`-th fresh id, the `j`-th non-break name and its sample value |
| SheetBuilder.BuildSheetWidth | app/Utils/SheetBuilder.php:44 | a column's width is its base width widened by every data record's value |
| SheetBuilder.BuildSheetRows | app/Utils/SheetBuilder.php:73-78 | exactly one row per data record, each with its fresh id |
| SheetBuilder.BuildSheetCell | app/Utils/SheetBuilder.php:81-89 | the cell of row `r` and column `j` has its fresh id, the column's id, the row's id and `record[column name]` |
| SheetBuilder.ColumnWidth | app/Utils/SheetBuilder.php:90-93 | without data rows a width is its base width; with data rows it is `min(300, max(start, 8 * longest))` and between 50 and 300 |
| SheetBuilder.LongNameNarrowed | app/Utils/SheetBuilder.php:92 | a name longer than 37 bytes ends at 300 pixels, below its own base width, once a data row exists |
| SheetBuilder.RecordSettingsAt | app/Utils/SheetBuilder.php:145-147 | the settings of a record's `i`-th cell are that cell's parse |
| SheetBuilder.ColumnSettings | app/Utils/SheetBuilder.php:138-154 | null unless the first record's first cell contains `[TS]`; otherwise one parse per cell of that record, in order |
| SheetBuilder.RunFrom | app/Utils/SheetBuilder.php:169-188 | the scan collects the longest run of matching records from its start and stops at the first record that does not match |
| SheetBuilder.ViewRun | app/Utils/SheetBuilder.php:169-188 | the collected records are consecutive view records, followed by a record that is not one |
| SheetBuilder.SheetViewsSettings | app/Utils/SheetBuilder.php:163-191 | null exactly when the record at the start (1 after column settings, else 0) is not a view record |
| SheetBuilder.SheetViewsRun | app/Utils/SheetBuilder.php:163-191 | otherwise the settings of each consecutive view record, in order, ending before the first non-view record |
| SheetBuilder.SettingsRecordsAreNotRows | app/Utils/SheetBuilder.php:70-71 | the column-settings record and the view records never become data rows |
| SheetBuilder.ViewName | app/Utils/SheetBuilder.php:157-160 | a view's name is `SHEET_VIEW_NAME` of its first cell's settings, absent otherwise |
| SheetBuilder.ViewNameOfCell | app/Utils/SheetBuilder.php:157-160 | a first cell encoding `SHEET_VIEW_NAME=name` names the view `name` |
| SheetBuilder.CreatedView | app/Utils/SheetBuilder.php:115-130 | view `k` has the `k`-th fresh id, the sheet, the settings' name, is unlocked and shows the given columns |
| SheetBuilder.CreatedViewIdsDistinct | app/Utils/SheetBuilder.php:115-130 | with a fresh id supply, the created views' ids are pairwise distinct |
| SheetBuilder.ApplyColumnSettings | app/Utils/SheetBuilder.php:19-29 | the same columns come back with their names; columns not in the slots are unchanged |
| SheetBuilder.AppliedOnce | app/Utils/SheetBuilder.php:19-29 | a listed column gets `CELL_TYPE` and `WIDTH` from its own slot's settings, when present, and keeps its type and width otherwise |
| FilterInput.ParseOp | resources/js/bundles/App/bundles/Sheet/SheetActionFilter.tsx:48 | a recognised operator token is one of the five accepted ones (never `!=`) and spells that operator |
| FilterInput.ParseOpToken | resources/js/bundles/App/bundles/Sheet/SheetActionFilter.tsx:58 | each accepted operator's token is recognised as that operator |
| FilterInput.Destructure | resources/js/bundles/App/bundles/Sheet/SheetActionFilter.tsx:64-66 | the column and operator tokens contain no space |
| FilterInput.FilterFromInput | resources/js/bundles/App/bundles/Sheet/SheetActionFilter.tsx:50-74 | a filter is made exactly when the input is valid; it uses the first column of that name, an accepted operator and the value with its `;` removed |
| FilterInput.FilterRoundTrip | resources/js/bundles/App/bundles/Sheet/SheetActionFilter.tsx:63-72 | round trip: `c op v;` for a space-free existing name creates the filter with that column, value `v` and operator `op` |
| FilterInput.FilterInverse | resources/js/bundles/App/bundles/Sheet/SheetActionFilter.tsx:63-72 | converse: a created filter means the input was name, operator token and value with `;`, joined by single spaces |
| FilterInput.NotEqualRejected | resources/js/bundles/App/bundles/Sheet/SheetActionFilter.tsx:48-58 | typing `!=` creates no filter |
| FilterInput.FirstColumn | resources/js/bundles/App/bundles/Sheet/SheetActionFilter.tsx:69 | `findIndex` picks a column that has the typed name |
| SheetActions.Put | resources/js/bundles/App/state/sheet/actions.ts:69 | `t[k] = v`: a new key goes last, an existing key keeps its place, and the value is stored |
| SheetActions.NormalizeIds | resources/js/bundles/App/state/sheet/actions.ts:66-73 | the keyed object holds exactly the items' ids |
| SheetActions.NormalizeLast | resources/js/bundles/App/state/sheet/actions.ts:68-73 | each id holds the last item that carries it |
| SheetActions.NormalizeKeys | resources/js/bundles/App/state/sheet/actions.ts:66-73 | with distinct ids, the object's keys come in the server's order |
| SheetActions.RawCmp | resources/js/bundles/App/state/sheet/actions.ts:21-25 | raw values compare as strings by code unit; equal exactly when identical; `null` after every string |
| SheetActions.RawPreorder | resources/js/bundles/App/state/sheet/actions.ts:25 | raw values are totally preordered |
| SheetActions.ResolveVisibleColumns | resources/js/bundles/App/state/sheet/actions.ts:28-30 | the visible columns are a permutation of the column ids |
| SheetActions.VisibleColumnsOrdered | resources/js/bundles/App/state/sheet/actions.ts:28-30 | the visible columns go by non-decreasing position, ties in key order |
| SheetActions.FindCellFirst | resources/js/bundles/App/state/sheet/actions.ts:21 | `find` fails exactly when no cell is in the column, and otherwise finds the first |
| SheetActions.ResolveVisibleRows | resources/js/bundles/App/state/sheet/actions.ts:19-26 | the visible rows are a permutation of the row ids |
| SheetActions.VisibleRowPair | resources/js/bundles/App/state/sheet/actions.ts:19-26 | any two places of the visible rows are in raw-value order (sort list order as precedence, each in its direction), full ties in key order |
| SheetActions.VisibleRowsOrdered | resources/js/bundles/App/state/sheet/actions.ts:19-26 | the whole visible-row list is in that order |
| SheetActions.LoadSheet | resources/js/bundles/App/state/sheet/actions.ts:64-85 | a loaded sheet keeps its id, has no sorts, and its visible lists are permutations of its rows' and columns' ids |
| SheetActions.LoadSheetRetrievable | resources/js/bundles/App/state/sheet/actions.ts:66-73 | every row and column sent is retrievable by its id (the last one when ids repeat), and nothing else is stored |
| SheetActions.LoadSheetRowsById | resources/js/bundles/App/state/sheet/actions.ts:80 | without sorts the rows are shown in strictly ascending id order |
| SheetActions.CreateSort | resources/js/bundles/App/state/sheet/actions.ts:40-53 | the new sort goes last, earlier sorts stay in order, visible rows are recomputed as a permutation of the rows, and nothing else changes |
| SheetActions.CriteriaAppend | resources/js/bundles/App/state/sheet/actions.ts:46-47 | appending a criterion keeps decided comparisons and breaks ties with the new criterion alone |
| SheetActions.CreateSortRefines | resources/js/bundles/App/state/sheet/actions.ts:46-51 | after `createSort`, rows go by the earlier sorts first, ties broken by the new sort, full ties in key order |
| DeleteRows.At | resources/js/bundles/App/state/sheet/actions/deleteSheetRows.tsx:46 | `visibleRows[i]` is an id exactly inside the list, `undefined` outside |
| DeleteRows.Range | resources/js/bundles/App/state/sheet/actions/deleteSheetRows.tsx:45-47 | the loop reads one place per index from first to last, none when first is after last |
| DeleteRows.SelectRows | resources/js/bundles/App/state/sheet/actions/deleteSheetRows.tsx:49-51 | when the end row is not visible, only the start id is selected |
| DeleteRows.SelectVisibleRange | resources/js/bundles/App/state/sheet/actions/deleteSheetRows.tsx:41-48 | with both ends visible, the selection is the slice from start to end inclusive, empty when start is after end |
| DeleteRows.SelectFromMissingStart | resources/js/bundles/App/state/sheet/actions/deleteSheetRows.tsx:41-48 | a missing start reads index -1: `undefined`, then every row up to the end |
| DeleteRows.RemoveEachIsKeep | resources/js/bundles/App/state/sheet/actions/deleteSheetRows.tsx:60-61 | filtering out each selected id in turn is one order-preserving filter of the survivors |
| DeleteRows.Snapshot | resources/js/bundles/App/state/sheet/actions/deleteSheetRows.tsx:53-59 | the snapshot succeeds exactly when every selected row is stored, has one entry per selected row, and otherwise fails on a missing row |
| DeleteRows.SnapshotEntries | resources/js/bundles/App/state/sheet/actions/deleteSheetRows.tsx:53-59 | entry `k` is the `k`-th deleted row with all of its cells |
| DeleteRows.PlanDeletion | resources/js/bundles/App/state/sheet/actions/deleteSheetRows.tsx:36-86 | the deletion is planned exactly when the snapshot succeeds, and it deletes the selected ids |
| DeleteRows.DeleteSheetRowsThunk | resources/js/bundles/App/state/sheet/actions/deleteSheetRows.tsx:66-88 | the history step is recorded first, then the forward action runs once: `updateSheet` for the thunk's sheet with the next lists and `true` as third argument, then the server deletion of the selected ids |
| DeleteRows.ForwardRemoves | resources/js/bundles/App/state/sheet/actions/deleteSheetRows.tsx:60-75 | the next rows and visible rows are the old lists minus the deleted ids, in order; the leaders are recomputed; the server deletes those ids |
| DeleteRows.UndoRecreates | resources/js/bundles/App/state/sheet/actions/deleteSheetRows.tsx:77-86 | undo recreates one row per deleted id, each with all of its cells |
| DeleteRows.UndoAfterDo | resources/js/bundles/App/state/sheet/actions/deleteSheetRows.tsx:77-83 | undo after do restores the sheet exactly |
| DeleteRows.RedoReproduces | resources/js/bundles/App/state/sheet/actions/deleteSheetRows.tsx:66-75 | redo after undo, or the forward action from any state with the same selection, reproduces the same next state |
| CellKeyboard.OneKeyHandler | resources/js/bundles/App/bundles/Sheet/SheetCellContainer.tsx:42-72 | at most one key handler listens; none off the active sheet; the selected handler listens exactly when the cell is selected and not editing |
| CellKeyboard.Interpret | resources/js/bundles/App/bundles/Sheet/SheetCellContainer.tsx:76-143 | effects without an update of a cell leave it unchanged |
| CellKeyboard.InterpretAppend | resources/js/bundles/App/bundles/Sheet/SheetCellContainer.tsx:86-146 | running two lists of effects is running them one after the other |
| CellKeyboard.LongKey | resources/js/bundles/App/bundles/Sheet/SheetCellContainer.tsx:115 | a key name longer than one code unit is not a character key |
| CellKeyboard.TypingStartsEditing | resources/js/bundles/App/bundles/Sheet/SheetCellContainer.tsx:115-120 | a character key without ctrl or meta, editing allowed, starts editing with the key as value, undoable to the old value |
| CellKeyboard.SelectedNavigates | resources/js/bundles/App/bundles/Sheet/SheetCellContainer.tsx:121-138 | Enter/ArrowDown, Tab/ArrowRight, ArrowLeft and ArrowUp move DOWN, RIGHT, LEFT, UP, passing shift through, and leave the cell as it is |
| CellKeyboard.DeleteClearsCell | resources/js/bundles/App/bundles/Sheet/SheetCellContainer.tsx:139-144 | Delete or Backspace starts editing with an empty value, gated by the navigation flag |
| CellKeyboard.SelectedNavigationPrevented | resources/js/bundles/App/bundles/Sheet/SheetCellContainer.tsx:115-121 | with navigation prevented, only typing a character can do anything |
| CellKeyboard.EnterClosesTwice | resources/js/bundles/App/bundles/Sheet/SheetCellContainer.tsx:87-99 | Enter while editing emits close and move DOWN twice for the same cell and ends editing |
| CellKeyboard.EditingNavigates | resources/js/bundles/App/bundles/Sheet/SheetCellContainer.tsx:94-110 | other keys: ArrowDown, Tab, ArrowUp close and move DOWN, RIGHT, UP; every other key does nothing |
| CellKeyboard.SideArrowsIgnoredWhileEditing | resources/js/bundles/App/bundles/Sheet/SheetCellContainer.tsx:94-110 | ArrowLeft and ArrowRight do nothing while editing |
| CellKeyboard.OnlyMouseClosesWhenPrevented | resources/js/bundles/App/bundles/Sheet/SheetCellContainer.tsx:79-94 | with navigation prevented no key ends editing; only a press outside the cell does |
| CellKeyboard.DoubleClickOpens | resources/js/bundles/App/bundles/Sheet/SheetCellContainer.tsx:74-77 | a double-click sets editing to true and nothing else |
| UserReducer.Spread | resources/js/bundles/App/state/user/reducers.ts:27 | a spread keeps the first object's keys in place |
| UserReducer.SpreadIsUnion | resources/js/bundles/App/state/user/reducers.ts:27 | a spread's entries are the union of both objects, the later one winning |
| UserReducer.SpreadIdempotent | resources/js/bundles/App/state/user/reducers.ts:27 | spreading the same object twice is spreading it once |
| UserReducer.Reduce | resources/js/bundles/App/state/user/reducers.ts:22-48 | the reducer keeps the user an object and its keys in place |
| UserReducer.UpdateUserMerges | resources/js/bundles/App/state/user/reducers.ts:25-28 | `UPDATE_USER` replaces the fields present in the updates and leaves every other field unchanged |
| UserReducer.NestedUpdateIsolated | resources/js/bundles/App/state/user/reducers.ts:30-43 | `UPDATE_USER_ACTIVE`, `_COLOR` and `_SUBSCRIPTION` change only their own field, merging the updates into it |
| UserReducer.UnrecognisedIsIdentity | resources/js/bundles/App/state/user/reducers.ts:45-46 | an unrecognised action returns the state unchanged |
| UserReducer.NestedIdempotent | resources/js/bundles/App/state/user/reducers.ts:30-43 | a nested update applied twice equals one application |
| UserReducer.ReduceIdempotent | resources/js/bundles/App/state/user/reducers.ts:25-46 | every action applied twice gives the same user as applied once |

Two behaviours of the code that the model follows as written:

- A `ROW_BREAK` follows every cluster, including the last (`resolvers.ts:96-100`).
- The filter step reads `cells[row.cells[columnId]].value` for each filter in turn, and `every` stops at the first filter the row fails. The read throws when the row, a filter it reaches, or that filter's cell is missing (`resolvers.ts:63-67`); filters after a failing one are never read. The model makes exactly those reads a precondition (`VisibleRows.FilterResolvable`, built on `VisibleRows.FiltersReadable`).

## Left out

- Numbers are integers: `Number()` is modelled for optionally signed decimal integers. Fractions, exponents, hexadecimal, binary (`0b…`) and octal (`0o…`) literals, `Infinity` and the other floating-point forms read as text. `Val = Num(int) | Str(string)` has no floating point.
- Values.ParseShowInt: exact read-back holds in JavaScript only for |n| ≤ 2^53. `Number()` returns a double, so larger numerals are rounded (`Number("9007199254740993")` is `9007199254740992`), and numerals beyond about 1.8e308 read as `Infinity`.
- Values.ResolveNumeral: resolves to the exact integer; JavaScript agrees only for |n| ≤ 2^53, for the rounding reason above.
- Values.NumeralEqNumeral: matches JavaScript only for |m|, |n| ≤ 2^53. Beyond that, distinct numerals that round to the same double pass `=` in JavaScript but fail in the model, and `Values.ValCmp` orders values that lodash ties.
- Lower-casing is ASCII only, and string order is by code unit with one code point per `char`. There is no locale, and no Unicode case mapping.
- VisibleRows.SortStepOrdered: stated only when each sort column holds values of one kind. Mixing numbers and text in one column makes lodash's comparator non-transitive (`Values.MixedKindsNotTransitive`), so there the order depends on the engine's sort algorithm. The model proves only that the result is a permutation.
- VisibleRows.ResolveVisibleRows: requires every row to exist and, on each row, every filter `every` reaches (up to the first one the row fails) to exist with a resolvable cell, and every sort cell to resolve. It also requires the first group record to exist, and every group record when some filtered row is stored. The JavaScript throws otherwise. Cell lookups for groups tolerate missing rows and cells, as the code does.
- `Object.keys` lists integer-like keys first in JavaScript; tables keep plain insertion order.
- lodash's internals other than `orderBy`'s comparator shape are not modelled. `groupBy` is specified by its clusters and `sort()` by code-unit order.
- `SheetUtils::getColumnType` is not part of this model: a new column records its sample value (`sample`) and a stored column's type is `Guessed(sample)` until `CELL_TYPE` names one.
- UUIDs are an injected supply `uuid: nat -> string`, drawn in the order the PHP draws them. Freshness is a precondition where it matters.
- The database inserts, `SheetColumn::find/save`, `SheetView::create` and `Csv::toArray` become returned lists and maps. A CSV file is a sequence of records, each a list of (header, value) pairs.
- PHP arrays with numeric keys and duplicate header names are not modelled: a record is a list of pairs and a lookup takes the first pair with the name. Where the PHP reads an undefined index unguarded, the application raises an `ErrorException` (Laravel turns the notice into an exception); the model reads `null` instead. This covers a record missing a column name (`SheetBuilder.php:82`) and a view whose settings list is empty or lacks `SHEET_VIEW_NAME` (`SheetBuilder.php:159`, `SheetBuilder.ViewName`).
- SheetBuilder.SheetViewsSettings: requires a non-view record after the run of view records. The PHP loop has no end-of-array check and reads past the end otherwise.
- SheetBuilder.ColumnSettings: requires at least one record. The PHP reads `$csvRows[0]` unguarded.
- `getSheetSettingsFromCell`'s `null` branch is unreachable (`explode` returns at least one piece). The model's parse always returns a map.
- `resolveSheetRowLeaders` is not part of this model: it is a parameter of the deletion. `createHistoryStep`, `updateSheetSelectionFromArrowKey` and the `mutation.*` calls are emitted as effect tokens.
- The effect of `updateSheetCell`'s fourth argument is not modelled; the handlers only record whether it was passed.
- A cell's `value` in `CellKeyboard.CellProps` is the one captured when the keydown listener was last bound (its effect does not re-run on value changes, SheetCellContainer.tsx:56), so the undo value the handlers record can be stale; the model does not track the live value separately.
- The effect of `updateSheet`'s third argument is not modelled (`updateSheet` itself is not part of this model); the deletion records that both history directions pass `true`.
- `focusCell`, the debounce timer, the `localStorage` highlight, `batch` and React's listener bookkeeping are timing and browser state. `Handle` models which handlers are attached, not when.
- UserReducer.Reduce: the default `state = initialUserState` is not modelled; the initial user comes from the page's `initialData`, outside this model, so the state is always passed.
- UserReducer.FieldsOf: spreading a field that holds a string or other non-object value is treated as spreading no fields. JavaScript would spread a string's characters.
- Rendering, styling, forms and fixtures outside these seven parts are not modelled.

=== FILE: cell_keyboard.dfy ===
/**
 * The keyboard and mouse behaviour of one sheet cell. A selected cell that
 * is not being edited listens for keys that start editing or move the
 * selection; a cell being edited listens for keys that close it and move
 * on, and for a mousedown outside it. Each handler is a pure function from
 * the event to the effects it emits, in order.
 */
module CellKeyboard {
  import opened Wrappers
  import opened Text

  /** Where the selection moves. */
  datatype Direction = UP | DOWN | LEFT | RIGHT

  /** The fields an `updateSheetCell` call sets; an absent field is left alone. */
  datatype CellUpdates = CellUpdates(value: Option<string>, isCellEditing: Option<bool>)

  /**
   * The actions a handler dispatches. `lastArgument` is the fourth argument
   * of `updateSheetCell`: `true` when given, `false` when left out.
   */
  datatype Action =
    | UpdateSheetCell(cellId: string, updates: CellUpdates, undoUpdates: Option<CellUpdates>, lastArgument: bool)
    | UpdateSheetSelectionFromArrowKey(sheetId: string, cellId: string, direction: Direction, extend: bool)

  /** What a handler does, in order. */
  datatype Effect = PreventDefault | Dispatch(action: Action) | CloseCell

  /** A keydown event: the key's name and its modifiers. */
  datatype KeyEvent = KeyEvent(key: string, shiftKey: bool, ctrlKey: bool, metaKey: bool)

  /** The sheet's two suppression flags. */
  datatype Flags = Flags(isSelectedCellEditingPrevented: bool, isSelectedCellNavigationPrevented: bool)

  /**
   * The props and state one cell's handlers close over. For the keydown
   * listener of a selected cell, `value` is the cell's value when the
   * listener was last bound: the effect that binds it re-runs only when the
   * selection, editing or suppression flags change, not when the value does.
   */
  datatype CellProps = CellProps(sheetId: string, cellId: string, value: string, hasOnCloseCell: bool)

  /** A cell as the component sees it. */
  datatype CellView = CellView(isCellEditing: bool, isCellSelectedHere: bool, isActiveSheet: bool)

  /** The events a cell reacts to. */
  datatype Event = KeyDown(e: KeyEvent) | MouseDown(insideContainer: bool) | DoubleClick

  // ---------------------------------------------------------------------------
  // Which handlers listen
  // ---------------------------------------------------------------------------

  /** `isCellEditing`: editing counts only on the active sheet. */
  predicate Editing(c: CellView)
  {
    c.isCellEditing && c.isActiveSheet
  }

  /** `isCellSelected`: selected on this sheet, and this sheet is active. */
  predicate Selected(c: CellView)
  {
    c.isCellSelectedHere && c.isActiveSheet
  }

  /** The selected-state key handler is attached. */
  predicate ListensWhileSelected(c: CellView)
  {
    Selected(c) && !Editing(c)
  }

  /** The editing-state key and mouse handlers are attached. */
  predicate ListensWhileEditing(c: CellView)
  {
    Editing(c)
  }

  /** At most one key handler listens, and none on an inactive sheet. */
  lemma OneKeyHandler(c: CellView)
    ensures !(ListensWhileSelected(c) && ListensWhileEditing(c))
    ensures !c.isActiveSheet ==> !ListensWhileSelected(c) && !ListensWhileEditing(c)
    ensures ListensWhileSelected(c) <==> c.isCellSelectedHere && c.isActiveSheet && !c.isCellEditing
  {
  }

  // ---------------------------------------------------------------------------
  // The handlers
  // ---------------------------------------------------------------------------

  /** `e.key && e.key.length === 1`: one UTF-16 code unit. */
  predicate IsCharacterKey(key: string)
  {
    key != "" && Utf16Length(key) == 1
  }

  /** The update that closes the cell. */
  function Close(p: CellProps): Action
  {
    UpdateSheetCell(p.cellId, CellUpdates(None, Some(false)), None, true)
  }

  /** Move the selection from this cell. */
  function Move(p: CellProps, d: Direction, e: KeyEvent): Action
  {
    UpdateSheetSelectionFromArrowKey(p.sheetId, p.cellId, d, e.shiftKey)
  }

  /** `onCloseCell && onCloseCell()`. */
  function CloseCallback(p: CellProps): seq<Effect>
  {
    if p.hasOnCloseCell then [CloseCell] else []
  }

  /** A block of the handler that runs only when its test holds. */
  function When(test: bool, effects: seq<Effect>): seq<Effect>
  {
    if test then effects else []
  }

  /** Start editing with `v` as the new value, undoable back to the old one. */
  function StartEditing(p: CellProps, v: string): Action
  {
    UpdateSheetCell(p.cellId, CellUpdates(Some(v), Some(true)), Some(CellUpdates(Some(p.value), None)), false)
  }

  /** `handleKeydownWhileCellIsSelected`: its blocks in source order. */
  function OnKeySelected(p: CellProps, f: Flags, e: KeyEvent): seq<Effect>
  {
    var nav := !f.isSelectedCellNavigationPrevented;
    When(IsCharacterKey(e.key) && !e.ctrlKey && !e.metaKey && !f.isSelectedCellEditingPrevented,
      [PreventDefault, Dispatch(StartEditing(p, e.key))])
    + When(nav && (e.key == "Enter" || e.key == "ArrowDown"), [PreventDefault, Dispatch(Move(p, DOWN, e))])
    + When(nav && (e.key == "Tab" || e.key == "ArrowRight"), [PreventDefault, Dispatch(Move(p, RIGHT, e))])
    + When(nav && e.key == "ArrowLeft", [PreventDefault, Dispatch(Move(p, LEFT, e))])
    + When(nav && e.key == "ArrowUp", [PreventDefault, Dispatch(Move(p, UP, e))])
    + When(nav && (e.key == "Delete" || e.key == "Backspace"), [PreventDefault, Dispatch(StartEditing(p, ""))])
  }

  /** `handleKeydownWhileCellIsEditing`: its blocks in source order. */
  function OnKeyEditing(p: CellProps, f: Flags, e: KeyEvent): seq<Effect>
  {
    var nav := !f.isSelectedCellNavigationPrevented;
    When(e.key == "Enter" && nav, [Dispatch(Close(p)), Dispatch(Move(p, DOWN, e))] + CloseCallback(p))
    + When(nav && (e.key == "Enter" || e.key == "ArrowDown"), [PreventDefault, Dispatch(Close(p)), Dispatch(Move(p, DOWN, e))])
    + When(nav && e.key == "Tab", [PreventDefault, Dispatch(Close(p)), Dispatch(Move(p, RIGHT, e))])
    + When(nav && e.key == "ArrowUp", [PreventDefault, Dispatch(Close(p)), Dispatch(Move(p, UP, e))])
  }

  /** `handleMousedownWhileCellIsEditing`: a press outside the cell closes it. */
  function OnMouseDownEditing(p: CellProps, insideContainer: bool): seq<Effect>
  {
    When(!insideContainer, [Dispatch(Close(p))] + CloseCallback(p))
  }

  /** `openOnDoubleClick`. */
  function OnDoubleClick(p: CellProps): seq<Effect>
  {
    [PreventDefault, Dispatch(UpdateSheetCell(p.cellId, CellUpdates(None, Some(true)), None, true))]
  }

  /** Everything the cell does for one event: each attached handler's effects. */
  function Handle(c: CellView, p: CellProps, f: Flags, ev: Event): seq<Effect>
  {
    match ev
    case KeyDown(e) =>
      When(ListensWhileSelected(c), OnKeySelected(p, f, e)) + When(ListensWhileEditing(c), OnKeyEditing(p, f, e))
    case MouseDown(inside) => When(ListensWhileEditing(c), OnMouseDownEditing(p, inside))
    case DoubleClick => OnDoubleClick(p)
  }

  // ---------------------------------------------------------------------------
  // What the effects do to the cell
  // ---------------------------------------------------------------------------

  /** The cell's stored value and editing flag. */
  datatype CellState = CellState(value: string, isCellEditing: bool)

  /** The cell after one effect: an update of this cell sets the fields it carries. */
  function ApplyEffect(s: CellState, cellId: string, effect: Effect): CellState
  {
    match effect
    case Dispatch(UpdateSheetCell(id, u, _, _)) =>
      if id == cellId then CellState(u.value.GetOr(s.value), u.isCellEditing.GetOr(s.isCellEditing)) else s
    case _ => s
  }

  /** The cell after the effects' updates of `cellId`; other effects leave it alone. */
  function Interpret(s: CellState, cellId: string, effects: seq<Effect>): (r: CellState)
    ensures (forall k | 0 <= k < |effects| :: !effects[k].Dispatch? || !effects[k].action.UpdateSheetCell?) ==> r == s
    decreases |effects|
  {
    if |effects| == 0 then s
    else
      assert forall k | 1 <= k < |effects| :: effects[1..][k - 1] == effects[k];
      Interpret(ApplyEffect(s, cellId, effects[0]), cellId, effects[1..])
  }

  /** Interpreting a concatenation is interpreting its parts one after the other. */
  lemma {:induction false} InterpretAppend(s: CellState, cellId: string, a: seq<Effect>, b: seq<Effect>)
    ensures Interpret(s, cellId, a + b) == Interpret(Interpret(s, cellId, a), cellId, b)
    decreases |a|
  {
    if |a| > 0 {
      var next := ApplyEffect(s, cellId, a[0]);
      assert (a + b)[0] == a[0] && (a + b)[1..] == a[1..] + b;
      assert Interpret(s, cellId, a + b) == Interpret(next, cellId, a[1..] + b);
      assert Interpret(s, cellId, a) == Interpret(next, cellId, a[1..]);
      InterpretAppend(next, cellId, a[1..], b);
    } else {
      assert a + b == b;
    }
  }

  // ---------------------------------------------------------------------------
  // Properties of the selected-state handler
  // ---------------------------------------------------------------------------

  /** A key name longer than one character is not a character key. */
  lemma LongKey(key: string)
    requires |key| > 1
    ensures !IsCharacterKey(key)
  {
  }

  /**
   * Typing a character into a selected cell: the value becomes the key and
   * editing begins, undoable back to the previous value, and nothing else
   * is emitted.
   */
  lemma TypingStartsEditing(p: CellProps, f: Flags, e: KeyEvent)
    requires IsCharacterKey(e.key) && !e.ctrlKey && !e.metaKey && !f.isSelectedCellEditingPrevented
    ensures OnKeySelected(p, f, e) == [PreventDefault, Dispatch(StartEditing(p, e.key))]
    ensures Interpret(CellState(p.value, false), p.cellId, OnKeySelected(p, f, e)) == CellState(e.key, true)
  {
    assert |e.key| == 1 by {
      if |e.key| > 1 { LongKey(e.key); }
    }
  }

  /** The direction a navigation key moves the selection from a selected cell. */
  function SelectedDirection(key: string): Option<Direction>
  {
    if key == "Enter" || key == "ArrowDown" then Some(DOWN)
    else if key == "Tab" || key == "ArrowRight" then Some(RIGHT)
    else if key == "ArrowLeft" then Some(LEFT)
    else if key == "ArrowUp" then Some(UP)
    else None
  }

  /**
   * A navigation key on a selected cell moves the selection one step in its
   * direction, passing Shift on as the extend flag, and leaves the cell as
   * it was.
   */
  lemma SelectedNavigates(p: CellProps, f: Flags, e: KeyEvent)
    requires !f.isSelectedCellNavigationPrevented && SelectedDirection(e.key).Some?
    ensures var d := SelectedDirection(e.key).value;
      OnKeySelected(p, f, e) == [PreventDefault, Dispatch(UpdateSheetSelectionFromArrowKey(p.sheetId, p.cellId, d, e.shiftKey))]
    ensures forall s :: Interpret(s, p.cellId, OnKeySelected(p, f, e)) == s
  {
    assert |e.key| > 1;
    LongKey(e.key);
    var d := SelectedDirection(e.key).value;
    var effects := [PreventDefault, Dispatch(UpdateSheetSelectionFromArrowKey(p.sheetId, p.cellId, d, e.shiftKey))];
    assert OnKeySelected(p, f, e) == effects;
    assert forall k | 0 <= k < |effects| :: !effects[k].Dispatch? || !effects[k].action.UpdateSheetCell?;
  }

  /**
   * Delete or Backspace on a selected cell empties it and starts editing,
   * undoable back to the previous value; the navigation flag gates it, the
   * editing flag does not.
   */
  lemma DeleteClearsCell(p: CellProps, f: Flags, e: KeyEvent)
    requires !f.isSelectedCellNavigationPrevented && (e.key == "Delete" || e.key == "Backspace")
    ensures OnKeySelected(p, f, e) == [PreventDefault, Dispatch(StartEditing(p, ""))]
    ensures Interpret(CellState(p.value, false), p.cellId, OnKeySelected(p, f, e)) == CellState("", true)
  {
    assert |e.key| > 1;
    LongKey(e.key);
  }

  /** With navigation prevented, a selected cell reacts only to typing. */
  lemma SelectedNavigationPrevented(p: CellProps, f: Flags, e: KeyEvent)
    requires f.isSelectedCellNavigationPrevented
    ensures OnKeySelected(p, f, e) == When(IsCharacterKey(e.key) && !e.ctrlKey && !e.metaKey && !f.isSelectedCellEditingPrevented,
      [PreventDefault, Dispatch(StartEditing(p, e.key))])
  {
  }

  // ---------------------------------------------------------------------------
  // Properties of the editing-state handlers
  // ---------------------------------------------------------------------------

  /** Enter while editing emits the close-and-move-down pair twice, both from the same cell. */
  lemma EnterClosesTwice(p: CellProps, f: Flags, e: KeyEvent)
    requires !f.isSelectedCellNavigationPrevented && e.key == "Enter"
    ensures OnKeyEditing(p, f, e) ==
      [Dispatch(Close(p)), Dispatch(Move(p, DOWN, e))] + CloseCallback(p) + [PreventDefault, Dispatch(Close(p)), Dispatch(Move(p, DOWN, e))]
    ensures Interpret(CellState(p.value, true), p.cellId, OnKeyEditing(p, f, e)) == CellState(p.value, false)
  {
    var first := [Dispatch(Close(p)), Dispatch(Move(p, DOWN, e))] + CloseCallback(p);
    var second := [PreventDefault, Dispatch(Close(p)), Dispatch(Move(p, DOWN, e))];
    InterpretAppend(CellState(p.value, true), p.cellId, first, second);
  }

  /** The direction a key moves the selection when it closes an edited cell. */
  function EditingDirection(key: string): Option<Direction>
  {
    if key == "Enter" || key == "ArrowDown" then Some(DOWN)
    else if key == "Tab" then Some(RIGHT)
    else if key == "ArrowUp" then Some(UP)
    else None
  }

  /**
   * ArrowDown, Tab and ArrowUp close the edit and move in their direction;
   * every key other than these and Enter does nothing.
   */
  lemma EditingNavigates(p: CellProps, f: Flags, e: KeyEvent)
    requires !f.isSelectedCellNavigationPrevented && e.key != "Enter"
    ensures EditingDirection(e.key).None? ==> OnKeyEditing(p, f, e) == []
    ensures EditingDirection(e.key).Some? ==>
      OnKeyEditing(p, f, e) == [PreventDefault, Dispatch(Close(p)), Dispatch(Move(p, EditingDirection(e.key).value, e))]
    ensures EditingDirection(e.key).Some? ==>
      Interpret(CellState(p.value, true), p.cellId, OnKeyEditing(p, f, e)) == CellState(p.value, false)
  {
  }

  /** ArrowLeft and ArrowRight do nothing while editing. */
  lemma SideArrowsIgnoredWhileEditing(p: CellProps, f: Flags, e: KeyEvent)
    requires e.key == "ArrowLeft" || e.key == "ArrowRight"
    ensures OnKeyEditing(p, f, e) == []
  {
  }

  /**
   * With navigation prevented no keystroke reaches an edited cell, so no
   * keystroke ends editing; a mousedown outside the cell still closes it,
   * and one inside does nothing.
   */
  lemma OnlyMouseClosesWhenPrevented(c: CellView, p: CellProps, f: Flags, ev: Event, s: CellState)
    requires Editing(c) && f.isSelectedCellNavigationPrevented
    ensures ev.KeyDown? ==> Handle(c, p, f, ev) == []
    ensures ev.MouseDown? && ev.insideContainer ==> Handle(c, p, f, ev) == []
    ensures ev.MouseDown? && !ev.insideContainer ==> Interpret(s, p.cellId, Handle(c, p, f, ev)) == s.(isCellEditing := false)
  {
  }

  /** A double-click opens the cell for editing and keeps its value. */
  lemma DoubleClickOpens(c: CellView, p: CellProps, f: Flags, s: CellState)
    ensures Interpret(s, p.cellId, Handle(c, p, f, DoubleClick)) == s.(isCellEditing := true)
  {
  }
}

=== FILE: delete_rows.dfy ===
/**
 * Deleting the selected rows of a sheet. The ids to delete are read off
 * the visible rows between the selection's start and end; the next state
 * drops those ids from the sheet's rows and visible rows; and an undo step
 * that restores the three captured lists, with a snapshot of every deleted
 * row and its cells, is recorded before the forward step is applied.
 */
module DeleteRows {
  import opened Wrappers
  import opened Text
  import opened Sorting
  import SheetActions

  /** The selection's range, by row id. */
  datatype Selections = Selections(rangeStartRowId: string, rangeEndRowId: string)

  /** A stored row: its id and its cells object, column id to cell id. */
  datatype StoredRow = StoredRow(id: string, cells: SheetActions.Table<string>)

  /** A row as sent back to the server on undo: the row with its cells spelled out. */
  datatype RowToDatabase = RowToDatabase(row: StoredRow, cells: seq<Option<SheetActions.SheetCell>>)

  /** The part of a sheet that the deletion reads and writes; the leaders' shape is left open. */
  datatype Sheet<L> = Sheet(rows: seq<string>, visibleRows: seq<string>, visibleRowLeaders: L, selections: Selections)

  /** The store: the sheet, every row by id, every cell by id. */
  datatype Store<L> = Store(sheet: Sheet<L>, allSheetRows: map<string, StoredRow>, allSheetCells: map<string, SheetActions.SheetCell>)

  /** The three lists an `updateSheet` dispatch sets. */
  datatype Update<L> = Update(rows: seq<string>, visibleRows: seq<string>, visibleRowLeaders: L)

  /** A server mutation; an `undefined` id is carried as `None`. */
  datatype Mutation = DeleteSheetRows(ids: seq<Option<string>>) | CreateSheetRows(rows: seq<RowToDatabase>)

  /** One history direction: an update of the sheet, then a mutation. */
  datatype Step<L> = Step(update: Update<L>, mutation: Mutation)

  /**
   * What the thunk emits, in order. `UpdateSheet` carries the sheet id and
   * the third argument both history directions pass to `updateSheet`.
   */
  datatype Effect<L> =
    | CreateHistoryStep(actions: Step<L>, undoActions: Step<L>)
    | UpdateSheet(sheetId: string, update: Update<L>, skipServerUpdate: bool)
    | Mutate(mutation: Mutation)

  /** Why the thunk throws: reading `.cells` of a row that is not in the store. */
  datatype Error = MissingRow(key: string)

  /** Every stored row's cells object is a JavaScript object. */
  ghost predicate StoreShape<L>(store: Store<L>)
  {
    forall id | id in store.allSheetRows :: SheetActions.WellKeyed(store.allSheetRows[id].cells)
  }

  // ---------------------------------------------------------------------------
  // Selection
  // ---------------------------------------------------------------------------

  /** `visibleRows[i]`: `undefined` outside the list. */
  function At(visible: seq<string>, i: int): (r: Option<string>)
    ensures r.Some? <==> 0 <= i < |visible|
    ensures r.Some? ==> r.value == visible[i]
  {
    if 0 <= i < |visible| then Some(visible[i]) else None
  }

  /** The ids the loop from `first` to `last` pushes. */
  function Range(visible: seq<string>, first: int, last: int): (ids: seq<Option<string>>)
    ensures |ids| == if first <= last then last - first + 1 else 0
    ensures forall k | 0 <= k < |ids| :: ids[k] == At(visible, first + k)
    decreases last - first
  {
    if first > last then [] else [At(visible, first)] + Range(visible, first + 1, last)
  }

  /** Wrap ids as present values. */
  function Present(ids: seq<string>): (r: seq<Option<string>>)
    ensures |r| == |ids| && forall k | 0 <= k < |ids| :: r[k] == Some(ids[k])
  {
    seq(|ids|, k requires 0 <= k < |ids| => Some(ids[k]))
  }

  /** The ids to delete: the visible range from start to end when the end is visible, else the start alone. */
  function SelectRows(visible: seq<string>, sel: Selections): (ids: seq<Option<string>>)
    ensures sel.rangeEndRowId !in visible ==> ids == [Some(sel.rangeStartRowId)]
  {
    var first := IndexOf(visible, sel.rangeStartRowId);
    var last := IndexOf(visible, sel.rangeEndRowId);
    if last > -1 then Range(visible, first, last) else [Some(sel.rangeStartRowId)]
  }

  /**
   * With both ends visible, the ids are the contiguous slice from the
   * start's place to the end's, inclusive, and empty when the start lies
   * after the end.
   */
  lemma SelectVisibleRange(visible: seq<string>, sel: Selections)
    requires sel.rangeStartRowId in visible && sel.rangeEndRowId in visible
    ensures var first, last := IndexOf(visible, sel.rangeStartRowId), IndexOf(visible, sel.rangeEndRowId);
      SelectRows(visible, sel) == if first <= last then Present(visible[first..last + 1]) else []
  {
    var first, last := IndexOf(visible, sel.rangeStartRowId), IndexOf(visible, sel.rangeEndRowId);
    var ids := SelectRows(visible, sel);
    if first <= last {
      var slice := Present(visible[first..last + 1]);
      assert |ids| == |slice|;
      forall k | 0 <= k < |ids| ensures ids[k] == slice[k] {
        assert visible[first..last + 1][k] == visible[first + k];
      }
    }
  }

  /**
   * With the end visible but the start not, `indexOf` gives -1 and the loop
   * pushes `undefined` before the visible rows up to the end.
   */
  lemma SelectFromMissingStart(visible: seq<string>, sel: Selections)
    requires sel.rangeStartRowId !in visible && sel.rangeEndRowId in visible
    ensures SelectRows(visible, sel) == [None] + Present(visible[..IndexOf(visible, sel.rangeEndRowId) + 1])
  {
    var last := IndexOf(visible, sel.rangeEndRowId);
    var ids := SelectRows(visible, sel);
    var expected := [None] + Present(visible[..last + 1]);
    assert |ids| == |expected|;
    forall k | 0 <= k < |ids| ensures ids[k] == expected[k] {
      if k > 0 {
        assert expected[k] == Present(visible[..last + 1])[k - 1];
      }
    }
  }

  // ---------------------------------------------------------------------------
  // Removal
  // ---------------------------------------------------------------------------

  /** `filter(rowId => rowId !== id)` once per deleted id, in order. */
  function RemoveEach(xs: seq<string>, ids: seq<Option<string>>): (ys: seq<string>)
    ensures |ys| <= |xs|
    decreases |ids|
  {
    if |ids| == 0 then xs
    else RemoveEach(Keep(xs, (y: string) => Some(y) != ids[0]), ids[1..])
  }

  /** The survivors of a deletion: not among the deleted ids. */
  function Survives(ids: seq<Option<string>>): string -> bool
  {
    (y: string) => Some(y) !in ids
  }

  /**
   * Filtering out the ids one after another is one order-preserving filter:
   * exactly the elements that are none of the deleted ids survive.
   */
  lemma {:induction false} RemoveEachIsKeep(xs: seq<string>, ids: seq<Option<string>>)
    ensures RemoveEach(xs, ids) == Keep(xs, Survives(ids))
    decreases |ids|
  {
    if |ids| == 0 {
      KeepAll(xs, Survives(ids));
    } else {
      var p := (y: string) => Some(y) != ids[0];
      RemoveEachIsKeep(Keep(xs, p), ids[1..]);
      KeepBoth(xs, p, Survives(ids[1..]));
      assert forall y: string :: (Some(y) !in ids) == (Some(y) != ids[0] && Some(y) !in ids[1..]) by {
        assert ids == [ids[0]] + ids[1..];
      }
      KeepSame(xs, Both(p, Survives(ids[1..])), Survives(ids));
    }
  }

  // ---------------------------------------------------------------------------
  // Snapshot
  // ---------------------------------------------------------------------------

  /** The key `allSheetRows[id]` reads: `undefined` is read as the key "undefined". */
  function KeyOf(id: Option<string>): string
  {
    match id
    case Some(k) => k
    case None => "undefined"
  }

  /** `Object.keys(row.cells).map(columnId => allSheetCells[row.cells[columnId]])`. */
  function RowCells(row: StoredRow, allSheetCells: map<string, SheetActions.SheetCell>): (cells: seq<Option<SheetActions.SheetCell>>)
    requires SheetActions.WellKeyed(row.cells)
    ensures |cells| == |row.cells.keys|
    ensures forall k | 0 <= k < |cells| ::
      var cellId := row.cells.entries[row.cells.keys[k]];
      cells[k] == if cellId in allSheetCells then Some(allSheetCells[cellId]) else None
  {
    seq(|row.cells.keys|, k requires 0 <= k < |row.cells.keys| =>
      var cellId := row.cells.entries[row.cells.keys[k]];
      if cellId in allSheetCells then Some(allSheetCells[cellId]) else None)
  }

  /** The undo payload, one entry per id in order; it fails at the first id with no stored row. */
  function Snapshot<L>(store: Store<L>, ids: seq<Option<string>>): (r: Result<seq<RowToDatabase>, Error>)
    requires StoreShape(store)
    ensures r.Success? <==> forall k | 0 <= k < |ids| :: KeyOf(ids[k]) in store.allSheetRows
    ensures r.Failure? ==> exists k | 0 <= k < |ids| :: r.error == MissingRow(KeyOf(ids[k])) && KeyOf(ids[k]) !in store.allSheetRows
    ensures r.Success? ==> |r.value| == |ids|
    decreases |ids|
  {
    if |ids| == 0 then Success([])
    else
      var key := KeyOf(ids[0]);
      if key !in store.allSheetRows then Failure(MissingRow(key))
      else
        var row := store.allSheetRows[key];
        var rest := Snapshot(store, ids[1..]);
        assert forall k | 1 <= k < |ids| :: ids[k] == ids[1..][k - 1];
        if rest.Failure? then
          var k :| 0 <= k < |ids[1..]| && rest.error == MissingRow(KeyOf(ids[1..][k])) && KeyOf(ids[1..][k]) !in store.allSheetRows;
          assert ids[1..][k] == ids[k + 1];
          rest
        else
          Success([RowToDatabase(row, RowCells(row, store.allSheetCells))] + rest.value)
  }

  /** Each snapshot entry carries the stored row of its id and all of that row's cells. */
  lemma {:induction false} SnapshotEntries<L>(store: Store<L>, ids: seq<Option<string>>, k: int)
    requires StoreShape(store) && Snapshot(store, ids).Success?
    requires 0 <= k < |ids|
    ensures KeyOf(ids[k]) in store.allSheetRows
    ensures var row := store.allSheetRows[KeyOf(ids[k])];
      Snapshot(store, ids).value[k] == RowToDatabase(row, RowCells(row, store.allSheetCells))
    decreases |ids|
  {
    if k > 0 {
      assert Snapshot(store, ids).value[1..] == Snapshot(store, ids[1..]).value;
      SnapshotEntries(store, ids[1..], k - 1);
      assert ids[1..][k - 1] == ids[k];
    }
  }

  // ---------------------------------------------------------------------------
  // The thunk
  // ---------------------------------------------------------------------------

  /** The history pair: the forward step and the undo step. */
  datatype Deletion<L> = Deletion(ids: seq<Option<string>>, actions: Step<L>, undoActions: Step<L>)

  /**
   * The computation before anything is dispatched: the ids, the undo
   * snapshot, and the two steps, built only from values read from the store.
   * `leadersOf` is `resolveSheetRowLeaders`, which is not part of this model.
   */
  function PlanDeletion<L>(store: Store<L>, leadersOf: seq<string> -> L): (r: Result<Deletion<L>, Error>)
    requires StoreShape(store)
    ensures r.Success? <==> Snapshot(store, SelectRows(store.sheet.visibleRows, store.sheet.selections)).Success?
    ensures r.Success? ==> r.value.ids == SelectRows(store.sheet.visibleRows, store.sheet.selections)
  {
    var sheet := store.sheet;
    var ids := SelectRows(sheet.visibleRows, sheet.selections);
    var snapshot := Snapshot(store, ids);
    if snapshot.Failure? then Failure(snapshot.error)
    else
      var nextRows := RemoveEach(sheet.rows, ids);
      var nextVisible := RemoveEach(sheet.visibleRows, ids);
      var forward := Step(Update(nextRows, nextVisible, leadersOf(nextVisible)), DeleteSheetRows(ids));
      var undo := Step(Update(sheet.rows, sheet.visibleRows, sheet.visibleRowLeaders), CreateSheetRows(snapshot.value));
      Success(Deletion(ids, forward, undo))
  }

  /** Running a step: dispatch its update with `true` as third argument, then send its mutation. */
  function Run<L>(sheetId: string, step: Step<L>): seq<Effect<L>>
  {
    [UpdateSheet(sheetId, step.update, true), Mutate(step.mutation)]
  }

  /**
   * `deleteSheetRows`: the history step is recorded first, then the
   * forward step runs once; a missing row throws before anything is emitted.
   */
  function DeleteSheetRowsThunk<L>(sheetId: string, store: Store<L>, leadersOf: seq<string> -> L): (r: Result<seq<Effect<L>>, Error>)
    requires StoreShape(store)
    ensures r.Success? <==> PlanDeletion(store, leadersOf).Success?
    ensures r.Success? ==> var d := PlanDeletion(store, leadersOf).value;
      && |r.value| == 3
      && r.value[0] == CreateHistoryStep(d.actions, d.undoActions)
      && r.value[1] == UpdateSheet(sheetId, d.actions.update, true)
      && r.value[2] == Mutate(DeleteSheetRows(d.ids))
  {
    var plan := PlanDeletion(store, leadersOf);
    if plan.Failure? then Failure(plan.error)
    else Success([CreateHistoryStep(plan.value.actions, plan.value.undoActions)] + Run(sheetId, plan.value.actions))
  }

  /** `updateSheet`: set the three lists, leave the rest of the sheet alone. */
  function Apply<L>(sheet: Sheet<L>, u: Update<L>): (r: Sheet<L>)
    ensures r.selections == sheet.selections
  {
    sheet.(rows := u.rows, visibleRows := u.visibleRows, visibleRowLeaders := u.visibleRowLeaders)
  }

  /**
   * The forward step removes exactly the deleted ids from the rows and the
   * visible rows, keeping the survivors in order, recomputes the leaders,
   * and asks the server to delete the same ids.
   */
  lemma ForwardRemoves<L>(store: Store<L>, leadersOf: seq<string> -> L)
    requires StoreShape(store) && PlanDeletion(store, leadersOf).Success?
    ensures var d := PlanDeletion(store, leadersOf).value;
      var next := Apply(store.sheet, d.actions.update);
      && next.rows == Keep(store.sheet.rows, Survives(d.ids))
      && next.visibleRows == Keep(store.sheet.visibleRows, Survives(d.ids))
      && next.visibleRowLeaders == leadersOf(next.visibleRows)
      && d.actions.mutation == DeleteSheetRows(d.ids)
  {
    var ids := SelectRows(store.sheet.visibleRows, store.sheet.selections);
    RemoveEachIsKeep(store.sheet.rows, ids);
    RemoveEachIsKeep(store.sheet.visibleRows, ids);
  }

  /** The undo step sends one entry per deleted row, each with the stored row and its cells. */
  lemma UndoRecreates<L>(store: Store<L>, leadersOf: seq<string> -> L, k: int)
    requires StoreShape(store) && PlanDeletion(store, leadersOf).Success?
    requires 0 <= k < |PlanDeletion(store, leadersOf).value.ids|
    ensures var d := PlanDeletion(store, leadersOf).value;
      && d.undoActions.mutation.CreateSheetRows?
      && |d.undoActions.mutation.rows| == |d.ids|
      && KeyOf(d.ids[k]) in store.allSheetRows
      && var row := store.allSheetRows[KeyOf(d.ids[k])];
         d.undoActions.mutation.rows[k] == RowToDatabase(row, RowCells(row, store.allSheetCells))
  {
    var ids := SelectRows(store.sheet.visibleRows, store.sheet.selections);
    SnapshotEntries(store, ids, k);
  }

  /**
   * Undo after do gives back exactly the sheet the deletion read. A
   * corollary of `PlanDeletion` capturing the three lists before the
   * forward step and of `Apply` overwriting all three.
   */
  lemma UndoAfterDo<L>(store: Store<L>, leadersOf: seq<string> -> L)
    requires StoreShape(store) && PlanDeletion(store, leadersOf).Success?
    ensures var d := PlanDeletion(store, leadersOf).value;
      Apply(Apply(store.sheet, d.actions.update), d.undoActions.update) == store.sheet
  {
  }

  /**
   * Redo after undo reproduces the state after the first run, and so does
   * the forward step from any sheet with the same selection. A corollary
   * of `Apply` overwriting all three lists the forward step sets.
   */
  lemma RedoReproduces<L>(store: Store<L>, leadersOf: seq<string> -> L, sheet: Sheet<L>)
    requires StoreShape(store) && PlanDeletion(store, leadersOf).Success?
    requires sheet.selections == store.sheet.selections
    ensures var d := PlanDeletion(store, leadersOf).value;
      var next := Apply(store.sheet, d.actions.update);
      && Apply(Apply(next, d.undoActions.update), d.actions.update) == next
      && Apply(sheet, d.actions.update) == next
  {
  }
}

=== FILE: filter_input.dfy ===
/**
 * The filter box of a sheet: typing `<column> <op> <value>;` creates a
 * filter. The text is cut at single spaces; the first piece names the
 * column, the second is the operator, and the rest, glued back with single
 * spaces, is the value, which must end in `;` (dropped from the filter).
 * Only `=`, `>`, `>=`, `<` and `<=` are accepted.
 */
module FilterInput {
  import opened Wrappers
  import opened Text
  import opened Sorting
  import opened Values

  /** A column of the sheet: its id and its name. */
  datatype Column = Column(id: string, name: string)

  /** The pieces of the input, as destructured: name, operator (absent with fewer than two pieces) and value. */
  datatype Fields = Fields(name: string, op: Option<string>, value: string)

  /** The filter the box creates. */
  datatype NewFilter = NewFilter(id: string, columnId: string, value: string, op: FilterType)

  /** How an operator is typed. */
  function OpToken(op: FilterType): string
  {
    match op
    case Eq => "="
    case Ne => "!="
    case Gt => ">"
    case Ge => ">="
    case Lt => "<"
    case Le => "<="
  }

  /** The operator a token names, among the five the box accepts. */
  function ParseOp(token: string): (r: Option<FilterType>)
    ensures r.Some? ==> r.value != Ne && OpToken(r.value) == token
  {
    if token == "=" then Some(Eq)
    else if token == ">" then Some(Gt)
    else if token == ">=" then Some(Ge)
    else if token == "<" then Some(Lt)
    else if token == "<=" then Some(Le)
    else None
  }

  /** Every accepted operator is read back from its token. */
  lemma ParseOpToken(op: FilterType)
    requires op != Ne
    ensures ParseOp(OpToken(op)) == Some(op)
  {
  }

  /** The name of a column. */
  function NameOf(c: Column): string
  {
    c.name
  }

  /** The column names in key order. */
  function Names(columns: seq<Column>): (names: seq<string>)
    ensures |names| == |columns|
    ensures forall k | 0 <= k < |columns| :: names[k] == columns[k].name
  {
    Map(NameOf, columns)
  }

  /** `[columnName, filterType, ...filterValue] = input.split(" ")`, the value joined with single spaces. */
  function Destructure(input: string): (f: Fields)
    ensures ' ' !in f.name
    ensures f.op.Some? ==> ' ' !in f.op.value
  {
    var parts := Split(input, ' ');
    Fields(parts[0], if |parts| > 1 then Some(parts[1]) else None, if |parts| > 2 then Join(parts[2..], ' ') else "")
  }

  /** `isValidFilter`: every piece present and non-empty, a known name, an accepted operator, a closing `;`. */
  predicate IsValidFilter(names: seq<string>, f: Fields)
  {
    && f.name != "" && f.op.Some? && f.op.value != "" && f.value != ""
    && f.name in names
    && ParseOp(f.op.value).Some?
    && f.value[|f.value| - 1] == ';'
  }

  /** The column `columnId` is the first in key order whose name is `name`. */
  ghost predicate FirstNamed(columns: seq<Column>, name: string, columnId: string)
  {
    exists k | 0 <= k < |columns| ::
      columns[k].id == columnId && columns[k].name == name && forall m | 0 <= m < k :: columns[m].name != name
  }

  /**
   * `handleInputChange`: the filter typed into the box, or none. A filter
   * is made exactly when the input is valid; its column is the first with
   * the typed name (so a name holding a space never matches), its operator
   * is one of the five, and its value is the typed value without the `;`.
   */
  function FilterFromInput(columns: seq<Column>, input: string, id: string): (r: Option<NewFilter>)
    ensures r.Some? <==> IsValidFilter(Names(columns), Destructure(input))
    ensures r.Some? ==> r.value.id == id && r.value.op != Ne
    ensures r.Some? ==> r.value.value + ";" == Destructure(input).value
    ensures r.Some? ==> FirstNamed(columns, Destructure(input).name, r.value.columnId)
    ensures r.Some? ==> OpToken(r.value.op) == Destructure(input).op.value
  {
    var f := Destructure(input);
    if IsValidFilter(Names(columns), f) then
      var names := Names(columns);
      var k := IndexOf(names, f.name);
      assert names[..k] == Names(columns[..k]);
      var value := f.value[..|f.value| - 1];
      assert value + ";" == f.value;
      Some(NewFilter(id, columns[k].id, value, ParseOp(f.op.value).value))
    else
      None
  }

  /** The first column named `name`, as `findIndex` finds it. */
  function FirstColumn(columns: seq<Column>, name: string): (c: Column)
    requires name in Names(columns)
    ensures c in columns && c.name == name
  {
    columns[IndexOf(Names(columns), name)]
  }

  /**
   * Round trip: typing a space-free existing name, an accepted operator
   * and any value followed by `;` creates the filter on that column with
   * exactly that value and operator.
   */
  lemma FilterRoundTrip(columns: seq<Column>, name: string, op: FilterType, v: string, id: string)
    requires name != "" && ' ' !in name && name in Names(columns)
    requires op != Ne
    ensures FilterFromInput(columns, name + " " + OpToken(op) + " " + v + ";", id)
      == Some(NewFilter(id, FirstColumn(columns, name).id, v, op))
  {
    var tok := OpToken(op);
    var rest := v + ";";
    var input := name + " " + tok + " " + v + ";";
    assert input == name + [' '] + (tok + [' '] + rest);
    SplitAtFirstSeparator(name, tok + [' '] + rest, ' ');
    SplitAtFirstSeparator(tok, rest, ' ');
    var parts := Split(input, ' ');
    assert parts == [name, tok] + Split(rest, ' ');
    assert parts[2..] == Split(rest, ' ');
    var f := Destructure(input);
    assert f.value == rest;
    ParseOpToken(op);
    var r := FilterFromInput(columns, input, id);
    assert r.Some?;
    assert rest[..|rest| - 1] == v;
  }

  /**
   * The converse: a filter created from an input means the input was the
   * column's name, the operator's token and the value with `;`, separated
   * by single spaces.
   */
  lemma FilterInverse(columns: seq<Column>, input: string, id: string)
    requires FilterFromInput(columns, input, id).Some?
    ensures var f := FilterFromInput(columns, input, id).value;
      input == Destructure(input).name + " " + OpToken(f.op) + " " + f.value + ";"
  {
    var parts := Split(input, ' ');
    var f := FilterFromInput(columns, input, id).value;
    assert |parts| > 2;
    assert Join(parts, ' ') == parts[0] + [' '] + Join(parts[1..], ' ');
    assert parts[1..][1..] == parts[2..];
    assert Join(parts[1..], ' ') == parts[1] + [' '] + Join(parts[2..], ' ');
  }

  /** `!=` is not accepted: typing it after a space-free name creates no filter. */
  lemma NotEqualRejected(columns: seq<Column>, name: string, v: string, id: string)
    requires ' ' !in name
    ensures FilterFromInput(columns, name + " != " + v, id).None?
  {
    var input := name + " != " + v;
    assert input == name + [' '] + ("!=" + [' '] + v);
    SplitAtFirstSeparator(name, "!=" + [' '] + v, ' ');
    SplitAtFirstSeparator("!=", v, ' ');
    assert Destructure(input).op == Some("!=");
  }
}

=== FILE: grouping.dfy ===
/**
 * The grouping step of the visible-row resolver: the sorted row ids are
 * put into clusters by a text key, the clusters are ordered by key, and
 * the visible list is every cluster's rows followed by one `'ROW_BREAK'`.
 */
module Grouping {
  import opened Sorting
  import opened Text

  /** One entry of a visible-row list: a row id, or the `'ROW_BREAK'` sentinel. */
  datatype Entry = RowId(id: string) | RowBreak

  /** Row ids as entries. */
  function Rows(ids: seq<string>): (es: seq<Entry>)
    ensures |es| == |ids|
    ensures forall i :: 0 <= i < |ids| ==> es[i] == RowId(ids[i])
  {
    seq(|ids|, i requires 0 <= i < |ids| => RowId(ids[i]))
  }

  /** The row ids of a visible-row list, in order, without the breaks. */
  function RowIdsOf(es: seq<Entry>): seq<string>
  {
    if |es| == 0 then [] else (if es[0].RowId? then [es[0].id] else []) + RowIdsOf(es[1..])
  }

  /** The number of breaks in a visible-row list. */
  function BreakCount(es: seq<Entry>): nat
  {
    if |es| == 0 then 0 else (if es[0] == RowBreak then 1 else 0) + BreakCount(es[1..])
  }

  /** Row ids and breaks of a concatenation come from its two parts. */
  lemma {:induction false} AppendEntries(a: seq<Entry>, b: seq<Entry>)
    ensures RowIdsOf(a + b) == RowIdsOf(a) + RowIdsOf(b)
    ensures BreakCount(a + b) == BreakCount(a) + BreakCount(b)
    decreases |a|
  {
    if |a| > 0 {
      assert (a + b)[0] == a[0] && (a + b)[1..] == a[1..] + b;
      AppendEntries(a[1..], b);
    } else {
      assert a + b == b;
    }
  }

  /** A list of row ids only holds exactly those ids and no break. */
  lemma {:induction false} RowsEntries(ids: seq<string>)
    ensures RowIdsOf(Rows(ids)) == ids
    ensures BreakCount(Rows(ids)) == 0
    decreases |ids|
  {
    if |ids| > 0 {
      assert Rows(ids)[1..] == Rows(ids[1..]);
      RowsEntries(ids[1..]);
    }
  }

  /**
   * The visible list of a sequence of clusters: each cluster's rows, then
   * one break. Its rows are the clusters' rows in order, it holds one
   * break per cluster, and it ends in a break whenever there is a cluster.
   */
  function Flatten(cs: seq<seq<string>>): (es: seq<Entry>)
    ensures RowIdsOf(es) == Concat(cs)
    ensures BreakCount(es) == |cs|
    ensures |cs| > 0 ==> |es| > 0 && es[|es| - 1] == RowBreak
  {
    if |cs| == 0 then []
    else
      var rest := Flatten(cs[1..]);
      RowsEntries(cs[0]);
      assert RowIdsOf([RowBreak]) == [] && BreakCount([RowBreak]) == 1;
      AppendEntries(Rows(cs[0]), [RowBreak]);
      AppendEntries(Rows(cs[0]) + [RowBreak], rest);
      Rows(cs[0]) + [RowBreak] + rest
  }

  /** The test "this row's key is `k`". */
  function HasKey(keyOf: string -> string, k: string): string -> bool
  {
    (id: string) => keyOf(id) == k
  }

  /** For every key in `ks`, in that order, the rows with that key in their original order. */
  function Clusters(ks: seq<string>, ids: seq<string>, keyOf: string -> string): (cs: seq<seq<string>>)
    ensures |cs| == |ks|
    ensures forall i :: 0 <= i < |ks| ==> cs[i] == Keep(ids, HasKey(keyOf, ks[i]))
  {
    if |ks| == 0 then [] else [Keep(ids, HasKey(keyOf, ks[0]))] + Clusters(ks[1..], ids, keyOf)
  }

  /** Across all clusters, the rows with key `k` are those of `ids`, in their order, when `k` is listed. */
  lemma {:induction false} ClustersKeep(ks: seq<string>, ids: seq<string>, keyOf: string -> string, k: string)
    requires Distinct(ks)
    ensures Keep(Concat(Clusters(ks, ids, keyOf)), HasKey(keyOf, k)) == if k in ks then Keep(ids, HasKey(keyOf, k)) else []
    decreases |ks|
  {
    if |ks| > 0 {
      var cs := Clusters(ks, ids, keyOf);
      var first := Keep(ids, HasKey(keyOf, ks[0]));
      assert cs[1..] == Clusters(ks[1..], ids, keyOf);
      assert Concat(cs) == first + Concat(cs[1..]);
      KeepAppend(first, Concat(cs[1..]), HasKey(keyOf, k));
      DistinctTail(ks);
      ClustersKeep(ks[1..], ids, keyOf, k);
      if ks[0] == k {
        KeepTwice(ids, HasKey(keyOf, k));
      } else {
        KeepMembers(ids, HasKey(keyOf, ks[0]));
        KeepNone(first, HasKey(keyOf, k));
      }
    }
  }

  /** When every row's key is listed once, the clusters hold every row exactly once. */
  lemma ClustersPermutation(ks: seq<string>, ids: seq<string>, keyOf: string -> string)
    requires Distinct(ks)
    requires forall id | id in ids :: keyOf(id) in ks
    ensures multiset(Concat(Clusters(ks, ids, keyOf))) == multiset(ids)
  {
    var all := Concat(Clusters(ks, ids, keyOf));
    forall x ensures multiset(all)[x] == multiset(ids)[x] {
      var k := keyOf(x);
      ClustersKeep(ks, ids, keyOf, k);
      KeepCount(all, HasKey(keyOf, k), x);
      KeepCount(ids, HasKey(keyOf, k), x);
    }
  }

  /** The distinct elements, each once, in order of first occurrence. */
  function Dedup<T(==, !new)>(xs: seq<T>): (ys: seq<T>)
    ensures Distinct(ys)
    ensures forall x :: x in ys <==> x in xs
  {
    if |xs| == 0 then []
    else
      var init := Dedup(xs[..|xs| - 1]);
      var last := xs[|xs| - 1];
      assert xs == xs[..|xs| - 1] + [last];
      if last in init then init else init + [last]
  }

  /** A list without repeats is as long as its set of elements. */
  lemma {:induction false} DistinctCard<T>(ys: seq<T>)
    requires Distinct(ys)
    ensures |set y | y in ys| == |ys|
    decreases |ys|
  {
    if |ys| > 0 {
      DistinctTail(ys);
      DistinctCard(ys[1..]);
      assert (set y | y in ys) == {ys[0]} + (set y | y in ys[1..]);
    }
  }

  /** `StrCmp` is a total preorder on any list of strings. */
  lemma StrCmpPreorder(all: seq<string>)
    ensures TotalPreorderOn(all, StrCmp)
  {
    forall a, b | a in all && b in all ensures StrCmp(a, b) == -StrCmp(b, a) {
      StrCmpAntisymmetric(a, b);
    }
    forall a, b, c | a in all && b in all && c in all && StrCmp(a, b) <= 0 && StrCmp(b, c) <= 0 ensures StrCmp(a, c) <= 0 {
      StrCmpTransitive(a, b, c);
    }
  }

  /** The keys, each once, in ascending string order. */
  function AscendingKeys(keys: seq<string>): (ks: seq<string>)
    ensures |ks| == |Dedup(keys)|
    ensures Distinct(ks)
    ensures forall k :: k in ks <==> k in keys
    ensures forall i, j | 0 <= i < j < |ks| :: StrCmp(ks[i], ks[j]) < 0
  {
    var d := Dedup(keys);
    StrCmpPreorder(d);
    var ks := InsertionSort(d, StrCmp);
    InsertionSortSorted(d, StrCmp);
    DistinctPermutation(d, ks);
    assert forall k :: k in ks <==> k in multiset(d);
    ks
  }

  /** Reversing keeps the elements, and keeps them pairwise different. */
  lemma ReverseMembers(xs: seq<string>)
    ensures forall k :: k in Reverse(xs) <==> k in xs
    ensures Distinct(xs) ==> Distinct(Reverse(xs))
  {
    var r := Reverse(xs);
    forall k | k in xs ensures k in r {
      var i :| 0 <= i < |xs| && xs[i] == k;
      assert r[|xs| - 1 - i] == k;
    }
    if Distinct(xs) {
      forall i, j | 0 <= i < j < |r| ensures r[i] != r[j] {
        assert r[i] == xs[|xs| - 1 - i] && r[j] == xs[|xs| - 1 - j];
      }
    }
  }

  /** Reversing a strictly ascending list of strings gives a strictly descending one. */
  lemma ReverseDescending(up: seq<string>)
    requires forall i, j | 0 <= i < j < |up| :: StrCmp(up[i], up[j]) < 0
    ensures forall i, j | 0 <= i < j < |Reverse(up)| :: StrCmp(Reverse(up)[i], Reverse(up)[j]) > 0
  {
    var down := Reverse(up);
    forall i, j | 0 <= i < j < |down| ensures StrCmp(down[i], down[j]) > 0 {
      assert down[i] == up[|up| - 1 - i] && down[j] == up[|up| - 1 - j];
      StrCmpAntisymmetric(down[i], down[j]);
    }
  }

  /**
   * `Object.keys(grouped).sort()`, reversed when descending: the keys,
   * each once, strictly ascending or strictly descending.
   */
  function OrderedKeys(keys: seq<string>, ascending: bool): (ks: seq<string>)
    ensures |ks| == |Dedup(keys)|
    ensures Distinct(ks)
    ensures forall k :: k in ks <==> k in keys
    ensures ascending ==> forall i, j | 0 <= i < j < |ks| :: StrCmp(ks[i], ks[j]) < 0
    ensures !ascending ==> forall i, j | 0 <= i < j < |ks| :: StrCmp(ks[i], ks[j]) > 0
  {
    var up := AscendingKeys(keys);
    if ascending then up
    else
      ReverseMembers(up);
      ReverseDescending(up);
      Reverse(up)
  }

  /** Every listed key is some row's key, so every cluster is non-empty and headed by a row with its key. */
  lemma ClusterHeads(ks: seq<string>, ids: seq<string>, keyOf: string -> string)
    requires forall k | k in ks :: k in Map(keyOf, ids)
    ensures forall i | 0 <= i < |ks| :: |Clusters(ks, ids, keyOf)[i]| > 0 && keyOf(Clusters(ks, ids, keyOf)[i][0]) == ks[i]
  {
    var keys := Map(keyOf, ids);
    var cs := Clusters(ks, ids, keyOf);
    forall i | 0 <= i < |ks| ensures |cs[i]| > 0 && keyOf(cs[i][0]) == ks[i] {
      assert ks[i] in keys;
      KeepMembers(ids, HasKey(keyOf, ks[i]));
      var j :| 0 <= j < |keys| && keys[j] == ks[i];
      assert ids[j] in cs[i];
      assert cs[i][0] in cs[i];
    }
  }

  /** A cluster holds exactly the rows with its head's key, in their original order. */
  lemma ClusterKeys(ks: seq<string>, ids: seq<string>, keyOf: string -> string)
    requires forall i | 0 <= i < |ks| :: |Clusters(ks, ids, keyOf)[i]| > 0 && keyOf(Clusters(ks, ids, keyOf)[i][0]) == ks[i]
    ensures var cs := Clusters(ks, ids, keyOf);
      forall i, id | 0 <= i < |cs| && id in cs[i] :: keyOf(id) == keyOf(cs[i][0])
    ensures var cs := Clusters(ks, ids, keyOf);
      forall i | 0 <= i < |cs| :: cs[i] == Keep(ids, HasKey(keyOf, keyOf(cs[i][0])))
  {
    var cs := Clusters(ks, ids, keyOf);
    forall i, id | 0 <= i < |cs| && id in cs[i] ensures keyOf(id) == keyOf(cs[i][0]) {
      KeepMembers(ids, HasKey(keyOf, ks[i]));
      assert HasKey(keyOf, ks[i])(id);
    }
  }

  /** Every row's key is listed, and every listed key is some row's key. */
  lemma KeysOfRows(ids: seq<string>, keyOf: string -> string, ks: seq<string>)
    requires forall k :: k in ks <==> k in Map(keyOf, ids)
    ensures forall id | id in ids :: keyOf(id) in ks
  {
    var keys := Map(keyOf, ids);
    forall id | id in ids ensures keyOf(id) in keys {
      var j :| 0 <= j < |ids| && ids[j] == id;
      assert keys[j] == keyOf(id);
    }
  }

  /** Listing the rows' keys once each lists as many keys as the rows have distinct keys. */
  lemma KeyCount(ids: seq<string>, keyOf: string -> string, ks: seq<string>)
    requires Distinct(ks)
    requires forall k :: k in ks <==> k in Map(keyOf, ids)
    ensures |ks| == |set id | id in ids :: keyOf(id)|
  {
    DistinctCard(ks);
    KeysOfRows(ids, keyOf, ks);
    var keys := Map(keyOf, ids);
    forall k | k in ks ensures k in (set id | id in ids :: keyOf(id)) {
      var j :| 0 <= j < |keys| && keys[j] == k;
      assert ids[j] in ids;
    }
    assert (set k | k in ks) == (set id | id in ids :: keyOf(id));
  }

  /** The clusters for the distinct keys of the rows: the facts `GroupRows` promises, per listed key. */
  lemma ClustersFacts(ks: seq<string>, ids: seq<string>, keyOf: string -> string)
    requires Distinct(ks)
    requires forall k :: k in ks <==> k in Map(keyOf, ids)
    ensures var cs := Clusters(ks, ids, keyOf);
      && (forall i | 0 <= i < |cs| :: |cs[i]| > 0 && keyOf(cs[i][0]) == ks[i])
      && (forall i, id | 0 <= i < |cs| && id in cs[i] :: keyOf(id) == keyOf(cs[i][0]))
      && (forall i | 0 <= i < |cs| :: cs[i] == Keep(ids, HasKey(keyOf, keyOf(cs[i][0]))))
      && multiset(Concat(cs)) == multiset(ids)
  {
    ClusterHeads(ks, ids, keyOf);
    ClusterKeys(ks, ids, keyOf);
    KeysOfRows(ids, keyOf, ks);
    ClustersPermutation(ks, ids, keyOf);
  }

  /**
   * `groupBy` followed by the ordered walk over its keys: one cluster per
   * distinct key, every cluster non-empty and holding all the rows with
   * its key in their original order, clusters ordered by key, and every
   * row in exactly one cluster.
   */
  function GroupRows(ids: seq<string>, keyOf: string -> string, ascending: bool): (cs: seq<seq<string>>)
    ensures |cs| == |set id | id in ids :: keyOf(id)|
    ensures forall i | 0 <= i < |cs| :: |cs[i]| > 0
    ensures forall i, id | 0 <= i < |cs| && id in cs[i] :: keyOf(id) == keyOf(cs[i][0])
    ensures forall i | 0 <= i < |cs| :: cs[i] == Keep(ids, HasKey(keyOf, keyOf(cs[i][0])))
    ensures ascending ==> forall i, j | 0 <= i < j < |cs| :: StrCmp(keyOf(cs[i][0]), keyOf(cs[j][0])) < 0
    ensures !ascending ==> forall i, j | 0 <= i < j < |cs| :: StrCmp(keyOf(cs[i][0]), keyOf(cs[j][0])) > 0
    ensures multiset(Concat(cs)) == multiset(ids)
  {
    var keys := Map(keyOf, ids);
    var ks := OrderedKeys(keys, ascending);
    ClustersFacts(ks, ids, keyOf);
    KeyCount(ids, keyOf, ks);
    Clusters(ks, ids, keyOf)
  }

  /**
   * The grouped visible list of a permutation of `filtered`: it shows
   * exactly the filtered rows, one break per distinct key, and ends in a
   * break when there is any row.
   */
  lemma GroupedEntries(sorted: seq<string>, filtered: seq<string>, keyOf: string -> string, ascending: bool)
    requires multiset(sorted) == multiset(filtered)
    ensures var es := Flatten(GroupRows(sorted, keyOf, ascending));
      && multiset(RowIdsOf(es)) == multiset(filtered)
      && BreakCount(es) == |set id | id in filtered :: keyOf(id)|
      && (|filtered| > 0 ==> |es| > 0 && es[|es| - 1] == RowBreak)
  {
    var keys := set id | id in filtered :: keyOf(id);
    forall id ensures id in sorted <==> id in filtered {
      assert id in sorted <==> id in multiset(sorted);
      assert id in filtered <==> id in multiset(filtered);
    }
    assert (set id | id in sorted :: keyOf(id)) == keys;
    if |filtered| > 0 {
      assert keyOf(filtered[0]) in keys;
    }
  }
}

=== FILE: orderby.dfy ===
/**
 * lodash `orderBy(collection, iteratees, orders)` as lodash builds it:
 * every element is paired with its criteria (one value per iteratee) and
 * its position, the pairs are sorted with `compareMultiple` (criteria in
 * iteratee order, each ascending or descending, the position breaking
 * ties), and the elements are read back out.
 *
 * The per-criterion comparator `cmp` plays lodash's `compareAscending`
 * for the value type at hand. The result is always a permutation; it is
 * sorted and stable whenever `cmp` is a total preorder on every column of
 * criteria, which lodash itself needs for the engine's sort to be
 * well defined.
 */
module Ordering {
  import opened Sorting
  import opened Text

  /** lodash's `'asc'` / `'desc'`. */
  datatype Order = Asc | Desc

  /** An element with its criteria and its original position. */
  datatype Keyed<V, E> = Keyed(criteria: seq<V>, index: int, value: E)

  /** A comparison result as seen through one criterion's direction. */
  function Directed(order: Order, c: int): int
  {
    if order == Asc then c else -c
  }

  /** The direction of the first criterion: lodash reads a missing order as ascending. */
  function FirstOrder(orders: seq<Order>): Order
  {
    if |orders| > 0 then orders[0] else Asc
  }

  /** The directions of the criteria after the first. */
  function LaterOrders(orders: seq<Order>): seq<Order>
  {
    if |orders| > 0 then orders[1..] else []
  }

  /**
   * `compareMultiple` without its final position tie-break: the first
   * criterion that does not tie decides, seen through its direction.
   */
  function CompareCriteria<V>(a: seq<V>, b: seq<V>, orders: seq<Order>, cmp: (V, V) -> int): int
    decreases |a|
  {
    if |a| == 0 || |b| == 0 then 0
    else if cmp(a[0], b[0]) != 0 then Directed(FirstOrder(orders), cmp(a[0], b[0]))
    else CompareCriteria(a[1..], b[1..], LaterOrders(orders), cmp)
  }

  /** `compareMultiple`: criteria first, then the original position. */
  function CompareKeyed<V, E>(x: Keyed<V, E>, y: Keyed<V, E>, orders: seq<Order>, cmp: (V, V) -> int): int
  {
    var c := CompareCriteria(x.criteria, y.criteria, orders, cmp);
    if c != 0 then c else x.index - y.index
  }

  /** `compareMultiple` as a comparator value. */
  function KeyedComparator<V, E>(orders: seq<Order>, cmp: (V, V) -> int): (Keyed<V, E>, Keyed<V, E>) -> int
  {
    (x: Keyed<V, E>, y: Keyed<V, E>) => CompareKeyed(x, y, orders, cmp)
  }

  /** Pair each element with its criteria and position. */
  function Decorate<V, E>(xs: seq<E>, crit: seq<seq<V>>): (ds: seq<Keyed<V, E>>)
    requires |crit| == |xs|
    ensures |ds| == |xs|
    ensures forall i :: 0 <= i < |xs| ==> ds[i] == Keyed(crit[i], i, xs[i])
  {
    seq(|xs|, i requires 0 <= i < |xs| => Keyed(crit[i], i, xs[i]))
  }

  /** Reading the elements back out of the decorated sequence gives the input. */
  lemma DecorateValues<V, E>(xs: seq<E>, crit: seq<seq<V>>)
    requires |crit| == |xs|
    ensures Map((d: Keyed<V, E>) => d.value, Decorate(xs, crit)) == xs
  {
  }

  /** The decorated elements are pairwise different: their positions differ. */
  lemma DecorateDistinct<V, E>(xs: seq<E>, crit: seq<seq<V>>)
    requires |crit| == |xs|
    ensures Distinct(Decorate(xs, crit))
  {
    var ds := Decorate(xs, crit);
    forall i, j | 0 <= i < j < |ds| ensures ds[i] != ds[j] {
      assert ds[i].index == i && ds[j].index == j;
    }
  }

  /** The sorted decorated elements: a permutation of `Decorate(xs, crit)`. */
  function OrderByKeyed<V, E>(xs: seq<E>, crit: seq<seq<V>>, orders: seq<Order>, cmp: (V, V) -> int): (r: seq<Keyed<V, E>>)
    requires |crit| == |xs|
    ensures |r| == |xs|
    ensures multiset(r) == multiset(Decorate(xs, crit))
    ensures forall d | d in r :: 0 <= d.index < |xs| && d.value == xs[d.index] && d.criteria == crit[d.index]
  {
    var ds := Decorate(xs, crit);
    var r := InsertionSort(ds, KeyedComparator(orders, cmp));
    assert forall d | d in r :: d in ds by {
      forall d | d in r ensures d in ds {
        assert d in multiset(r);
      }
    }
    r
  }

  /** `orderBy`: the input elements, reordered; always a permutation of the input. */
  function OrderBy<V, E>(xs: seq<E>, crit: seq<seq<V>>, orders: seq<Order>, cmp: (V, V) -> int): (r: seq<E>)
    requires |crit| == |xs|
    ensures |r| == |xs|
    ensures multiset(r) == multiset(xs)
  {
    var keyed := OrderByKeyed(xs, crit, orders, cmp);
    var r := Map((d: Keyed<V, E>) => d.value, keyed);
    MapPermutation((d: Keyed<V, E>) => d.value, keyed, Decorate(xs, crit));
    DecorateValues(xs, crit);
    r
  }

  /** The `i`-th element `orderBy` returns is the `i`-th sorted decorated element's. */
  lemma OrderByAt<V, E>(xs: seq<E>, crit: seq<seq<V>>, orders: seq<Order>, cmp: (V, V) -> int, i: int)
    requires |crit| == |xs| && 0 <= i < |xs|
    ensures OrderBy(xs, crit, orders, cmp)[i] == OrderByKeyed(xs, crit, orders, cmp)[i].value
  {
  }

  // ---------------------------------------------------------------------------
  // When the criteria are totally preordered, the result is sorted and stable
  // ---------------------------------------------------------------------------

  /** `cmp` is antisymmetric and `cmp(_, _) <= 0` transitive on three values, in every order. */
  ghost predicate Preorder3<V>(x: V, y: V, z: V, cmp: (V, V) -> int)
  {
    && cmp(x, y) == -cmp(y, x) && cmp(y, z) == -cmp(z, y) && cmp(x, z) == -cmp(z, x)
    && (cmp(x, y) <= 0 && cmp(y, z) <= 0 ==> cmp(x, z) <= 0)
    && (cmp(y, z) <= 0 && cmp(z, x) <= 0 ==> cmp(y, x) <= 0)
    && (cmp(z, x) <= 0 && cmp(x, y) <= 0 ==> cmp(z, y) <= 0)
    && (cmp(x, z) <= 0 && cmp(z, y) <= 0 ==> cmp(x, y) <= 0)
    && (cmp(z, y) <= 0 && cmp(y, x) <= 0 ==> cmp(z, x) <= 0)
    && (cmp(y, x) <= 0 && cmp(x, z) <= 0 ==> cmp(y, z) <= 0)
  }

  /** Three criteria vectors of one length along which `Preorder3` holds position by position. */
  ghost predicate PointwisePreorder<V>(a: seq<V>, b: seq<V>, c: seq<V>, cmp: (V, V) -> int)
  {
    && |a| == |b| == |c|
    && forall n | 0 <= n < |a| :: Preorder3(a[n], b[n], c[n], cmp)
  }

  /** Two criteria vectors of one length along which `cmp` is antisymmetric position by position. */
  ghost predicate PointwiseAntisymmetric<V>(a: seq<V>, b: seq<V>, cmp: (V, V) -> int)
  {
    && |a| == |b|
    && forall n | 0 <= n < |a| :: cmp(a[n], b[n]) == -cmp(b[n], a[n])
  }

  /** Every column of criteria is totally preordered by `cmp`. */
  ghost predicate ColumnsPreordered<V>(crit: seq<seq<V>>, cmp: (V, V) -> int)
  {
    forall i, j, k | 0 <= i < |crit| && 0 <= j < |crit| && 0 <= k < |crit| ::
      PointwisePreorder(crit[i], crit[j], crit[k], cmp)
  }

  /** `Preorder3` does not depend on the order the three values are listed in. */
  lemma PointwiseRotate<V>(a: seq<V>, b: seq<V>, c: seq<V>, cmp: (V, V) -> int)
    requires PointwisePreorder(a, b, c, cmp)
    ensures PointwisePreorder(b, c, a, cmp) && PointwisePreorder(b, a, c, cmp)
  {
    forall n | 0 <= n < |a| ensures Preorder3(b[n], c[n], a[n], cmp) && Preorder3(b[n], a[n], c[n], cmp) {
      assert Preorder3(a[n], b[n], c[n], cmp);
    }
  }

  /** Dropping the first criterion keeps the pointwise preorder. */
  lemma PointwiseTail<V>(a: seq<V>, b: seq<V>, c: seq<V>, cmp: (V, V) -> int)
    requires |a| > 0 && |b| > 0 && |c| > 0
    requires PointwisePreorder(a, b, c, cmp)
    ensures PointwisePreorder(a[1..], b[1..], c[1..], cmp)
  {
    forall n | 0 <= n < |a[1..]| ensures Preorder3(a[1..][n], b[1..][n], c[1..][n], cmp) {
      assert Preorder3(a[n + 1], b[n + 1], c[n + 1], cmp);
    }
  }

  /** Swapping the operands negates `CompareCriteria`. */
  lemma {:induction false} CriteriaAntisymmetric<V>(a: seq<V>, b: seq<V>, orders: seq<Order>, cmp: (V, V) -> int)
    requires PointwiseAntisymmetric(a, b, cmp)
    ensures CompareCriteria(a, b, orders, cmp) == -CompareCriteria(b, a, orders, cmp)
    decreases |a|
  {
    if |a| > 0 && |b| > 0 {
      if cmp(a[0], b[0]) == 0 {
        assert PointwiseAntisymmetric(a[1..], b[1..], cmp) by {
          forall n | 0 <= n < |a[1..]| ensures cmp(a[1..][n], b[1..][n]) == -cmp(b[1..][n], a[1..][n]) {
            assert a[1..][n] == a[n + 1] && b[1..][n] == b[n + 1];
          }
        }
        CriteriaAntisymmetric(a[1..], b[1..], LaterOrders(orders), cmp);
      }
    }
  }

  /** `CompareCriteria(_, _) <= 0` is transitive. */
  lemma {:induction false} CriteriaTransitive<V>(a: seq<V>, b: seq<V>, c: seq<V>, orders: seq<Order>, cmp: (V, V) -> int)
    requires PointwisePreorder(a, b, c, cmp)
    requires CompareCriteria(a, b, orders, cmp) <= 0 && CompareCriteria(b, c, orders, cmp) <= 0
    ensures CompareCriteria(a, c, orders, cmp) <= 0
    decreases |a|
  {
    if |a| > 0 && |b| > 0 && |c| > 0 {
      assert Preorder3(a[0], b[0], c[0], cmp);
      if cmp(a[0], b[0]) == 0 && cmp(b[0], c[0]) == 0 {
        PointwiseTail(a, b, c, cmp);
        CriteriaTransitive(a[1..], b[1..], c[1..], LaterOrders(orders), cmp);
      }
    }
  }

  /** Swapping the operands negates `compareMultiple`. */
  lemma KeyedAntisymmetric<V, E>(x: Keyed<V, E>, y: Keyed<V, E>, orders: seq<Order>, cmp: (V, V) -> int)
    requires PointwiseAntisymmetric(x.criteria, y.criteria, cmp)
    ensures CompareKeyed(x, y, orders, cmp) == -CompareKeyed(y, x, orders, cmp)
  {
    CriteriaAntisymmetric(x.criteria, y.criteria, orders, cmp);
  }

  /** `compareMultiple(_, _) <= 0` is transitive. */
  lemma KeyedTransitive<V, E>(p: Keyed<V, E>, q: Keyed<V, E>, r: Keyed<V, E>, orders: seq<Order>, cmp: (V, V) -> int)
    requires PointwisePreorder(p.criteria, q.criteria, r.criteria, cmp)
    requires CompareKeyed(p, q, orders, cmp) <= 0 && CompareKeyed(q, r, orders, cmp) <= 0
    ensures CompareKeyed(p, r, orders, cmp) <= 0
  {
    var a, b, c := p.criteria, q.criteria, r.criteria;
    PointwiseRotate(a, b, c, cmp);
    PointwiseRotate(b, c, a, cmp);
    PointwiseRotate(b, a, c, cmp);
    PointwiseRotate(a, c, b, cmp);
    assert PointwiseAntisymmetric(a, b, cmp) && PointwiseAntisymmetric(b, c, cmp) && PointwiseAntisymmetric(a, c, cmp) by {
      forall n | 0 <= n < |a| ensures cmp(a[n], b[n]) == -cmp(b[n], a[n]) && cmp(b[n], c[n]) == -cmp(c[n], b[n]) && cmp(a[n], c[n]) == -cmp(c[n], a[n]) {
        assert Preorder3(a[n], b[n], c[n], cmp);
      }
    }
    CriteriaAntisymmetric(a, b, orders, cmp);
    CriteriaAntisymmetric(b, c, orders, cmp);
    CriteriaAntisymmetric(a, c, orders, cmp);
    CriteriaTransitive(a, b, c, orders, cmp);
    if CompareCriteria(a, c, orders, cmp) == 0 {
      CriteriaTransitive(b, c, a, orders, cmp);
      CriteriaTransitive(c, a, b, orders, cmp);
    }
  }

  /** Under preordered columns, `compareMultiple` is a total preorder on the decorated input. */
  lemma DecoratedPreorder<V, E>(xs: seq<E>, crit: seq<seq<V>>, orders: seq<Order>, cmp: (V, V) -> int)
    requires |crit| == |xs|
    requires ColumnsPreordered(crit, cmp)
    ensures TotalPreorderOn(Decorate(xs, crit), KeyedComparator(orders, cmp))
  {
    var ds := Decorate(xs, crit);
    var kc := KeyedComparator<V, E>(orders, cmp);
    forall p, q | p in ds && q in ds ensures kc(p, q) == -kc(q, p) {
      assert PointwiseAntisymmetric(p.criteria, q.criteria, cmp) by {
        assert p.criteria == crit[p.index] && q.criteria == crit[q.index];
        assert PointwisePreorder(p.criteria, q.criteria, q.criteria, cmp);
        forall n | 0 <= n < |p.criteria| ensures cmp(p.criteria[n], q.criteria[n]) == -cmp(q.criteria[n], p.criteria[n]) {
          assert Preorder3(p.criteria[n], q.criteria[n], q.criteria[n], cmp);
        }
      }
      KeyedAntisymmetric(p, q, orders, cmp);
    }
    forall p, q, r | p in ds && q in ds && r in ds && kc(p, q) <= 0 && kc(q, r) <= 0 ensures kc(p, r) <= 0 {
      assert PointwisePreorder(p.criteria, q.criteria, r.criteria, cmp) by {
        assert p.criteria == crit[p.index] && q.criteria == crit[q.index] && r.criteria == crit[r.index];
      }
      KeyedTransitive(p, q, r, orders, cmp);
    }
  }

  /**
   * Under preordered columns `orderBy` sorts by the criteria (first
   * criterion first, each in its direction) and is stable: elements whose
   * criteria all tie keep their original relative order.
   */
  lemma OrderByKeyedSorted<V, E>(xs: seq<E>, crit: seq<seq<V>>, orders: seq<Order>, cmp: (V, V) -> int)
    requires |crit| == |xs|
    requires ColumnsPreordered(crit, cmp)
    ensures var r := OrderByKeyed(xs, crit, orders, cmp);
      forall i, j | 0 <= i < j < |r| ::
        || CompareCriteria(r[i].criteria, r[j].criteria, orders, cmp) < 0
        || (CompareCriteria(r[i].criteria, r[j].criteria, orders, cmp) == 0 && r[i].index < r[j].index)
  {
    var ds := Decorate(xs, crit);
    var kc := KeyedComparator<V, E>(orders, cmp);
    var r := OrderByKeyed(xs, crit, orders, cmp);
    DecoratedPreorder(xs, crit, orders, cmp);
    InsertionSortSorted(ds, kc);
    DecorateDistinct(xs, crit);
    DistinctPermutation(ds, r);
    forall i, j | 0 <= i < j < |r|
      ensures || CompareCriteria(r[i].criteria, r[j].criteria, orders, cmp) < 0
              || (CompareCriteria(r[i].criteria, r[j].criteria, orders, cmp) == 0 && r[i].index < r[j].index)
    {
      assert kc(r[i], r[j]) <= 0;
      assert r[i] != r[j];
      assert r[i] in r && r[j] in r;
    }
  }

  /**
   * `orderBy` over distinct keys, read back through the keys' positions:
   * an earlier key in the result compares below a later one, or ties with
   * it and came earlier in the input.
   */
  lemma OrderByStable<V, E>(keys: seq<E>, crit: seq<seq<V>>, orders: seq<Order>, cmp: (V, V) -> int, i: int, j: int)
    requires |crit| == |keys| && Distinct(keys)
    requires ColumnsPreordered(crit, cmp)
    requires 0 <= i < j < |keys|
    ensures var ids := OrderBy(keys, crit, orders, cmp);
      ids[i] in keys && ids[j] in keys &&
      var p, q := IndexOf(keys, ids[i]), IndexOf(keys, ids[j]);
      var c := CompareCriteria(crit[p], crit[q], orders, cmp);
      c < 0 || (c == 0 && p < q)
  {
    var ids := OrderBy(keys, crit, orders, cmp);
    var r := OrderByKeyed(keys, crit, orders, cmp);
    OrderByKeyedSorted(keys, crit, orders, cmp);
    assert r[i] in r && r[j] in r;
    var p, q := r[i].index, r[j].index;
    OrderByAt(keys, crit, orders, cmp, i);
    OrderByAt(keys, crit, orders, cmp, j);
    assert ids[i] == keys[p] && ids[j] == keys[q];
    assert IndexOf(keys, keys[p]) == p && IndexOf(keys, keys[q]) == q by {
      forall m | 0 <= m < |keys| && keys[m] == keys[p] ensures m == p { }
      forall m | 0 <= m < |keys| && keys[m] == keys[q] ensures m == q { }
      assert keys[p] !in keys[..p] && keys[q] !in keys[..q];
    }
  }
}

=== FILE: settings_cell.dfy ===
/**
 * The settings syntax of an imported CSV file. A cell such as
 * `[TS][CELL_TYPE=NUMBER][WIDTH=120]` carries key/value settings: the
 * `[TS]` flag marks the cell, each `[key=value]` fragment sets one key, and
 * a value may itself contain `=`. The parser is a chain of `str_replace`
 * and `explode` calls, modelled here call by call.
 */
module SettingsCell {
  import opened Text

  /** The marker that flags a settings cell. */
  const SETTINGS_FLAG: string := "[TS]"

  /** The settings read from one cell (a PHP string-keyed array). */
  type Settings = map<string, string>

  /** A key the parser can produce: it never holds `=`, `[` or `]`. */
  predicate IsKey(k: string)
  {
    '=' !in k && '[' !in k && ']' !in k
  }

  /** A value the parser can produce: it never holds `[` or `]`. */
  predicate IsValue(v: string)
  {
    '[' !in v && ']' !in v
  }

  /** Every entry is one the parser can produce. */
  predicate WellFormed(m: Settings)
  {
    forall k | k in m :: IsKey(k) && IsValue(m[k])
  }

  /**
   * The key and the value of an `explode('=', …)` result with at least two
   * pieces: the first piece is the key; with more than two pieces the rest
   * is glued back together with `=`.
   */
  function SettingOf(parts: seq<string>): (kv: (string, string))
    requires |parts| > 1
    requires forall i | 0 <= i < |parts| :: '=' !in parts[i]
    ensures kv.0 == parts[0]
    ensures Split(kv.1, '=') == parts[1..]
  {
    SplitJoin(parts[1..], '=');
    if |parts| > 2 then (parts[0], Join(parts[1..], '='))
    else (parts[0], parts[1])
  }

  /** The value of a fragment's setting never holds a bracket its text lacks. */
  lemma ValueChars(parts: seq<string>, raw: string)
    requires |parts| > 1 && parts == Split(raw, '=')
    requires '[' !in raw && ']' !in raw
    ensures IsKey(SettingOf(parts).0) && IsValue(SettingOf(parts).1)
  {
    SplitChars(raw, '=', 0);
    var v := SettingOf(parts).1;
    forall x | x in v
      ensures x != '[' && x != ']'
    {
      if |parts| > 2 {
        JoinChars(parts[1..], '=', x);
        if x != '=' {
          var i :| 0 <= i < |parts[1..]| && x in parts[1..][i];
          SplitChars(raw, '=', i + 1);
        }
      } else {
        SplitChars(raw, '=', 1);
      }
    }
  }

  /**
   * One `]`-delimited fragment: drop every `[`, split on `=`, and store the
   * setting when there was at least one `=`. A fragment without `=` changes
   * nothing, a fragment without `]` keeps the settings well formed, and no
   * other key is touched.
   */
  function ApplyFragment(m: Settings, fragment: string): (r: Settings)
    ensures '=' !in fragment ==> r == m
    ensures WellFormed(m) && ']' !in fragment ==> WellFormed(r)
    ensures m.Keys <= r.Keys && |r.Keys - m.Keys| <= 1
    ensures forall k | k in m && k in r && r[k] != m[k] :: k == Split(RemoveAll(fragment, "["), '=')[0]
  {
    var raw := RemoveAll(fragment, "[");
    var parts := Split(raw, '=');
    assert '=' !in fragment ==> |parts| == 1 by {
      if '=' !in fragment {
        SplitWithoutSeparator(raw, '=');
      }
    }
    if |parts| > 1 then
      var kv := SettingOf(parts);
      assert ']' !in fragment ==> IsKey(kv.0) && IsValue(kv.1) by {
        if ']' !in fragment {
          ValueChars(parts, raw);
        }
      }
      assert m[kv.0 := kv.1].Keys - m.Keys <= {kv.0};
      m[kv.0 := kv.1]
    else
      m
  }

  /** The fragments, left to right: a later setting of the same key wins. */
  function ApplyFragments(m: Settings, fragments: seq<string>): (r: Settings)
    ensures WellFormed(m) && (forall i | 0 <= i < |fragments| :: ']' !in fragments[i]) ==> WellFormed(r)
    ensures (forall i | 0 <= i < |fragments| :: '=' !in fragments[i]) ==> r == m
    ensures m.Keys <= r.Keys && |r.Keys - m.Keys| <= |fragments|
    decreases |fragments|
  {
    if |fragments| == 0 then m
    else
      var next := ApplyFragment(m, fragments[0]);
      var r := ApplyFragments(next, fragments[1..]);
      assert r.Keys - m.Keys <= (r.Keys - next.Keys) + (next.Keys - m.Keys);
      r
  }

  /**
   * The settings stored in one cell (`getSheetSettingsFromCell`): delete
   * every `[TS]`, cut at `]`, and read each fragment. The result is always
   * a map (`explode` never yields zero pieces, so the `null` branch is dead),
   * its entries are free of the delimiters, and a cell without `=` holds
   * no settings.
   */
  function ParseSettings(cell: string): (r: Settings)
    ensures WellFormed(r)
    ensures '=' !in cell ==> r == map[]
  {
    var raw := RemoveAll(cell, SETTINGS_FLAG);
    var fragments := Split(raw, ']');
    forall i | 0 <= i < |fragments|
      ensures '=' !in cell ==> '=' !in fragments[i]
    {
      SplitChars(raw, ']', i);
    }
    ApplyFragments(map[], fragments)
  }

  // ---------------------------------------------------------------------------
  // Round trip: a cell written as `[TS][k1=v1][k2=v2]…` reads back as the pairs
  // ---------------------------------------------------------------------------

  /** A pair that the cell syntax can carry. */
  predicate Encodable(kv: (string, string))
  {
    IsKey(kv.0) && IsValue(kv.1)
  }

  /** One `[key=value]` fragment. */
  function Bracketed(kv: (string, string)): string
  {
    "[" + kv.0 + "=" + kv.1 + "]"
  }

  /** The fragments of `pairs`, one after another. */
  function Encode(pairs: seq<(string, string)>): string
  {
    if |pairs| == 0 then "" else Bracketed(pairs[0]) + Encode(pairs[1..])
  }

  /** Assign the pairs left to right, so that a later pair overrides an earlier one. */
  function Assign(m: Settings, pairs: seq<(string, string)>): Settings
    decreases |pairs|
  {
    if |pairs| == 0 then m else Assign(m[pairs[0].0 := pairs[0].1], pairs[1..])
  }

  /** The pieces `explode(']', …)` cuts an encoding into: `[k=v` per pair, then "". */
  function Pieces(pairs: seq<(string, string)>): (ps: seq<string>)
    ensures |ps| == |pairs| + 1
  {
    if |pairs| == 0 then [""] else ["[" + pairs[0].0 + "=" + pairs[0].1] + Pieces(pairs[1..])
  }

  /** A fragment cannot start with `[TS]`: its key holds no `]` and `=` follows the key. */
  lemma FragmentNotFlagged(kv: (string, string), rest: string)
    requires Encodable(kv)
    ensures var s := Bracketed(kv) + rest; |s| < 4 || s[..4] != SETTINGS_FLAG
  {
    var k := kv.0;
    var t := kv.0 + "=" + kv.1 + "]" + rest;
    var s := Bracketed(kv) + rest;
    assert s == "[" + t;
    if |s| >= 4 {
      assert t[|k|] == '=';
      if |k| >= 3 {
        assert t[2] == k[2];
      }
      assert s[..4][1..] == t[..3];
    }
  }

  /** `[TS]` cannot start inside a fragment, so deleting it leaves the fragment whole. */
  lemma FragmentHasNoFlag(kv: (string, string), rest: string)
    requires Encodable(kv)
    ensures RemoveAll(Bracketed(kv) + rest, SETTINGS_FLAG) == Bracketed(kv) + RemoveAll(rest, SETTINGS_FLAG)
  {
    var tail := kv.0 + "=" + kv.1 + "]";
    var s := Bracketed(kv) + rest;
    FragmentNotFlagged(kv, rest);
    RemoveAllNoMatch(s, SETTINGS_FLAG);
    assert Bracketed(kv) == "[" + tail;
    AppendAssoc("[", tail, rest);
    assert s[1..] == tail + rest;
    assert '[' !in tail by {
      forall m | 0 <= m < |tail| ensures tail[m] != '[' {
        if m < |kv.0| {
          assert tail[m] == kv.0[m];
        } else if m > |kv.0| && m < |kv.0| + 1 + |kv.1| {
          assert tail[m] == kv.1[m - |kv.0| - 1];
        }
      }
    }
    RemoveAllSkip(tail, rest, SETTINGS_FLAG);
    AppendAssoc("[", tail, RemoveAll(rest, SETTINGS_FLAG));
  }

  /** Deleting `[TS]` from an encoding changes nothing. */
  lemma {:induction false} EncodingHasNoFlag(pairs: seq<(string, string)>)
    requires forall i | 0 <= i < |pairs| :: Encodable(pairs[i])
    ensures RemoveAll(Encode(pairs), SETTINGS_FLAG) == Encode(pairs)
  {
    if |pairs| > 0 {
      EncodingHasNoFlag(pairs[1..]);
      FragmentHasNoFlag(pairs[0], Encode(pairs[1..]));
    }
  }

  /** An encoding is its pieces joined with `]`. */
  lemma {:induction false} EncodeAsJoin(pairs: seq<(string, string)>)
    ensures Encode(pairs) == Join(Pieces(pairs), ']')
  {
    if |pairs| > 0 {
      EncodeAsJoin(pairs[1..]);
      var p := "[" + pairs[0].0 + "=" + pairs[0].1;
      assert Pieces(pairs)[1..] == Pieces(pairs[1..]);
      assert Bracketed(pairs[0]) == p + [']'];
    }
  }

  /** No piece of an encodable list holds `]`. */
  lemma {:induction false} PiecesHaveNoBracket(pairs: seq<(string, string)>)
    requires forall i | 0 <= i < |pairs| :: Encodable(pairs[i])
    ensures forall i | 0 <= i < |Pieces(pairs)| :: ']' !in Pieces(pairs)[i]
  {
    if |pairs| > 0 {
      PiecesHaveNoBracket(pairs[1..]);
      assert Pieces(pairs)[1..] == Pieces(pairs[1..]);
    }
  }

  /** Reading the piece `[k=v` stores exactly `k := v`. */
  lemma ReadPiece(m: Settings, kv: (string, string))
    requires Encodable(kv)
    ensures ApplyFragment(m, "[" + kv.0 + "=" + kv.1) == m[kv.0 := kv.1]
  {
    var body := kv.0 + "=" + kv.1;
    assert "[" + kv.0 + "=" + kv.1 == "[" + body;
    RemoveAllLeading("[", body);
    AbsentChar(body, '[');
    assert RemoveAll(body, "[") == RemoveAll(body, ['[']);
    SplitAtFirstSeparator(kv.0, kv.1, '=');
    assert body == kv.0 + ['='] + kv.1;
    SplitJoin(Split(kv.1, '='), '=');
  }

  /** Reading the pieces of an encoding assigns its pairs in order. */
  lemma {:induction false} ReadPieces(m: Settings, pairs: seq<(string, string)>)
    requires forall i | 0 <= i < |pairs| :: Encodable(pairs[i])
    ensures ApplyFragments(m, Pieces(pairs)) == Assign(m, pairs)
    decreases |pairs|
  {
    if |pairs| == 0 {
      assert Split(RemoveAll("", "["), '=') == [""];
    } else {
      ReadPiece(m, pairs[0]);
      assert Pieces(pairs)[1..] == Pieces(pairs[1..]);
      ReadPieces(m[pairs[0].0 := pairs[0].1], pairs[1..]);
    }
  }

  /**
   * The round trip: a flagged cell written as `[TS][k1=v1]…[kn=vn]`, with
   * keys free of `=`, `[`, `]` and values free of `[`, `]`, reads back as
   * the pairs assigned in order (the last of equal keys wins).
   */
  lemma ParseEncoded(pairs: seq<(string, string)>)
    requires forall i | 0 <= i < |pairs| :: Encodable(pairs[i])
    ensures ParseSettings(SETTINGS_FLAG + Encode(pairs)) == Assign(map[], pairs)
  {
    RemoveAllLeading(SETTINGS_FLAG, Encode(pairs));
    EncodingHasNoFlag(pairs);
    EncodeAsJoin(pairs);
    PiecesHaveNoBracket(pairs);
    SplitJoin(Pieces(pairs), ']');
    ReadPieces(map[], pairs);
  }
}

=== FILE: sheet_actions.dfy ===
/**
 * The sheet actions that load a sheet and add a sort: the server's lists
 * of rows and columns are keyed by id, the visible columns are the column
 * ids ordered by position, and the visible rows are the row ids ordered by
 * the raw cell values under the sheet's sorts (by id when there are none).
 */
module SheetActions {
  import opened Wrappers
  import opened Text
  import opened Sorting
  import opened Ordering
  import VisibleRows

  /** A cell as the server sends it; `value` may be `null`. */
  datatype SheetCell = SheetCell(id: string, columnId: string, value: Option<string>)

  /** A row with its cells, in the server's order. */
  datatype SheetRow = SheetRow(id: string, cells: seq<SheetCell>)

  /** A column and its display position. */
  datatype SheetColumn = SheetColumn(id: string, name: string, position: int)

  /** A sheet as the server sends it. */
  datatype SheetFromServer = SheetFromServer(id: string, columns: seq<SheetColumn>, rows: seq<SheetRow>)

  /** A JavaScript object: its keys in insertion order (`Object.keys`) and its entries. */
  datatype Table<T> = Table(keys: seq<string>, entries: map<string, T>)

  /** The keys list each entry once. */
  ghost predicate WellKeyed<T>(t: Table<T>)
  {
    && Distinct(t.keys)
    && forall k :: k in t.keys <==> k in t.entries
  }

  /** `t[k] = v`: a new key goes last, an existing key keeps its place. */
  function Put<T>(t: Table<T>, k: string, v: T): (r: Table<T>)
    requires WellKeyed(t)
    ensures WellKeyed(r)
    ensures r.entries == t.entries[k := v]
    ensures |r.keys| >= |t.keys| && r.keys[..|t.keys|] == t.keys
  {
    if k in t.entries then Table(t.keys, t.entries[k := v])
    else
      var keys := t.keys + [k];
      assert keys[..|t.keys|] == t.keys;
      assert Distinct(keys) by {
        forall i, j | 0 <= i < j < |keys| ensures keys[i] != keys[j] {
          if j < |t.keys| {
            assert keys[i] == t.keys[i] && keys[j] == t.keys[j];
          } else {
            assert keys[i] in t.keys;
          }
        }
      }
      Table(keys, t.entries[k := v])
  }

  /** No later item carries item `i`'s id. */
  ghost predicate LastWithId<T>(items: seq<T>, id: T -> string, i: int)
    requires 0 <= i < |items|
  {
    forall j | i < j < |items| :: id(items[j]) != id(items[i])
  }

  /** `items.forEach(x => table[x.id] = x)` from an empty object. */
  function Normalize<T>(items: seq<T>, id: T -> string): (t: Table<T>)
    ensures WellKeyed(t)
    decreases |items|
  {
    if |items| == 0 then Table([], map[])
    else Put(Normalize(items[..|items| - 1], id), id(items[|items| - 1]), items[|items| - 1])
  }

  /** The normalized object holds exactly the items' ids. */
  lemma {:induction false} NormalizeIds<T>(items: seq<T>, id: T -> string)
    ensures forall k :: k in Normalize(items, id).entries <==> k in Map(id, items)
    decreases |items|
  {
    if |items| > 0 {
      var n := |items| - 1;
      NormalizeIds(items[..n], id);
      MapAppend(id, items[..n], [items[n]]);
      assert items == items[..n] + [items[n]];
    }
  }

  /** Each id holds the last item carrying it. */
  lemma {:induction false} NormalizeLast<T>(items: seq<T>, id: T -> string, i: int)
    requires 0 <= i < |items| && LastWithId(items, id, i)
    ensures id(items[i]) in Normalize(items, id).entries
    ensures Normalize(items, id).entries[id(items[i])] == items[i]
    decreases |items|
  {
    var n := |items| - 1;
    var init := items[..n];
    var prev := Normalize(init, id);
    assert Normalize(items, id) == Put(prev, id(items[n]), items[n]);
    assert Normalize(items, id).entries == prev.entries[id(items[n]) := items[n]];
    if i < n {
      assert init[i] == items[i];
      assert LastWithId(init, id, i) by {
        forall j | i < j < |init| ensures id(init[j]) != id(init[i]) {
          assert init[j] == items[j];
        }
      }
      NormalizeLast(init, id, i);
      assert id(items[n]) != id(items[i]);
    }
  }

  /**
   * The normalized object holds exactly the items' ids, and each id holds
   * the last item carrying it.
   */
  lemma NormalizeEntries<T>(items: seq<T>, id: T -> string)
    ensures forall k :: k in Normalize(items, id).entries <==> k in Map(id, items)
    ensures forall i | 0 <= i < |items| && LastWithId(items, id, i) :: Normalize(items, id).entries[id(items[i])] == items[i]
  {
    NormalizeIds(items, id);
    forall i | 0 <= i < |items| && LastWithId(items, id, i) ensures Normalize(items, id).entries[id(items[i])] == items[i] {
      NormalizeLast(items, id, i);
    }
  }

  /** With distinct ids the keys come in the items' order. */
  lemma {:induction false} NormalizeKeys<T>(items: seq<T>, id: T -> string)
    requires Distinct(Map(id, items))
    ensures Normalize(items, id).keys == Map(id, items)
    decreases |items|
  {
    if |items| > 0 {
      var n := |items| - 1;
      var init := items[..n];
      var last := items[n];
      MapAppend(id, init, [last]);
      assert items == init + [last];
      var ids := Map(id, init);
      assert Map(id, items) == ids + [id(last)];
      assert Distinct(ids) by {
        forall i, j | 0 <= i < j < |ids| ensures ids[i] != ids[j] {
          assert Map(id, items)[i] == ids[i] && Map(id, items)[j] == ids[j];
        }
      }
      assert id(last) !in ids by {
        forall i | 0 <= i < |ids| ensures ids[i] != id(last) {
          assert Map(id, items)[i] == ids[i] && Map(id, items)[n] == id(last);
        }
      }
      NormalizeKeys(init, id);
    }
  }

  // ---------------------------------------------------------------------------
  // lodash's compareAscending on positions and on raw cell values
  // ---------------------------------------------------------------------------

  /** `compareAscending` on two numbers. */
  function IntCmp(a: int, b: int): (r: int)
    ensures r < 0 <==> a < b
    ensures r > 0 <==> a > b
  {
    if a < b then -1 else if a > b then 1 else 0
  }

  /** `compareAscending` on two raw cell values: strings by code unit, `null` after every string. */
  function RawCmp(a: Option<string>, b: Option<string>): (r: int)
    ensures r == 0 <==> a == b
    ensures a.None? && b.Some? ==> r > 0
    ensures a.Some? && b.None? ==> r < 0
  {
    match (a, b)
    case (Some(x), Some(y)) => StrCmp(x, y)
    case (None, Some(_)) => 1
    case (Some(_), None) => -1
    case (None, None) => 0
  }

  /** Positions are totally preordered. */
  lemma IntPreorder(x: int, y: int, z: int)
    ensures Preorder3(x, y, z, IntCmp)
  {
  }

  /** Raw values are totally preordered. */
  lemma RawPreorder(x: Option<string>, y: Option<string>, z: Option<string>)
    ensures Preorder3(x, y, z, RawCmp)
  {
    if x.Some? && y.Some? { StrCmpAntisymmetric(x.value, y.value); }
    if y.Some? && z.Some? { StrCmpAntisymmetric(y.value, z.value); }
    if x.Some? && z.Some? { StrCmpAntisymmetric(x.value, z.value); }
    if x.Some? && y.Some? && z.Some? {
      var a, b, c := x.value, y.value, z.value;
      if StrCmp(a, b) <= 0 && StrCmp(b, c) <= 0 { StrCmpTransitive(a, b, c); }
      if StrCmp(b, c) <= 0 && StrCmp(c, a) <= 0 { StrCmpTransitive(b, c, a); }
      if StrCmp(c, a) <= 0 && StrCmp(a, b) <= 0 { StrCmpTransitive(c, a, b); }
      if StrCmp(a, c) <= 0 && StrCmp(c, b) <= 0 { StrCmpTransitive(a, c, b); }
      if StrCmp(c, b) <= 0 && StrCmp(b, a) <= 0 { StrCmpTransitive(c, b, a); }
      if StrCmp(b, a) <= 0 && StrCmp(a, c) <= 0 { StrCmpTransitive(b, a, c); }
    }
  }

  /** Criteria rows of one length over raw values are totally preordered column by column. */
  lemma RawColumnsPreordered(crit: seq<seq<Option<string>>>, n: nat)
    requires forall i | 0 <= i < |crit| :: |crit[i]| == n
    ensures ColumnsPreordered(crit, RawCmp)
  {
    forall i, j, k | 0 <= i < |crit| && 0 <= j < |crit| && 0 <= k < |crit|
      ensures PointwisePreorder(crit[i], crit[j], crit[k], RawCmp)
    {
      forall m | 0 <= m < n ensures Preorder3(crit[i][m], crit[j][m], crit[k][m], RawCmp) {
        RawPreorder(crit[i][m], crit[j][m], crit[k][m]);
      }
    }
  }

  // ---------------------------------------------------------------------------
  // Visible columns
  // ---------------------------------------------------------------------------

  /** Each key's single criterion: its column's position. */
  function PositionCriteria(columns: Table<SheetColumn>): (crit: seq<seq<int>>)
    requires WellKeyed(columns)
    ensures |crit| == |columns.keys|
    ensures forall i | 0 <= i < |crit| :: crit[i] == [columns.entries[columns.keys[i]].position]
  {
    seq(|columns.keys|, i requires 0 <= i < |columns.keys| => [columns.entries[columns.keys[i]].position])
  }

  /** The position of a listed column. */
  function Position(columns: Table<SheetColumn>, id: string): int
    requires WellKeyed(columns) && id in columns.keys
  {
    columns.entries[id].position
  }

  /** `resolveVisibleColumns`: `orderBy(Object.keys(columns), id => columns[id].position)`, a permutation of the keys. */
  function ResolveVisibleColumns(columns: Table<SheetColumn>): (ids: seq<string>)
    requires WellKeyed(columns)
    ensures multiset(ids) == multiset(columns.keys)
  {
    OrderBy(columns.keys, PositionCriteria(columns), [], IntCmp)
  }

  /** Positions give totally preordered criteria. */
  lemma PositionsPreordered(columns: Table<SheetColumn>)
    requires WellKeyed(columns)
    ensures ColumnsPreordered(PositionCriteria(columns), IntCmp)
  {
    var crit := PositionCriteria(columns);
    forall a, b, c | 0 <= a < |crit| && 0 <= b < |crit| && 0 <= c < |crit|
      ensures PointwisePreorder(crit[a], crit[b], crit[c], IntCmp)
    {
      IntPreorder(crit[a][0], crit[b][0], crit[c][0]);
    }
  }

  /** The columns at places `i < j` of the visible columns are in position order, ties in key order. */
  lemma VisibleColumnPair(columns: Table<SheetColumn>, i: int, j: int)
    requires WellKeyed(columns)
    requires 0 <= i < j < |ResolveVisibleColumns(columns)|
    ensures var ids := ResolveVisibleColumns(columns);
      ids[i] in columns.keys && ids[j] in columns.keys &&
      (|| Position(columns, ids[i]) < Position(columns, ids[j])
       || (Position(columns, ids[i]) == Position(columns, ids[j]) && IndexOf(columns.keys, ids[i]) < IndexOf(columns.keys, ids[j])))
  {
    var keys := columns.keys;
    var crit := PositionCriteria(columns);
    var ids := ResolveVisibleColumns(columns);
    PositionsPreordered(columns);
    OrderByStable(keys, crit, [], IntCmp, i, j);
    var p, q := IndexOf(keys, ids[i]), IndexOf(keys, ids[j]);
    var a, b := Position(columns, ids[i]), Position(columns, ids[j]);
    assert crit[p] == [a] && crit[q] == [b];
    assert CompareCriteria([a], [b], [], IntCmp) == IntCmp(a, b);
  }

  /**
   * The visible columns go by non-decreasing position, and columns at the
   * same position keep their key order.
   */
  lemma VisibleColumnsOrdered(columns: Table<SheetColumn>)
    requires WellKeyed(columns)
    ensures var ids := ResolveVisibleColumns(columns);
      forall i, j | 0 <= i < j < |ids| ::
        ids[i] in columns.keys && ids[j] in columns.keys &&
        (|| Position(columns, ids[i]) < Position(columns, ids[j])
         || (Position(columns, ids[i]) == Position(columns, ids[j]) && IndexOf(columns.keys, ids[i]) < IndexOf(columns.keys, ids[j])))
  {
    var ids := ResolveVisibleColumns(columns);
    forall i, j | 0 <= i < j < |ids|
      ensures ids[i] in columns.keys && ids[j] in columns.keys &&
        (|| Position(columns, ids[i]) < Position(columns, ids[j])
         || (Position(columns, ids[i]) == Position(columns, ids[j]) && IndexOf(columns.keys, ids[i]) < IndexOf(columns.keys, ids[j])))
    {
      VisibleColumnPair(columns, i, j);
    }
  }

  // ---------------------------------------------------------------------------
  // Visible rows
  // ---------------------------------------------------------------------------

  /** `cells.find(cell => cell.columnId === columnId)`: the first cell in the column. */
  function FindCell(cells: seq<SheetCell>, columnId: string): (r: Option<SheetCell>)
    ensures r.Some? ==> r.value in cells && r.value.columnId == columnId
  {
    if |cells| == 0 then None
    else if cells[0].columnId == columnId then Some(cells[0])
    else FindCell(cells[1..], columnId)
  }

  /** `find` fails exactly when no cell is in the column, and otherwise finds the first one. */
  lemma {:induction false} FindCellFirst(cells: seq<SheetCell>, columnId: string)
    ensures FindCell(cells, columnId).None? <==> forall k | 0 <= k < |cells| :: cells[k].columnId != columnId
    ensures FindCell(cells, columnId).Some? ==> exists k | 0 <= k < |cells| ::
      (cells[k] == FindCell(cells, columnId).value && forall m | 0 <= m < k :: cells[m].columnId != columnId)
  {
    if |cells| > 0 && cells[0].columnId != columnId {
      FindCellFirst(cells[1..], columnId);
      assert forall k | 1 <= k < |cells| :: cells[k] == cells[1..][k - 1];
      if FindCell(cells, columnId).Some? {
        var k :| 0 <= k < |cells[1..]| && cells[1..][k] == FindCell(cells, columnId).value
          && forall m | 0 <= m < k :: cells[1..][m].columnId != columnId;
        assert cells[k + 1] == FindCell(cells, columnId).value;
      }
    }
  }

  /** Every row has a cell in every sort's column: otherwise `.find(...).value` fails. */
  predicate RowsSortable(rows: Table<SheetRow>, sorts: seq<VisibleRows.Sort>)
  {
    forall id, s | id in rows.entries && s in sorts :: FindCell(rows.entries[id].cells, s.columnId).Some?
  }

  /** A row's criteria: the raw value under each sort's column, or the id itself when there are no sorts. */
  function RowCriteria(rows: Table<SheetRow>, sorts: seq<VisibleRows.Sort>, id: string): (crit: seq<Option<string>>)
    requires id in rows.entries && RowsSortable(rows, sorts)
    ensures |crit| == if |sorts| == 0 then 1 else |sorts|
    ensures |sorts| == 0 ==> crit == [Some(id)]
  {
    if |sorts| == 0 then [Some(id)]
    else
      seq(|sorts|, i requires 0 <= i < |sorts| => FindCell(rows.entries[id].cells, sorts[i].columnId).value.value)
  }

  /** `'asc'` for an `'ASC'` sort, `'desc'` otherwise. */
  function SortOrders(sorts: seq<VisibleRows.Sort>): (orders: seq<Order>)
    ensures |orders| == |sorts|
    ensures forall i | 0 <= i < |sorts| :: orders[i] == if sorts[i].order == VisibleRows.ASC then Asc else Desc
  {
    seq(|sorts|, i requires 0 <= i < |sorts| => if sorts[i].order == VisibleRows.ASC then Asc else Desc)
  }

  /** The criteria of every key, in key order. */
  function AllCriteria(rows: Table<SheetRow>, sorts: seq<VisibleRows.Sort>): (crit: seq<seq<Option<string>>>)
    requires WellKeyed(rows) && RowsSortable(rows, sorts)
    ensures |crit| == |rows.keys|
  {
    seq(|rows.keys|, i requires 0 <= i < |rows.keys| => RowCriteria(rows, sorts, rows.keys[i]))
  }

  /** Place `i` of the criteria is the criteria of key `i`. */
  lemma AllCriteriaAt(rows: Table<SheetRow>, sorts: seq<VisibleRows.Sort>, i: int)
    requires WellKeyed(rows) && RowsSortable(rows, sorts)
    requires 0 <= i < |rows.keys|
    ensures AllCriteria(rows, sorts)[i] == RowCriteria(rows, sorts, rows.keys[i])
  {
  }

  /** `resolveVisibleRows`: `orderBy(Object.keys(rows), sortBy, sortOrder)`, a permutation of the row ids. */
  function ResolveVisibleRows(rows: Table<SheetRow>, sorts: seq<VisibleRows.Sort>): (ids: seq<string>)
    requires WellKeyed(rows) && RowsSortable(rows, sorts)
    ensures multiset(ids) == multiset(rows.keys)
  {
    OrderBy(rows.keys, AllCriteria(rows, sorts), SortOrders(sorts), RawCmp)
  }

  /** The keys at places `i < j` of the visible rows are in the order of their places' criteria. */
  lemma VisibleKeyPair(rows: Table<SheetRow>, sorts: seq<VisibleRows.Sort>, i: int, j: int)
    requires WellKeyed(rows) && RowsSortable(rows, sorts)
    requires 0 <= i < j < |rows.keys|
    ensures var ids := ResolveVisibleRows(rows, sorts);
      ids[i] in rows.keys && ids[j] in rows.keys &&
      var p, q := IndexOf(rows.keys, ids[i]), IndexOf(rows.keys, ids[j]);
      var crit := AllCriteria(rows, sorts);
      var c := CompareCriteria(crit[p], crit[q], SortOrders(sorts), RawCmp);
      c < 0 || (c == 0 && p < q)
  {
    var crit := AllCriteria(rows, sorts);
    assert ResolveVisibleRows(rows, sorts) == OrderBy(rows.keys, crit, SortOrders(sorts), RawCmp);
    RawColumnsPreordered(crit, if |sorts| == 0 then 1 else |sorts|);
    OrderByStable(rows.keys, crit, SortOrders(sorts), RawCmp, i, j);
  }

  /** The rows at places `i < j` of the visible rows are in criteria order, full ties in key order. */
  lemma VisibleRowPair(rows: Table<SheetRow>, sorts: seq<VisibleRows.Sort>, i: int, j: int)
    requires WellKeyed(rows) && RowsSortable(rows, sorts)
    requires 0 <= i < j < |rows.keys|
    ensures var ids := ResolveVisibleRows(rows, sorts);
      ids[i] in rows.entries && ids[j] in rows.entries &&
      var c := CompareCriteria(RowCriteria(rows, sorts, ids[i]), RowCriteria(rows, sorts, ids[j]), SortOrders(sorts), RawCmp);
      c < 0 || (c == 0 && IndexOf(rows.keys, ids[i]) < IndexOf(rows.keys, ids[j]))
  {
    var ids := ResolveVisibleRows(rows, sorts);
    VisibleKeyPair(rows, sorts, i, j);
    var p, q := IndexOf(rows.keys, ids[i]), IndexOf(rows.keys, ids[j]);
    AllCriteriaAt(rows, sorts, p);
    AllCriteriaAt(rows, sorts, q);
  }

  /**
   * The visible rows go lexicographically by their criteria, the first
   * sort deciding first and each sort in its direction, and rows tied on
   * every criterion keep their key order.
   */
  lemma VisibleRowsOrdered(rows: Table<SheetRow>, sorts: seq<VisibleRows.Sort>)
    requires WellKeyed(rows) && RowsSortable(rows, sorts)
    ensures var ids := ResolveVisibleRows(rows, sorts);
      forall i, j | 0 <= i < j < |ids| ::
        ids[i] in rows.entries && ids[j] in rows.entries &&
        var c := CompareCriteria(RowCriteria(rows, sorts, ids[i]), RowCriteria(rows, sorts, ids[j]), SortOrders(sorts), RawCmp);
        c < 0 || (c == 0 && IndexOf(rows.keys, ids[i]) < IndexOf(rows.keys, ids[j]))
  {
    var ids := ResolveVisibleRows(rows, sorts);
    forall i, j | 0 <= i < j < |ids|
      ensures ids[i] in rows.entries && ids[j] in rows.entries &&
        var c := CompareCriteria(RowCriteria(rows, sorts, ids[i]), RowCriteria(rows, sorts, ids[j]), SortOrders(sorts), RawCmp);
        c < 0 || (c == 0 && IndexOf(rows.keys, ids[i]) < IndexOf(rows.keys, ids[j]))
    {
      VisibleRowPair(rows, sorts, i, j);
    }
  }

  // ---------------------------------------------------------------------------
  // The sheet in the store, loadSheet and createSort
  // ---------------------------------------------------------------------------

  /** A sheet in the store. */
  datatype SheetState = SheetState(
    id: string,
    columns: Table<SheetColumn>,
    visibleColumns: seq<string>,
    rows: Table<SheetRow>,
    visibleRows: seq<string>,
    sorts: seq<VisibleRows.Sort>)

  /** The store's invariant: both objects are well keyed and every row can be sorted by the sheet's sorts. */
  ghost predicate Consistent(s: SheetState)
  {
    WellKeyed(s.columns) && WellKeyed(s.rows) && RowsSortable(s.rows, s.sorts)
  }

  function RowId(r: SheetRow): string { r.id }

  function ColumnId(c: SheetColumn): string { c.id }

  /**
   * `loadSheet`: rows and columns keyed by id, the columns ordered by
   * position, the rows by id (no sorts), and an empty sort list.
   */
  function LoadSheet(sheet: SheetFromServer): (s: SheetState)
    ensures Consistent(s)
    ensures s.id == sheet.id && s.sorts == []
    ensures multiset(s.visibleColumns) == multiset(s.columns.keys)
    ensures multiset(s.visibleRows) == multiset(s.rows.keys)
  {
    var rows := Normalize(sheet.rows, RowId);
    var columns := Normalize(sheet.columns, ColumnId);
    SheetState(sheet.id, columns, ResolveVisibleColumns(columns), rows, ResolveVisibleRows(rows, []), [])
  }

  /**
   * Every row and column the server sent is retrievable by its id (the
   * last one when ids repeat), and nothing else is stored.
   */
  lemma LoadSheetRetrievable(sheet: SheetFromServer)
    ensures var s := LoadSheet(sheet);
      && (forall k :: k in s.rows.entries <==> k in Map(RowId, sheet.rows))
      && (forall k :: k in s.columns.entries <==> k in Map(ColumnId, sheet.columns))
      && (forall i | 0 <= i < |sheet.rows| && LastWithId(sheet.rows, RowId, i) :: s.rows.entries[sheet.rows[i].id] == sheet.rows[i])
      && (forall i | 0 <= i < |sheet.columns| && LastWithId(sheet.columns, ColumnId, i) :: s.columns.entries[sheet.columns[i].id] == sheet.columns[i])
  {
    NormalizeEntries(sheet.rows, RowId);
    NormalizeEntries(sheet.columns, ColumnId);
  }

  /** Without sorts, the row ids compare by themselves: two distinct ids never tie. */
  lemma IdCriteria(rows: Table<SheetRow>, a: string, b: string)
    requires a in rows.entries && b in rows.entries
    ensures CompareCriteria(RowCriteria(rows, [], a), RowCriteria(rows, [], b), SortOrders([]), RawCmp) == StrCmp(a, b)
  {
    assert RowCriteria(rows, [], a) == [Some(a)] && RowCriteria(rows, [], b) == [Some(b)];
  }

  /** A loaded sheet shows its rows in ascending code-unit order of their ids. */
  lemma LoadSheetRowsById(sheet: SheetFromServer)
    ensures var ids := LoadSheet(sheet).visibleRows;
      forall i, j | 0 <= i < j < |ids| :: StrCmp(ids[i], ids[j]) < 0
  {
    var s := LoadSheet(sheet);
    var ids := s.visibleRows;
    forall i, j | 0 <= i < j < |ids| ensures StrCmp(ids[i], ids[j]) < 0 {
      VisibleRowPair(s.rows, [], i, j);
      IdCriteria(s.rows, ids[i], ids[j]);
    }
  }

  /** Sorts that the sheet's rows can be sorted by. */
  ghost predicate CanSortBy(s: SheetState, newSort: VisibleRows.Sort)
  {
    Consistent(s) && forall id | id in s.rows.entries :: FindCell(s.rows.entries[id].cells, newSort.columnId).Some?
  }

  /**
   * `createSort`: the new sort goes last, the earlier ones stay as they
   * were, the visible rows are recomputed from the whole new list, and
   * nothing else changes.
   */
  function CreateSort(s: SheetState, newSort: VisibleRows.Sort): (r: SheetState)
    requires CanSortBy(s, newSort)
    ensures Consistent(r)
    ensures r.sorts == s.sorts + [newSort]
    ensures r.id == s.id && r.columns == s.columns && r.visibleColumns == s.visibleColumns && r.rows == s.rows
    ensures multiset(r.visibleRows) == multiset(s.rows.keys)
  {
    var sorts := s.sorts + [newSort];
    assert RowsSortable(s.rows, sorts) by {
      forall id, t | id in s.rows.entries && t in sorts ensures FindCell(s.rows.entries[id].cells, t.columnId).Some? {
        if t != newSort { assert t in s.sorts; }
      }
    }
    assert sorts[..|s.sorts|] == s.sorts;
    s.(sorts := sorts, visibleRows := ResolveVisibleRows(s.rows, sorts))
  }

  /**
   * Appending a criterion refines a comparison: a decided comparison stays
   * decided the same way, and a tie is broken by the new criterion alone.
   */
  lemma {:induction false} CriteriaAppend<V>(a: seq<V>, b: seq<V>, orders: seq<Order>, cmp: (V, V) -> int, x: V, y: V, o: Order)
    requires |a| == |b| == |orders|
    ensures var c := CompareCriteria(a, b, orders, cmp);
      CompareCriteria(a + [x], b + [y], orders + [o], cmp) == if c != 0 then c else CompareCriteria([x], [y], [o], cmp)
    decreases |a|
  {
    if |a| > 0 {
      assert (a + [x])[1..] == a[1..] + [x];
      assert (b + [y])[1..] == b[1..] + [y];
      assert LaterOrders(orders + [o]) == LaterOrders(orders) + [o];
      CriteriaAppend(a[1..], b[1..], LaterOrders(orders), cmp, x, y, o);
    }
  }

  /** The raw value a row shows under a sort's column. */
  function SortValue(rows: Table<SheetRow>, id: string, t: VisibleRows.Sort): Option<string>
    requires id in rows.entries && FindCell(rows.entries[id].cells, t.columnId).Some?
  {
    FindCell(rows.entries[id].cells, t.columnId).value.value
  }

  /** With earlier sorts present, a row's criteria grow by the new sort's value. */
  lemma RowCriteriaAppend(rows: Table<SheetRow>, sorts: seq<VisibleRows.Sort>, t: VisibleRows.Sort, id: string)
    requires |sorts| > 0 && id in rows.entries && RowsSortable(rows, sorts + [t])
    ensures RowsSortable(rows, sorts)
    ensures RowCriteria(rows, sorts + [t], id) == RowCriteria(rows, sorts, id) + [SortValue(rows, id, t)]
    ensures SortOrders(sorts + [t]) == SortOrders(sorts) + SortOrders([t])
  {
    var sorts' := sorts + [t];
    forall id', u | id' in rows.entries && u in sorts ensures FindCell(rows.entries[id'].cells, u.columnId).Some? {
      assert u in sorts';
    }
    var a := RowCriteria(rows, sorts', id);
    var b := RowCriteria(rows, sorts, id) + [SortValue(rows, id, t)];
    assert |a| == |b|;
    forall k | 0 <= k < |a| ensures a[k] == b[k] {
      assert sorts'[k] == if k < |sorts| then sorts[k] else t;
    }
    var c := SortOrders(sorts');
    var d := SortOrders(sorts) + SortOrders([t]);
    forall k | 0 <= k < |c| ensures c[k] == d[k] {
      assert sorts'[k] == if k < |sorts| then sorts[k] else t;
    }
  }

  /** A comparison decided under the longer criteria, read back through the earlier criteria and the added one. */
  lemma RefineStep(a: seq<Option<string>>, b: seq<Option<string>>, orders: seq<Order>, x: Option<string>, y: Option<string>, o: Order, p: int, q: int)
    requires |a| == |b| == |orders|
    requires var c := CompareCriteria(a + [x], b + [y], orders + [o], RawCmp); c < 0 || (c == 0 && p < q)
    ensures var before := CompareCriteria(a, b, orders, RawCmp);
      var added := CompareCriteria([x], [y], [o], RawCmp);
      before < 0 || (before == 0 && added < 0) || (before == 0 && added == 0 && p < q)
  {
    CriteriaAppend(a, b, orders, RawCmp, x, y, o);
  }

  /**
   * Rows ordered by the sorts plus one more go by the earlier sorts first,
   * ties broken by the added sort, and full ties in key order.
   */
  lemma ResolveRefines(rows: Table<SheetRow>, sorts: seq<VisibleRows.Sort>, t: VisibleRows.Sort, i: int, j: int)
    requires WellKeyed(rows) && RowsSortable(rows, sorts + [t]) && |sorts| > 0
    requires 0 <= i < j < |rows.keys|
    ensures RowsSortable(rows, sorts)
    ensures var ids := ResolveVisibleRows(rows, sorts + [t]);
      ids[i] in rows.entries && ids[j] in rows.entries &&
      var before := CompareCriteria(RowCriteria(rows, sorts, ids[i]), RowCriteria(rows, sorts, ids[j]), SortOrders(sorts), RawCmp);
      var added := CompareCriteria([SortValue(rows, ids[i], t)], [SortValue(rows, ids[j], t)], SortOrders([t]), RawCmp);
      || before < 0
      || (before == 0 && added < 0)
      || (before == 0 && added == 0 && IndexOf(rows.keys, ids[i]) < IndexOf(rows.keys, ids[j]))
  {
    var ids := ResolveVisibleRows(rows, sorts + [t]);
    VisibleRowPair(rows, sorts + [t], i, j);
    RefinesAt(rows, sorts, t, ids[i], ids[j]);
  }

  /** Two rows in order by the sorts plus one more are in order by the earlier sorts, ties broken by the added one. */
  lemma RefinesAt(rows: Table<SheetRow>, sorts: seq<VisibleRows.Sort>, t: VisibleRows.Sort, u: string, v: string)
    requires RowsSortable(rows, sorts + [t]) && |sorts| > 0
    requires u in rows.entries && v in rows.entries
    requires var c := CompareCriteria(RowCriteria(rows, sorts + [t], u), RowCriteria(rows, sorts + [t], v), SortOrders(sorts + [t]), RawCmp);
      c < 0 || (c == 0 && IndexOf(rows.keys, u) < IndexOf(rows.keys, v))
    ensures RowsSortable(rows, sorts)
    ensures var before := CompareCriteria(RowCriteria(rows, sorts, u), RowCriteria(rows, sorts, v), SortOrders(sorts), RawCmp);
      var added := CompareCriteria([SortValue(rows, u, t)], [SortValue(rows, v, t)], SortOrders([t]), RawCmp);
      || before < 0
      || (before == 0 && added < 0)
      || (before == 0 && added == 0 && IndexOf(rows.keys, u) < IndexOf(rows.keys, v))
  {
    RowCriteriaAppend(rows, sorts, t, u);
    RowCriteriaAppend(rows, sorts, t, v);
    var a, b := RowCriteria(rows, sorts, u), RowCriteria(rows, sorts, v);
    var x, y := SortValue(rows, u, t), SortValue(rows, v, t);
    var o := SortOrders([t])[0];
    assert SortOrders([t]) == [o];
    RefineStep(a, b, SortOrders(sorts), x, y, o, IndexOf(rows.keys, u), IndexOf(rows.keys, v));
  }

  /**
   * After `createSort` on a sheet already sorted by something, the rows go
   * by the earlier sorts first, ties are broken by the new sort, and rows
   * tied on everything keep their key order.
   */
  lemma CreateSortRefines(s: SheetState, newSort: VisibleRows.Sort, i: int, j: int)
    requires CanSortBy(s, newSort) && |s.sorts| > 0
    requires 0 <= i < j < |s.rows.keys|
    ensures var ids := CreateSort(s, newSort).visibleRows;
      ids[i] in s.rows.entries && ids[j] in s.rows.entries &&
      var before := CompareCriteria(RowCriteria(s.rows, s.sorts, ids[i]), RowCriteria(s.rows, s.sorts, ids[j]), SortOrders(s.sorts), RawCmp);
      var added := CompareCriteria([SortValue(s.rows, ids[i], newSort)], [SortValue(s.rows, ids[j], newSort)], SortOrders([newSort]), RawCmp);
      || before < 0
      || (before == 0 && added < 0)
      || (before == 0 && added == 0 && IndexOf(s.rows.keys, ids[i]) < IndexOf(s.rows.keys, ids[j]))
  {
    assert CreateSort(s, newSort).visibleRows == ResolveVisibleRows(s.rows, s.sorts + [newSort]);
    ResolveRefines(s.rows, s.sorts, newSort, i, j);
  }
}

=== FILE: sheet_builder.dfy ===
/**
 * The CSV import builder: from the records of an uploaded CSV file it
 * derives the sheet's columns (with `COLUMN_BREAK` placeholders in the
 * visible-column list), one row per data record, one cell per row and
 * column, column widths from the longest value, the 2500-element insert
 * batches, and the column and view settings carried by `[TS]`-flagged
 * records. Database inserts become returned lists; the UUID generator
 * becomes an injected supply `uuid`, whose `k`-th draw is `uuid(k)`.
 */
module SheetBuilder {
  import opened Wrappers
  import opened Text
  import opened Sorting
  import opened SettingsCell

  /** The header-name marker of a visual column break. */
  const COLUMN_BREAK: string := "COLUMN_BREAK"
  /** The marker of a view-settings record. */
  const SHEET_VIEW: string := "SHEET_VIEW"
  /** Widths are 8 pixels per byte, at least 50 for a header and at most 300 after data. */
  const MIN_WIDTH: int := 50
  const MAX_WIDTH: int := 300
  const PIXELS_PER_CHAR: int := 8
  /** Rows and cells are inserted in batches of this many. */
  const CHUNK_SIZE: nat := 2500

  /** One CSV record: (header name, text) in header order, as `Csv::toArray` keys it. */
  type Record = seq<(string, string)>

  /** The text of a record's first cell; an empty record reads as "". */
  function FirstCell(r: Record): string
  {
    if |r| == 0 then "" else r[0].1
  }

  /** The value under `name`; a missing key reads as PHP `null`. */
  function Lookup(r: Record, name: string): (v: Option<string>)
    ensures v.None? <==> forall i | 0 <= i < |r| :: r[i].0 != name
    ensures v.Some? ==> exists i | 0 <= i < |r| :: r[i] == (name, v.value)
  {
    if |r| == 0 then None
    else if r[0].0 == name then Some(r[0].1)
    else
      var v := Lookup(r[1..], name);
      assert v.Some? ==> exists i | 0 <= i < |r| :: r[i] == (name, v.value) by {
        if v.Some? {
          var i :| 0 <= i < |r[1..]| && r[1..][i] == (name, v.value);
          assert r[i + 1] == (name, v.value);
        }
      }
      v
  }

  /** A record whose first cell carries `[TS]` holds settings, not data. */
  predicate IsSettingsRecord(r: Record)
  {
    Contains(FirstCell(r), SETTINGS_FLAG)
  }

  /** A data record becomes a sheet row. */
  predicate IsDataRecord(r: Record)
  {
    !IsSettingsRecord(r)
  }

  /** A view-settings record: its first cell carries both `[TS]` and `SHEET_VIEW`. */
  predicate IsViewRecord(r: Record)
  {
    Contains(FirstCell(r), SETTINGS_FLAG) && Contains(FirstCell(r), SHEET_VIEW)
  }

  // ---------------------------------------------------------------------------
  // Columns
  // ---------------------------------------------------------------------------

  /** An entry of the visible-column list: a break placeholder or a column id. */
  datatype Slot = ColumnBreak | ColumnId(id: string)

  /**
   * A column as inserted: `sample` is the first record's text under the
   * column's name, the input of the column-type guess.
   */
  datatype NewColumn = NewColumn(id: string, name: string, sample: string, width: int)

  /** A header entry that becomes a column (its name lacks `COLUMN_BREAK`). */
  predicate IsColumnEntry(e: (string, string))
  {
    !Contains(e.0, COLUMN_BREAK)
  }

  /** The starting width of a column: 8 pixels per byte of its name, at least 50. */
  function BaseWidth(name: string): (w: int)
    ensures w >= MIN_WIDTH && w >= PIXELS_PER_CHAR * Utf8Length(name)
    ensures w == MIN_WIDTH || w == PIXELS_PER_CHAR * Utf8Length(name)
  {
    if PIXELS_PER_CHAR * Utf8Length(name) > MIN_WIDTH then PIXELS_PER_CHAR * Utf8Length(name) else MIN_WIDTH
  }

  /** The column ids of the non-break slots, in order. */
  function SlotIds(slots: seq<Slot>): seq<string>
  {
    if |slots| == 0 then []
    else (if slots[0].ColumnId? then [slots[0].id] else []) + SlotIds(slots[1..])
  }

  /** The id of a new column. */
  function ColumnIdOf(c: NewColumn): string
  {
    c.id
  }

  /**
   * The header pass: one slot per header entry, a break exactly where the
   * name contains `COLUMN_BREAK`, and one column per other entry.
   */
  function HeaderPass(header: Record, uuid: nat -> string, drawn: nat): (r: (seq<Slot>, seq<NewColumn>))
    ensures |r.0| == |header|
    ensures |r.1| == |Keep(header, IsColumnEntry)|
    decreases |header|
  {
    if |header| == 0 then ([], [])
    else
      var e := header[0];
      var rest := HeaderPass(header[1..], uuid, if Contains(e.0, COLUMN_BREAK) then drawn else drawn + 1);
      if Contains(e.0, COLUMN_BREAK) then
        ([ColumnBreak] + rest.0, rest.1)
      else
        var c := NewColumn(uuid(drawn), e.0, e.1, BaseWidth(e.0));
        ([ColumnId(c.id)] + rest.0, [c] + rest.1)
  }

  /** Slot `i` is a column break exactly when header entry `i` is named with the break marker. */
  lemma {:induction false} HeaderBreaks(header: Record, uuid: nat -> string, drawn: nat, i: int)
    requires 0 <= i < |header|
    ensures HeaderPass(header, uuid, drawn).0[i].ColumnBreak? <==> Contains(header[i].0, COLUMN_BREAK)
    decreases |header|
  {
    if i > 0 {
      var d := if Contains(header[0].0, COLUMN_BREAK) then drawn else drawn + 1;
      HeaderBreaks(header[1..], uuid, d, i - 1);
      assert HeaderPass(header, uuid, drawn).0[i] == HeaderPass(header[1..], uuid, d).0[i - 1];
    }
  }

  /**
   * Each non-break header entry becomes a column in header order, with the
   * next UUID draw, its name, its first value as type sample, and its
   * starting width.
   */
  lemma {:induction false} HeaderColumns(header: Record, uuid: nat -> string, drawn: nat, j: int)
    requires 0 <= j < |Keep(header, IsColumnEntry)|
    ensures var e := Keep(header, IsColumnEntry)[j];
      HeaderPass(header, uuid, drawn).1[j] == NewColumn(uuid(drawn + j), e.0, e.1, BaseWidth(e.0))
    decreases |header|
  {
    var e := header[0];
    var tail := Keep(header[1..], IsColumnEntry);
    var entries := Keep(header, IsColumnEntry);
    var r := HeaderPass(header, uuid, drawn);
    assert entries == (if IsColumnEntry(e) then [e] else []) + tail;
    if !IsColumnEntry(e) {
      assert r.1 == HeaderPass(header[1..], uuid, drawn).1;
      HeaderColumns(header[1..], uuid, drawn, j);
    } else {
      var rest := HeaderPass(header[1..], uuid, drawn + 1);
      assert r.1 == [NewColumn(uuid(drawn), e.0, e.1, BaseWidth(e.0))] + rest.1;
      if j > 0 {
        assert entries[j] == tail[j - 1] && r.1[j] == rest.1[j - 1];
        HeaderColumns(header[1..], uuid, drawn + 1, j - 1);
      }
    }
  }

  /** The non-break slots list exactly the new columns' ids, in order. */
  lemma {:induction false} HeaderSlotIds(header: Record, uuid: nat -> string, drawn: nat)
    ensures var r := HeaderPass(header, uuid, drawn); SlotIds(r.0) == Map(ColumnIdOf, r.1)
    decreases |header|
  {
    if |header| > 0 {
      var e := header[0];
      var r := HeaderPass(header, uuid, drawn);
      var d := if Contains(e.0, COLUMN_BREAK) then drawn else drawn + 1;
      var rest := HeaderPass(header[1..], uuid, d);
      HeaderSlotIds(header[1..], uuid, d);
      assert r.0[1..] == rest.0;
      if !Contains(e.0, COLUMN_BREAK) {
        MapAppend(ColumnIdOf, [r.1[0]], rest.1);
        assert r.1 == [r.1[0]] + rest.1;
      }
    }
  }

  // ---------------------------------------------------------------------------
  // Rows, cells and widths
  // ---------------------------------------------------------------------------

  /** A cell as inserted; a missing value is PHP `null`. */
  datatype NewCell = NewCell(id: string, columnId: string, rowId: string, value: Option<string>)

  /** The builder's state after some records: columns with their widths so far, rows, cells, UUID draws used. */
  datatype Progress = Progress(columns: seq<NewColumn>, rows: seq<string>, cells: seq<NewCell>, drawn: nat)

  /** `strlen` of a cell value: its UTF-8 byte count, 0 for `null`. */
  function ValueLength(v: Option<string>): nat
  {
    if v.None? then 0 else Utf8Length(v.value)
  }

  /** One width update: 8 pixels per byte of the value if wider, capped at 300. */
  function Widen(width: int, v: Option<string>): (w: int)
    ensures w <= MAX_WIDTH
    ensures w == MAX_WIDTH || w == width || w == PIXELS_PER_CHAR * ValueLength(v)
    ensures width <= MAX_WIDTH ==> w >= width
  {
    var wanted := if PIXELS_PER_CHAR * ValueLength(v) > width then PIXELS_PER_CHAR * ValueLength(v) else width;
    if wanted < MAX_WIDTH then wanted else MAX_WIDTH
  }

  /** The row for one data record: a new row id, then one cell per column, each from the next draw. */
  function AddRow(p: Progress, record: Record, uuid: nat -> string): (q: Progress)
    ensures |q.columns| == |p.columns| && q.rows == p.rows + [uuid(p.drawn)]
    ensures q.drawn == p.drawn + 1 + |p.columns|
    ensures |q.cells| == |p.cells| + |p.columns| && q.cells[..|p.cells|] == p.cells
  {
    var n := |p.columns|;
    var rowId := uuid(p.drawn);
    var cells := seq(n, j requires 0 <= j < n =>
      NewCell(uuid(p.drawn + 1 + j), p.columns[j].id, rowId, Lookup(record, p.columns[j].name)));
    var columns := seq(n, j requires 0 <= j < n =>
      p.columns[j].(width := Widen(p.columns[j].width, Lookup(record, p.columns[j].name))));
    assert (p.cells + cells)[..|p.cells|] == p.cells;
    Progress(columns, p.rows + [rowId], p.cells + cells, p.drawn + 1 + n)
  }

  /** The loop over the records as written: a settings record is skipped, any other adds a row. */
  function AddRows(p: Progress, records: seq<Record>, uuid: nat -> string): Progress
    decreases |records|
  {
    if |records| == 0 then p
    else
      var q := AddRows(p, records[..|records| - 1], uuid);
      var last := records[|records| - 1];
      if IsDataRecord(last) then AddRow(q, last, uuid) else q
  }

  /** The same loop over records already known to be data records. */
  function AddDataRows(p: Progress, data: seq<Record>, uuid: nat -> string): Progress
    decreases |data|
  {
    if |data| == 0 then p else AddRow(AddDataRows(p, data[..|data| - 1], uuid), data[|data| - 1], uuid)
  }

  /** Skipping settings records inside the loop is the same as dropping them first. */
  lemma {:induction false} SkippingIsFiltering(p: Progress, records: seq<Record>, uuid: nat -> string)
    ensures AddRows(p, records, uuid) == AddDataRows(p, Keep(records, IsDataRecord), uuid)
    decreases |records|
  {
    if |records| > 0 {
      var init, last := records[..|records| - 1], records[|records| - 1];
      SkippingIsFiltering(p, init, uuid);
      assert records == init + [last];
      KeepAppend(init, [last], IsDataRecord);
      var data := Keep(records, IsDataRecord);
      if IsDataRecord(last) {
        assert Keep([last], IsDataRecord) == [last];
        assert data[..|data| - 1] == Keep(init, IsDataRecord);
      } else {
        assert Keep([last], IsDataRecord) == [];
        assert data == Keep(init, IsDataRecord);
      }
    }
  }

  /** A column's width after the width updates for `data`, in order. */
  function WidthAfter(width: int, data: seq<Record>, name: string): int
    decreases |data|
  {
    if |data| == 0 then width
    else Widen(WidthAfter(width, data[..|data| - 1], name), Lookup(data[|data| - 1], name))
  }

  /** The longest value under `name`, in bytes: at least every value, and equal to one when there is data. */
  function LongestValue(data: seq<Record>, name: string): (m: nat)
    ensures forall r | 0 <= r < |data| :: ValueLength(Lookup(data[r], name)) <= m
    ensures |data| > 0 ==> exists r | 0 <= r < |data| :: m == ValueLength(Lookup(data[r], name))
    ensures |data| == 0 ==> m == 0
    decreases |data|
  {
    if |data| == 0 then 0
    else
      var init := data[..|data| - 1];
      var m := LongestValue(init, name);
      var l := ValueLength(Lookup(data[|data| - 1], name));
      assert forall r | 0 <= r < |init| :: init[r] == data[r];
      if l > m then l else m
  }

  /**
   * The width rule: after at least one data record a column's width is
   * `min(300, max(start, 8 * longest value))`.
   */
  lemma {:induction false} WidthClosedForm(width: int, data: seq<Record>, name: string)
    requires |data| > 0
    ensures var wanted := if width > PIXELS_PER_CHAR * LongestValue(data, name) then width
                          else PIXELS_PER_CHAR * LongestValue(data, name);
      WidthAfter(width, data, name) == if wanted < MAX_WIDTH then wanted else MAX_WIDTH
    decreases |data|
  {
    if |data| > 1 {
      WidthClosedForm(width, data[..|data| - 1], name);
    }
  }

  /**
   * `r * c` written as repeated addition: the position of row `r`'s block in
   * a list of blocks of `c`. Keeping it recursive keeps index reasoning linear.
   */
  function Offset(r: nat, c: nat): nat
  {
    if r == 0 then 0 else Offset(r - 1, c) + c
  }

  /** `Offset` is the product. */
  lemma {:induction false} OffsetIsProduct(r: nat, c: nat)
    ensures Offset(r, c) == r * c
  {
    if r > 0 {
      OffsetIsProduct(r - 1, c);
      assert r * c == (r - 1) * c + c;
    }
  }

  /** A position inside the block of an earlier row lies before the block of row `n`. */
  lemma {:induction false} OffsetBlock(r: nat, n: nat, c: nat, j: nat)
    requires r < n && j < c
    ensures Offset(r, c) + j < Offset(n, c)
  {
    if r < n - 1 {
      OffsetBlock(r, n - 1, c, j);
    }
  }

  /** The `(r, j)` cell of the rows added from `p` onwards, at its place in the flat cell list. */
  ghost predicate CellPlaced(p: Progress, q: Progress, data: seq<Record>, uuid: nat -> string, r: int, j: int)
    requires 0 <= r < |data| && 0 <= j < |p.columns|
  {
    var c := |p.columns|;
    var rowDraw := p.drawn + Offset(r, c + 1);
    |p.cells| + Offset(r, c) + j < |q.cells| &&
    q.cells[|p.cells| + Offset(r, c) + j] ==
      NewCell(uuid(rowDraw + 1 + j), p.columns[j].id, uuid(rowDraw), Lookup(data[r], p.columns[j].name))
  }

  /** The row of `data[r]`, at its place in the row list. */
  ghost predicate RowPlaced(p: Progress, q: Progress, uuid: nat -> string, r: int)
    requires 0 <= r
  {
    |p.rows| + r < |q.rows| && q.rows[|p.rows| + r] == uuid(p.drawn + Offset(r, |p.columns| + 1))
  }

  /** What adding the rows of `data` from state `p` yields, in closed form. */
  ghost predicate AddedFrom(p: Progress, q: Progress, data: seq<Record>, uuid: nat -> string)
  {
    var c := |p.columns|;
    && |q.columns| == c
    && (forall j | 0 <= j < c ::
          q.columns[j] == p.columns[j].(width := WidthAfter(p.columns[j].width, data, p.columns[j].name)))
    && q.drawn == p.drawn + Offset(|data|, c + 1)
    && |q.rows| == |p.rows| + |data| && q.rows[..|p.rows|] == p.rows
    && (forall r | 0 <= r < |data| :: RowPlaced(p, q, uuid, r))
    && |q.cells| == |p.cells| + Offset(|data|, c) && q.cells[..|p.cells|] == p.cells
    && (forall r, j | 0 <= r < |data| && 0 <= j < c :: CellPlaced(p, q, data, uuid, r, j))
  }

  /** One more data record leaves the earlier rows in place and adds its own. */
  lemma RowsOneMore(p: Progress, q: Progress, data: seq<Record>, x: Record, uuid: nat -> string)
    requires AddedFrom(p, q, data, uuid)
    ensures var q2 := AddRow(q, x, uuid);
      q2.rows[..|p.rows|] == p.rows && forall r | 0 <= r < |data| + 1 :: RowPlaced(p, q2, uuid, r)
  {
    var q2 := AddRow(q, x, uuid);
    assert q2.rows == q.rows + [uuid(q.drawn)];
    forall r | 0 <= r < |data| + 1
      ensures RowPlaced(p, q2, uuid, r)
    {
      if r < |data| {
        assert RowPlaced(p, q, uuid, r);
      }
    }
  }

  /** An earlier row's cells stay where they were when one more record is added. */
  lemma CellKept(p: Progress, q: Progress, data: seq<Record>, x: Record, uuid: nat -> string, r: int, j: int)
    requires AddedFrom(p, q, data, uuid)
    requires 0 <= r < |data| && 0 <= j < |p.columns|
    ensures CellPlaced(p, AddRow(q, x, uuid), data + [x], uuid, r, j)
  {
    var c := |p.columns|;
    var q2 := AddRow(q, x, uuid);
    OffsetBlock(r, |data|, c, j);
    assert CellPlaced(p, q, data, uuid, r, j);
    assert q2.cells[..|q.cells|] == q.cells;
    assert q2.cells[|p.cells| + Offset(r, c) + j] == q.cells[|p.cells| + Offset(r, c) + j];
    assert (data + [x])[r] == data[r];
  }

  /** The added record's cells follow the earlier ones, one per column. */
  lemma CellAdded(p: Progress, q: Progress, data: seq<Record>, x: Record, uuid: nat -> string, j: int)
    requires AddedFrom(p, q, data, uuid)
    requires 0 <= j < |p.columns|
    ensures CellPlaced(p, AddRow(q, x, uuid), data + [x], uuid, |data|, j)
  {
    var c := |p.columns|;
    var r := |data|;
    var q2 := AddRow(q, x, uuid);
    assert |p.cells| + Offset(r, c) + j == |q.cells| + j;
    assert (data + [x])[r] == x;
    assert q.columns[j].id == p.columns[j].id && q.columns[j].name == p.columns[j].name;
    assert q2.cells[|q.cells| + j] ==
      NewCell(uuid(q.drawn + 1 + j), q.columns[j].id, uuid(q.drawn), Lookup(x, q.columns[j].name));
  }

  /** One more data record leaves the earlier cells in place and adds a cell per column. */
  lemma CellsOneMore(p: Progress, q: Progress, data: seq<Record>, x: Record, uuid: nat -> string)
    requires AddedFrom(p, q, data, uuid)
    ensures var q2 := AddRow(q, x, uuid);
      q2.cells[..|p.cells|] == p.cells &&
      forall r, j | 0 <= r < |data| + 1 && 0 <= j < |p.columns| :: CellPlaced(p, q2, data + [x], uuid, r, j)
  {
    var q2 := AddRow(q, x, uuid);
    assert q2.cells[..|p.cells|] == p.cells by {
      assert q2.cells[..|q.cells|] == q.cells;
    }
    forall r, j | 0 <= r < |data| + 1 && 0 <= j < |p.columns|
      ensures CellPlaced(p, q2, data + [x], uuid, r, j)
    {
      if r < |data| {
        CellKept(p, q, data, x, uuid, r, j);
      } else {
        CellAdded(p, q, data, x, uuid, j);
      }
    }
  }

  /** One more data record extends the closed form by one row. */
  lemma AddedOneMore(p: Progress, q: Progress, data: seq<Record>, x: Record, uuid: nat -> string)
    requires AddedFrom(p, q, data, uuid)
    ensures AddedFrom(p, AddRow(q, x, uuid), data + [x], uuid)
  {
    var c := |p.columns|;
    var n := |data|;
    var data2 := data + [x];
    assert data2[..n] == data && data2[n] == x;
    assert Offset(n + 1, c + 1) == Offset(n, c + 1) + c + 1;
    assert Offset(n + 1, c) == Offset(n, c) + c;
    RowsOneMore(p, q, data, x, uuid);
    CellsOneMore(p, q, data, x, uuid);
  }

  /** Adding data records from any state yields the closed form over them. */
  lemma {:induction false} AddRowsClosedForm(p: Progress, data: seq<Record>, uuid: nat -> string)
    ensures AddedFrom(p, AddDataRows(p, data, uuid), data, uuid)
    decreases |data|
  {
    if |data| == 0 {
      assert p.rows[..|p.rows|] == p.rows && p.cells[..|p.cells|] == p.cells;
    } else {
      var init := data[..|data| - 1];
      AddRowsClosedForm(p, init, uuid);
      AddedOneMore(p, AddDataRows(p, init, uuid), init, data[|data| - 1], uuid);
      assert init + [data[|data| - 1]] == data;
    }
  }

  /** Adding data records keeps column `j`'s id, name and sample. */
  lemma AddRowsColumn(p: Progress, data: seq<Record>, uuid: nat -> string, j: int)
    requires 0 <= j < |p.columns|
    ensures var q := AddDataRows(p, data, uuid);
      j < |q.columns| && q.columns[j].id == p.columns[j].id &&
      q.columns[j].name == p.columns[j].name && q.columns[j].sample == p.columns[j].sample
  {
    AddRowsClosedForm(p, data, uuid);
  }

  /** From fresh columns, adding data records widens column `j` from its starting width over them. */
  lemma AddRowsWidth(cols: seq<NewColumn>, data: seq<Record>, uuid: nat -> string, j: int)
    requires 0 <= j < |cols| && cols[j].width == BaseWidth(cols[j].name)
    ensures var q := AddDataRows(Progress(cols, [], [], |cols|), data, uuid);
      j < |q.columns| && q.columns[j].name == cols[j].name &&
      q.columns[j].width == WidthAfter(BaseWidth(cols[j].name), data, cols[j].name)
  {
    AddRowsClosedForm(Progress(cols, [], [], |cols|), data, uuid);
  }

  /** In the closed form from fresh columns, cell `(r, j)` sits at `r * c + j` with the draw after its row's. */
  lemma FreshCell(p: Progress, q: Progress, data: seq<Record>, uuid: nat -> string, r: int, j: int)
    requires AddedFrom(p, q, data, uuid) && p.cells == [] && p.drawn == |p.columns|
    requires 0 <= r < |data| && 0 <= j < |p.columns|
    ensures var c := |p.columns|;
      var rowDraw := c + Offset(r, c + 1);
      |q.columns| == c && Offset(r, c) + j < |q.cells| &&
      q.cells[Offset(r, c) + j] ==
        NewCell(uuid(rowDraw + 1 + j), q.columns[j].id, uuid(rowDraw), Lookup(data[r], q.columns[j].name))
  {
    assert CellPlaced(p, q, data, uuid, r, j);
  }

  // ---------------------------------------------------------------------------
  // The whole import and its insert batches
  // ---------------------------------------------------------------------------

  /**
   * `array_chunk(xs, n)`: consecutive batches of `n`, the last one possibly
   * shorter, none empty, together exactly `xs`.
   */
  function Chunk<T>(xs: seq<T>, n: nat): (cs: seq<seq<T>>)
    requires n > 0
    ensures forall i | 0 <= i < |cs| :: 0 < |cs[i]| <= n
    ensures forall i | 0 <= i < |cs| - 1 :: |cs[i]| == n
    ensures Concat(cs) == xs
    decreases |xs|
  {
    if |xs| == 0 then []
    else if |xs| <= n then
      assert Concat([xs]) == xs + Concat([xs][1..]);
      [xs]
    else
      var rest := Chunk(xs[n..], n);
      var cs := [xs[..n]] + rest;
      assert cs[1..] == rest;
      assert xs == xs[..n] + xs[n..];
      cs
  }

  /** The number of batches is `ceil(|xs| / n)`: the fewest batches of `n` that hold `xs`. */
  lemma {:induction false} ChunkCount<T>(xs: seq<T>, n: nat)
    requires n > 0
    ensures var k := |Chunk(xs, n)|; (k - 1) * n < |xs| <= k * n
    decreases |xs|
  {
    if |xs| > n {
      var k := |Chunk(xs[n..], n)|;
      ChunkCount(xs[n..], n);
      assert |Chunk(xs, n)| == k + 1;
      assert (k + 1) * n == k * n + n;
    }
  }

  /** The insert batches of a list of rows or cells. */
  function Batches<T>(xs: seq<T>): (cs: seq<seq<T>>)
    ensures forall i | 0 <= i < |cs| :: 0 < |cs[i]| <= CHUNK_SIZE
    ensures Concat(cs) == xs
  {
    Chunk(xs, CHUNK_SIZE)
  }

  /** The visible-column list and the inserted columns, rows and cells. */
  datatype Import = Import(columnIds: seq<Slot>, columns: seq<NewColumn>, rows: seq<string>, cells: seq<NewCell>)

  /** The header: the names of the first record (none when the file has no records). */
  function Header(records: seq<Record>): Record
  {
    if |records| == 0 then [] else records[0]
  }

  /**
   * `createSheetColumnsRowsAndCellsFromCsvRows`: one visible-column slot
   * per header entry, one column per non-break entry, one row per data
   * record, one cell per data record and column. (The rows and cells are
   * then inserted in `Batches`.)
   */
  function BuildSheet(records: seq<Record>, uuid: nat -> string): (im: Import)
    ensures |im.columnIds| == |Header(records)|
    ensures |im.columns| == |Keep(Header(records), IsColumnEntry)|
    ensures |im.rows| == |Keep(records, IsDataRecord)|
    ensures |im.cells| == |im.rows| * |im.columns|
  {
    var header := HeaderPass(Header(records), uuid, 0);
    var start := Progress(header.1, [], [], |header.1|);
    var done := AddDataRows(start, Keep(records, IsDataRecord), uuid);
    AddRowsClosedForm(start, Keep(records, IsDataRecord), uuid);
    OffsetIsProduct(|done.rows|, |done.columns|);
    Import(header.0, done.columns, done.rows, done.cells)
  }

  /** Visible-column slot `i` is a column break exactly when header entry `i` is named with the break marker. */
  lemma BuildSheetBreaks(records: seq<Record>, uuid: nat -> string, i: int)
    requires 0 <= i < |Header(records)|
    ensures BuildSheet(records, uuid).columnIds[i].ColumnBreak? <==> Contains(Header(records)[i].0, COLUMN_BREAK)
  {
    HeaderBreaks(Header(records), uuid, 0, i);
  }

  /** Row `r` of an import took the draw after all columns and the earlier rows with their cells. */
  ghost predicate RowDrawn(im: Import, uuid: nat -> string, r: int)
    requires 0 <= r < |im.rows|
  {
    im.rows[r] == uuid(|im.columns| + Offset(r, |im.columns| + 1))
  }

  /** Cell `(r, j)` of an import: row `r`'s value under column `j`, with the draw after its row's id. */
  ghost predicate CellOf(im: Import, data: seq<Record>, uuid: nat -> string, r: int, j: int)
    requires 0 <= r < |data| && 0 <= j < |im.columns|
  {
    var c := |im.columns|;
    Offset(r, c) + j < |im.cells| &&
    im.cells[Offset(r, c) + j] ==
      NewCell(uuid(c + Offset(r, c + 1) + 1 + j), im.columns[j].id, uuid(c + Offset(r, c + 1)), Lookup(data[r], im.columns[j].name))
  }

  /** The non-break slots of the visible-column list are exactly the column ids, in order. */
  lemma BuildSheetSlots(records: seq<Record>, uuid: nat -> string)
    ensures var im := BuildSheet(records, uuid); SlotIds(im.columnIds) == Map(ColumnIdOf, im.columns)
  {
    var header := HeaderPass(Header(records), uuid, 0);
    var start := Progress(header.1, [], [], |header.1|);
    var done := AddDataRows(start, Keep(records, IsDataRecord), uuid);
    AddRowsClosedForm(start, Keep(records, IsDataRecord), uuid);
    HeaderSlotIds(Header(records), uuid, 0);
    assert Map(ColumnIdOf, done.columns) == Map(ColumnIdOf, header.1);
  }

  /** Column `j` is the `j`-th non-break header entry, with the `j`-th draw and its first value as type sample. */
  lemma BuildSheetColumn(records: seq<Record>, uuid: nat -> string, j: int)
    requires 0 <= j < |Keep(Header(records), IsColumnEntry)|
    ensures var e := Keep(Header(records), IsColumnEntry)[j]; var c := BuildSheet(records, uuid).columns[j];
      c.id == uuid(j) && c.name == e.0 && c.sample == e.1
  {
    var header := HeaderPass(Header(records), uuid, 0);
    var start := Progress(header.1, [], [], |header.1|);
    var q := AddDataRows(start, Keep(records, IsDataRecord), uuid);
    var e := Keep(Header(records), IsColumnEntry)[j];
    HeaderColumns(Header(records), uuid, 0, j);
    assert start.columns[j] == NewColumn(uuid(j), e.0, e.1, BaseWidth(e.0));
    AddRowsColumn(start, Keep(records, IsDataRecord), uuid, j);
    assert BuildSheet(records, uuid) == Import(header.0, q.columns, q.rows, q.cells);
  }

  /** Column `j`'s width is its starting width after the updates for every data record. */
  lemma BuildSheetWidth(records: seq<Record>, uuid: nat -> string, j: int)
    requires 0 <= j < |BuildSheet(records, uuid).columns|
    ensures var c := BuildSheet(records, uuid).columns[j];
      c.width == WidthAfter(BaseWidth(c.name), Keep(records, IsDataRecord), c.name)
  {
    var header := HeaderPass(Header(records), uuid, 0);
    HeaderColumns(Header(records), uuid, 0, j);
    AddRowsWidth(header.1, Keep(records, IsDataRecord), uuid, j);
  }

  /** A fresh-start row: row `r` takes the draw after the columns and the earlier rows with their cells. */
  lemma FreshRow(p: Progress, q: Progress, data: seq<Record>, uuid: nat -> string, r: int)
    requires AddedFrom(p, q, data, uuid) && p.rows == [] && p.drawn == |p.columns|
    requires 0 <= r < |data|
    ensures |q.columns| == |p.columns| && r < |q.rows|
    ensures q.rows[r] == uuid(|q.columns| + Offset(r, |q.columns| + 1))
  {
    assert RowPlaced(p, q, uuid, r);
  }

  /** Row `r` of an import takes the draw after the columns and the earlier rows with their cells. */
  lemma BuildSheetRow(records: seq<Record>, uuid: nat -> string, r: int)
    requires 0 <= r < |BuildSheet(records, uuid).rows|
    ensures RowDrawn(BuildSheet(records, uuid), uuid, r)
  {
    var header := HeaderPass(Header(records), uuid, 0);
    var start := Progress(header.1, [], [], |header.1|);
    var data := Keep(records, IsDataRecord);
    var q := AddDataRows(start, data, uuid);
    assert BuildSheet(records, uuid) == Import(header.0, q.columns, q.rows, q.cells);
    AddRowsClosedForm(start, data, uuid);
    FreshRow(start, q, data, uuid, r);
  }

  /** Every row of an import takes the draw after the columns and the earlier rows with their cells. */
  lemma BuildSheetRows(records: seq<Record>, uuid: nat -> string)
    ensures var im := BuildSheet(records, uuid); forall r | 0 <= r < |im.rows| :: RowDrawn(im, uuid, r)
  {
    var im := BuildSheet(records, uuid);
    forall r | 0 <= r < |im.rows| ensures RowDrawn(im, uuid, r) {
      BuildSheetRow(records, uuid, r);
    }
  }

  /** Cell `(r, j)` of an import whose columns, rows and cells are the closed form from fresh columns. */
  lemma FreshImportCell(slots: seq<Slot>, p: Progress, q: Progress, data: seq<Record>, uuid: nat -> string, r: int, j: int)
    requires AddedFrom(p, q, data, uuid) && p.cells == [] && p.drawn == |p.columns|
    requires 0 <= r < |data| && 0 <= j < |p.columns|
    ensures j < |q.columns| && CellOf(Import(slots, q.columns, q.rows, q.cells), data, uuid, r, j)
  {
    FreshCell(p, q, data, uuid, r, j);
  }

  /** Cell `(r, j)` holds data record `r`'s value under column `j`'s name. */
  lemma BuildSheetCell(records: seq<Record>, uuid: nat -> string, r: int, j: int)
    requires 0 <= r < |Keep(records, IsDataRecord)| && 0 <= j < |BuildSheet(records, uuid).columns|
    ensures CellOf(BuildSheet(records, uuid), Keep(records, IsDataRecord), uuid, r, j)
  {
    var header := HeaderPass(Header(records), uuid, 0);
    var start := Progress(header.1, [], [], |header.1|);
    var data := Keep(records, IsDataRecord);
    var q := AddDataRows(start, data, uuid);
    assert BuildSheet(records, uuid) == Import(header.0, q.columns, q.rows, q.cells);
    AddRowsClosedForm(start, data, uuid);
    FreshImportCell(header.0, start, q, data, uuid, r, j);
  }

  /**
   * Widths: a column without data keeps its starting width; with data it
   * lies between 50 and 300 and equals `min(300, max(start, 8 * longest value))`.
   */
  lemma ColumnWidth(records: seq<Record>, uuid: nat -> string, j: int)
    requires 0 <= j < |BuildSheet(records, uuid).columns|
    ensures var im := BuildSheet(records, uuid);
      var name := im.columns[j].name;
      var data := Keep(records, IsDataRecord);
      var start := BaseWidth(name);
      var longest := PIXELS_PER_CHAR * LongestValue(data, name);
      && (|data| == 0 ==> im.columns[j].width == start)
      && (|data| > 0 ==> MIN_WIDTH <= im.columns[j].width <= MAX_WIDTH)
      && (|data| > 0 ==> im.columns[j].width == if start > longest then (if start < MAX_WIDTH then start else MAX_WIDTH)
                                                else (if longest < MAX_WIDTH then longest else MAX_WIDTH))
  {
    BuildSheetWidth(records, uuid, j);
    var data := Keep(records, IsDataRecord);
    if |data| > 0 {
      WidthClosedForm(BaseWidth(BuildSheet(records, uuid).columns[j].name), data, BuildSheet(records, uuid).columns[j].name);
    }
  }

  /**
   * A name longer than 37 bytes starts wider than 300, so once a data row
   * exists the cap pulls the column below its own starting width.
   */
  lemma LongNameNarrowed(records: seq<Record>, uuid: nat -> string, j: int)
    requires 0 <= j < |BuildSheet(records, uuid).columns|
    requires Utf8Length(BuildSheet(records, uuid).columns[j].name) > 37
    requires |Keep(records, IsDataRecord)| > 0
    ensures BuildSheet(records, uuid).columns[j].width == MAX_WIDTH
    ensures BuildSheet(records, uuid).columns[j].width < BaseWidth(BuildSheet(records, uuid).columns[j].name)
  {
    ColumnWidth(records, uuid, j);
  }

  // ---------------------------------------------------------------------------
  // Settings records
  // ---------------------------------------------------------------------------

  /** The settings of every cell of a settings record, in order. */
  function RecordSettings(r: Record): (ss: seq<Settings>)
    ensures |ss| == |r|
    ensures forall i | 0 <= i < |r| :: WellFormed(ss[i])
  {
    if |r| == 0 then [] else [ParseSettings(r[0].1)] + RecordSettings(r[1..])
  }

  /** Cell `i`'s settings are those parsed from its text. */
  lemma {:induction false} RecordSettingsAt(r: Record, i: int)
    requires 0 <= i < |r|
    ensures RecordSettings(r)[i] == ParseSettings(r[i].1)
  {
    if i > 0 {
      RecordSettingsAt(r[1..], i - 1);
    }
  }

  /**
   * `getColumnSettings`: settings exist only when the first record's first
   * cell carries `[TS]`, and then they are that record's cell settings.
   * (An empty file makes the source fail, so the caller must supply a record.)
   */
  function ColumnSettings(records: seq<Record>): (r: Option<seq<Settings>>)
    requires |records| > 0
    ensures r.Some? <==> Contains(FirstCell(records[0]), SETTINGS_FLAG)
    ensures r.Some? ==> r.value == RecordSettings(records[0])
  {
    if IsSettingsRecord(records[0]) then Some(RecordSettings(records[0])) else None
  }

  /** Where the view records start: after the column-settings record when there is one. */
  function ViewStart(records: seq<Record>): nat
    requires |records| > 0
  {
    if ColumnSettings(records).Some? then 1 else 0
  }

  /** Some record at or after `i` is not a view record, so the scan stops inside the file. */
  ghost predicate RunEnds(records: seq<Record>, i: int)
  {
    Stops(records, IsViewRecord, i)
  }

  /** Some element at or after `i` fails `p`. */
  ghost predicate Stops<T>(xs: seq<T>, p: T -> bool, i: int)
  {
    exists k | 0 <= i <= k < |xs| :: !p(xs[k])
  }

  /**
   * The longest run of elements satisfying `p` from `i` on, when an element
   * at or after `i` fails `p`: the run stops right before the first one.
   */
  function RunFrom<T>(xs: seq<T>, p: T -> bool, i: nat): (run: seq<T>)
    requires Stops(xs, p, i)
    ensures i + |run| < |xs| && !p(xs[i + |run|])
    ensures run == xs[i..i + |run|]
    ensures forall k | i <= k < i + |run| :: p(xs[k])
    decreases |xs| - i
  {
    if p(xs[i]) then
      assert Stops(xs, p, i + 1) by {
        var k :| 0 <= i <= k < |xs| && !p(xs[k]);
        assert k != i;
      }
      var rest := RunFrom(xs, p, i + 1);
      var run := [xs[i]] + rest;
      assert xs[i..i + |run|] == [xs[i]] + xs[i + 1..i + |run|];
      run
    else
      []
  }

  /**
   * The scan from `i`: the longest run of view records starting there. The
   * run stops at a record that is not a view record.
   */
  function ViewRun(records: seq<Record>, i: nat): (run: seq<Record>)
    requires RunEnds(records, i)
    ensures i + |run| < |records| && !IsViewRecord(records[i + |run|])
    ensures run == records[i..i + |run|]
    ensures forall k | i <= k < i + |run| :: IsViewRecord(records[k])
  {
    RunFrom(records, IsViewRecord, i)
  }

  /** The cell settings of each record, in order. */
  function SettingsRows(rs: seq<Record>): (ss: seq<seq<Settings>>)
    ensures |ss| == |rs|
    ensures forall k | 0 <= k < |rs| :: ss[k] == RecordSettings(rs[k])
  {
    if |rs| == 0 then [] else [RecordSettings(rs[0])] + SettingsRows(rs[1..])
  }

  /**
   * `getSheetViewsSettings`: the cell settings of the consecutive view
   * records after the column-settings record (or from the start without
   * one), or `null` when there are none. The scan has no end-of-file check,
   * so a non-view record must follow the run.
   */
  function SheetViewsSettings(records: seq<Record>): (r: Option<seq<seq<Settings>>>)
    requires |records| > 0 && RunEnds(records, ViewStart(records))
    ensures r.None? <==> !IsViewRecord(records[ViewStart(records)])
    ensures r.Some? ==> ViewStart(records) + |r.value| < |records|
  {
    var run := ViewRun(records, ViewStart(records));
    if |run| > 0 then Some(SettingsRows(run)) else None
  }

  /**
   * The views' settings are those of the longest run of view records from
   * the start position, one entry per record, and the record after the run
   * is not a view record.
   */
  lemma SheetViewsRun(records: seq<Record>)
    requires |records| > 0 && RunEnds(records, ViewStart(records))
    ensures var r := SheetViewsSettings(records); var start := ViewStart(records);
      r.Some? ==>
        && !IsViewRecord(records[start + |r.value|])
        && (forall k | start <= k < start + |r.value| :: IsViewRecord(records[k]))
        && r.value == SettingsRows(records[start..start + |r.value|])
  {
    var start := ViewStart(records);
    var run := ViewRun(records, start);
    if |run| > 0 {
      var views := SheetViewsSettings(records).value;
      assert views == SettingsRows(run);
      assert |views| == |run|;
    }
  }

  /** No settings record, whether for columns or for views, becomes a sheet row. */
  lemma SettingsRecordsAreNotRows(records: seq<Record>)
    requires |records| > 0 && RunEnds(records, ViewStart(records))
    ensures ColumnSettings(records).Some? ==> records[0] !in Keep(records, IsDataRecord)
    ensures var views := SheetViewsSettings(records); var start := ViewStart(records);
      views.Some? ==> forall k | start <= k < start + |views.value| :: records[k] !in Keep(records, IsDataRecord)
  {
    var views := SheetViewsSettings(records);
    var start := ViewStart(records);
    SheetViewsRun(records);
    KeepMembers(records, IsDataRecord);
    if views.Some? {
      forall k | start <= k < start + |views.value|
        ensures records[k] !in Keep(records, IsDataRecord)
      {
        assert IsViewRecord(records[start + (k - start)]);
      }
    }
  }

  /** The key naming a view, stored in the first cell of its record. */
  const SHEET_VIEW_NAME: string := "SHEET_VIEW_NAME"

  /** `getSheetViewName`: the name setting of the record's first cell; `null` when absent. */
  function ViewName(settings: seq<Settings>): (r: Option<string>)
    ensures r.Some? <==> |settings| > 0 && SHEET_VIEW_NAME in settings[0]
    ensures r.Some? ==> r.value == settings[0][SHEET_VIEW_NAME]
  {
    if |settings| > 0 && SHEET_VIEW_NAME in settings[0] then Some(settings[0][SHEET_VIEW_NAME]) else None
  }

  /** A view record whose first cell reads `[TS][SHEET_VIEW_NAME=n]` is named `n`. */
  lemma ViewNameOfCell(header: string, first: string, rest: Record, name: string)
    requires IsValue(name)
    requires first == SETTINGS_FLAG + Encode([(SHEET_VIEW_NAME, name)])
    ensures ViewName(RecordSettings([(header, first)] + rest)) == Some(name)
  {
    var pairs := [(SHEET_VIEW_NAME, name)];
    assert IsKey(SHEET_VIEW_NAME);
    ParseEncoded(pairs);
    assert pairs[1..] == [];
    RecordSettingsAt([(header, first)] + rest, 0);
  }

  // ---------------------------------------------------------------------------
  // Views and column settings
  // ---------------------------------------------------------------------------

  /** A view as created: never locked, showing the imported visible-column list. */
  datatype View = View(id: string, sheetId: string, name: Option<string>, isLocked: bool, visibleColumns: seq<Slot>)

  /** `createSheetViews`: one view per settings row, in order, each with the next UUID draw. */
  function CreateSheetViews(sheetId: string, visibleColumns: seq<Slot>, all: seq<seq<Settings>>, uuid: nat -> string): (vs: seq<View>)
    ensures |vs| == |all|
    ensures forall k | 0 <= k < |vs| :: vs[k].sheetId == sheetId && vs[k].visibleColumns == visibleColumns && !vs[k].isLocked
    decreases |all|
  {
    if |all| == 0 then []
    else
      var n := |all| - 1;
      CreateSheetViews(sheetId, visibleColumns, all[..n], uuid) + [View(uuid(n), sheetId, ViewName(all[n]), false, visibleColumns)]
  }

  /** View `k` carries draw `k` and the name from settings row `k`. */
  lemma {:induction false} CreatedView(sheetId: string, visibleColumns: seq<Slot>, all: seq<seq<Settings>>, uuid: nat -> string, k: int)
    requires 0 <= k < |all|
    ensures CreateSheetViews(sheetId, visibleColumns, all, uuid)[k] == View(uuid(k), sheetId, ViewName(all[k]), false, visibleColumns)
    decreases |all|
  {
    var n := |all| - 1;
    if k < n {
      CreatedView(sheetId, visibleColumns, all[..n], uuid, k);
      assert all[..n][k] == all[k];
    }
  }

  /** With a UUID supply that never repeats, the created views have distinct ids. */
  lemma CreatedViewIdsDistinct(sheetId: string, visibleColumns: seq<Slot>, all: seq<seq<Settings>>, uuid: nat -> string)
    requires forall a: nat, b: nat | a != b :: uuid(a) != uuid(b)
    ensures var vs := CreateSheetViews(sheetId, visibleColumns, all, uuid);
      forall k, l | 0 <= k < l < |vs| :: vs[k].id != vs[l].id
  {
    var vs := CreateSheetViews(sheetId, visibleColumns, all, uuid);
    forall k, l | 0 <= k < l < |vs|
      ensures vs[k].id != vs[l].id
    {
      CreatedView(sheetId, visibleColumns, all, uuid, k);
      CreatedView(sheetId, visibleColumns, all, uuid, l);
    }
  }

  /** A column's type: the guess from a sample value, or a type set by a `CELL_TYPE` setting. */
  datatype ColumnType = Guessed(sample: string) | Named(typeId: string)

  /** A column's width: pixels computed at import, or the text of a `WIDTH` setting. */
  datatype Width = Pixels(n: int) | Configured(text: string)

  /** A stored column, as `SheetColumn::find` returns it. */
  datatype StoredColumn = StoredColumn(name: string, columnType: ColumnType, width: Width)

  const CELL_TYPE: string := "CELL_TYPE"
  const WIDTH: string := "WIDTH"

  /** One column's settings: `CELL_TYPE` sets the type, `WIDTH` the width, nothing else changes. */
  function Configure(c: StoredColumn, settings: Settings): (d: StoredColumn)
    ensures d.name == c.name
    ensures d.columnType == if CELL_TYPE in settings then Named(settings[CELL_TYPE]) else c.columnType
    ensures d.width == if WIDTH in settings then Configured(settings[WIDTH]) else c.width
  {
    var typed := if CELL_TYPE in settings then c.(columnType := Named(settings[CELL_TYPE])) else c;
    if WIDTH in settings then typed.(width := Configured(settings[WIDTH])) else typed
  }

  /** The source's demands: every non-break slot has settings and names a stored column. */
  predicate SettingsApplicable(columnIds: seq<Slot>, all: seq<Settings>, table: map<string, StoredColumn>)
  {
    forall i | 0 <= i < |columnIds| :: columnIds[i].ColumnId? ==> i < |all| && columnIds[i].id in table
  }

  /**
   * `applyColumnSettings` over the first `n` slots: each non-break slot's
   * column is configured with the settings at the same index; breaks are
   * skipped; the stored columns keep their names and no other column changes.
   */
  function ApplyColumnSettings(columnIds: seq<Slot>, all: seq<Settings>, table: map<string, StoredColumn>): (t: map<string, StoredColumn>)
    requires SettingsApplicable(columnIds, all, table)
    ensures t.Keys == table.Keys
    ensures forall id | id in table :: t[id].name == table[id].name
    ensures forall id | id in table && ColumnId(id) !in columnIds :: t[id] == table[id]
    decreases |columnIds|
  {
    if |columnIds| == 0 then table
    else
      var n := |columnIds| - 1;
      assert SettingsApplicable(columnIds[..n], all, table);
      var before := ApplyColumnSettings(columnIds[..n], all, table);
      match columnIds[n]
      case ColumnBreak => before
      case ColumnId(id) => before[id := Configure(before[id], all[n])]
  }

  /** With each column listed once, every listed column ends up configured by its own settings. */
  lemma {:induction false} AppliedOnce(columnIds: seq<Slot>, all: seq<Settings>, table: map<string, StoredColumn>, i: int)
    requires SettingsApplicable(columnIds, all, table)
    requires forall a, b | 0 <= a < b < |columnIds| :: columnIds[a].ColumnId? ==> columnIds[a] != columnIds[b]
    requires 0 <= i < |columnIds| && columnIds[i].ColumnId?
    ensures var id := columnIds[i].id;
      ApplyColumnSettings(columnIds, all, table)[id] == Configure(table[id], all[i])
    decreases |columnIds|
  {
    var n := |columnIds| - 1;
    var prefix := columnIds[..n];
    var id := columnIds[i].id;
    assert SettingsApplicable(prefix, all, table);
    var before := ApplyColumnSettings(prefix, all, table);
    var after := ApplyColumnSettings(columnIds, all, table);
    if i < n {
      AppliedOnce(prefix, all, table, i);
      assert prefix[i] == columnIds[i];
      assert columnIds[n] != columnIds[i];
      assert after[id] == before[id];
    } else {
      assert ColumnId(id) !in prefix;
      assert after == before[id := Configure(before[id], all[n])];
    }
  }
}

=== FILE: sorting.dfy ===
/**
 * A stable insertion sort over a three-way comparator, with the sequence
 * facts the sort contracts need: mapping keeps multisets, distinctness
 * survives permutation, and a sort by a total preorder is sorted.
 */
module Sorting {

  /** Apply `f` to every element, keeping positions. */
  function Map<A, B>(f: A -> B, xs: seq<A>): (ys: seq<B>)
    ensures |ys| == |xs|
    ensures forall i :: 0 <= i < |xs| ==> ys[i] == f(xs[i])
  {
    if |xs| == 0 then [] else [f(xs[0])] + Map(f, xs[1..])
  }

  /** No element occurs twice. */
  ghost predicate Distinct<T>(xs: seq<T>)
  {
    forall i, j | 0 <= i < j < |xs| :: xs[i] != xs[j]
  }

  /** Dropping the head of a sequence without repeats leaves one without repeats, and without the head. */
  lemma DistinctTail<T>(xs: seq<T>)
    requires |xs| > 0 && Distinct(xs)
    ensures Distinct(xs[1..]) && xs[0] !in xs[1..]
  {
    assert forall i | 0 <= i < |xs[1..]| :: xs[1..][i] == xs[i + 1];
  }

  /** Mapping distributes over concatenation. */
  lemma MapAppend<A, B>(f: A -> B, a: seq<A>, b: seq<A>)
    ensures Map(f, a + b) == Map(f, a) + Map(f, b)
  {
    assert forall i | 0 <= i < |a + b| :: Map(f, a + b)[i] == (Map(f, a) + Map(f, b))[i];
  }

  /** Mapping a sequence with one element cut out loses just that element's image. */
  lemma MapSplice<A, B>(f: A -> B, left: seq<A>, x: A, right: seq<A>)
    ensures multiset(Map(f, left + [x] + right)) == multiset(Map(f, left + right)) + multiset{f(x)}
  {
    MapAppend(f, left + [x], right);
    MapAppend(f, left, [x]);
    MapAppend(f, left, right);
  }

  /** Cutting element `k` out of a sequence removes one occurrence of it from the multiset. */
  lemma CutAt<A>(ys: seq<A>, k: int)
    requires 0 <= k < |ys|
    ensures multiset(ys[..k] + ys[k + 1..]) == multiset(ys) - multiset{ys[k]}
  {
    assert ys == ys[..k] + [ys[k]] + ys[k + 1..];
  }

  /** An element of a sequence's multiset sits at some position of the sequence. */
  lemma {:induction false} PositionOf<A>(ys: seq<A>, x: A) returns (k: int)
    requires x in multiset(ys)
    ensures 0 <= k < |ys| && ys[k] == x
    decreases |ys|
  {
    assert ys == [ys[0]] + ys[1..];
    if ys[0] == x {
      k := 0;
    } else {
      var t := PositionOf(ys[1..], x);
      k := t + 1;
    }
  }

  /** Mapping two permutations of each other gives permutations of each other. */
  lemma {:induction false} MapPermutation<A, B>(f: A -> B, xs: seq<A>, ys: seq<A>)
    requires multiset(xs) == multiset(ys)
    ensures multiset(Map(f, xs)) == multiset(Map(f, ys))
    decreases |xs|
  {
    if |xs| > 0 {
      var x := xs[0];
      var k := PositionOf(ys, x);
      var left, right := ys[..k], ys[k + 1..];
      CutAt(ys, k);
      assert ys == left + [x] + right;
      assert multiset(xs[1..]) == multiset(xs) - multiset{x} by {
        assert xs == [x] + xs[1..];
      }
      MapPermutation(f, xs[1..], left + right);
      MapSplice(f, left, x, right);
      assert Map(f, xs) == [f(x)] + Map(f, xs[1..]);
    }
  }

  /** In a sequence without repeats every element occurs at most once. */
  lemma {:induction false} DistinctMultiplicity<T>(xs: seq<T>, x: T)
    requires Distinct(xs)
    ensures multiset(xs)[x] <= 1
    decreases |xs|
  {
    if |xs| > 0 {
      assert xs == [xs[0]] + xs[1..];
      assert Distinct(xs[1..]) by {
        forall i, j | 0 <= i < j < |xs[1..]| ensures xs[1..][i] != xs[1..][j] {
          assert xs[1..][i] == xs[i + 1] && xs[1..][j] == xs[j + 1];
        }
      }
      DistinctMultiplicity(xs[1..], x);
      if xs[0] == x {
        assert x !in xs[1..] by {
          forall j | 0 <= j < |xs[1..]| ensures xs[1..][j] != x {
            assert xs[1..][j] == xs[j + 1];
          }
        }
      }
    }
  }

  /** An element found at two positions occurs at least twice. */
  lemma TwoPositions<T>(ys: seq<T>, i: int, j: int)
    requires 0 <= i < j < |ys|
    ensures ys[i] == ys[j] ==> multiset(ys)[ys[i]] >= 2
  {
    if ys[i] == ys[j] {
      assert ys == ys[..j] + [ys[j]] + ys[j + 1..];
      assert ys[i] in ys[..j];
    }
  }

  /** A permutation of a sequence without repeats has no repeats. */
  lemma DistinctPermutation<T>(xs: seq<T>, ys: seq<T>)
    requires multiset(xs) == multiset(ys)
    requires Distinct(xs)
    ensures Distinct(ys)
  {
    forall i, j | 0 <= i < j < |ys| ensures ys[i] != ys[j] {
      DistinctMultiplicity(xs, ys[i]);
      TwoPositions(ys, i, j);
    }
  }

  /**
   * `cmp` is a total preorder on the elements of `all`: swapping the
   * operands negates the result and `cmp(_, _) <= 0` is transitive.
   */
  ghost predicate TotalPreorderOn<T>(all: seq<T>, cmp: (T, T) -> int)
  {
    && (forall a, b | a in all && b in all :: cmp(a, b) == -cmp(b, a))
    && (forall a, b, c | a in all && b in all && c in all && cmp(a, b) <= 0 && cmp(b, c) <= 0 :: cmp(a, c) <= 0)
  }

  /** Every element is at most every later one. */
  ghost predicate SortedBy<T>(xs: seq<T>, cmp: (T, T) -> int)
  {
    forall i, j | 0 <= i < j < |xs| :: cmp(xs[i], xs[j]) <= 0
  }

  /** Put `x` just before the first element that compares greater than it. */
  function Insert<T>(x: T, s: seq<T>, cmp: (T, T) -> int): (r: seq<T>)
    ensures |r| == |s| + 1
    ensures multiset(r) == multiset(s) + multiset{x}
  {
    if |s| == 0 then [x]
    else if cmp(s[0], x) > 0 then [x] + s
    else
      var rest := Insert(x, s[1..], cmp);
      assert s == [s[0]] + s[1..];
      [s[0]] + rest
  }

  /**
   * Insertion sort, inserting the elements in their original order; an
   * element lands after every element it does not precede, so elements
   * that compare equal keep their relative order.
   */
  function InsertionSort<T>(xs: seq<T>, cmp: (T, T) -> int): (r: seq<T>)
    ensures |r| == |xs|
    ensures multiset(r) == multiset(xs)
  {
    if |xs| == 0 then []
    else
      var r := Insert(xs[|xs| - 1], InsertionSort(xs[..|xs| - 1], cmp), cmp);
      assert xs == xs[..|xs| - 1] + [xs[|xs| - 1]];
      r
  }

  /** The tail of a sorted sequence is sorted. */
  lemma SortedTail<T>(s: seq<T>, cmp: (T, T) -> int)
    requires |s| > 0 && SortedBy(s, cmp)
    ensures SortedBy(s[1..], cmp)
  {
    var tail := s[1..];
    forall i, j | 0 <= i < j < |tail| ensures cmp(tail[i], tail[j]) <= 0 {
      assert tail[i] == s[i + 1] && tail[j] == s[j + 1];
    }
  }

  /** `x` goes in front of a sorted `s` whose head is greater than `x`. */
  lemma InsertSortedFront<T>(x: T, s: seq<T>, all: seq<T>, cmp: (T, T) -> int)
    requires TotalPreorderOn(all, cmp)
    requires x in all && forall e | e in s :: e in all
    requires SortedBy(s, cmp)
    requires |s| > 0 && cmp(s[0], x) > 0
    ensures SortedBy([x] + s, cmp)
  {
    var r := [x] + s;
    assert s[0] in all;
    assert cmp(x, s[0]) < 0;
    forall j | 1 <= j < |r| ensures cmp(x, r[j]) <= 0 {
      assert r[j] == s[j - 1];
      if j > 1 {
        assert s[j - 1] in all;
        assert cmp(s[0], s[j - 1]) <= 0;
      }
    }
    forall i, j | 0 <= i < j < |r| ensures cmp(r[i], r[j]) <= 0 {
      if i > 0 {
        assert r[i] == s[i - 1] && r[j] == s[j - 1];
      }
    }
  }

  /** A head at most every element of a sorted tail gives a sorted sequence. */
  lemma ConsSorted<T>(h: T, rest: seq<T>, cmp: (T, T) -> int)
    requires SortedBy(rest, cmp)
    requires forall j | 0 <= j < |rest| :: cmp(h, rest[j]) <= 0
    ensures SortedBy([h] + rest, cmp)
  {
    var r := [h] + rest;
    forall i, j | 0 <= i < j < |r| ensures cmp(r[i], r[j]) <= 0 {
      assert r[j] == rest[j - 1];
      if i > 0 {
        assert r[i] == rest[i - 1];
      }
    }
  }

  /** Every element of `Insert(x, s)` is `x` or an element of `s`. */
  lemma InsertElements<T>(x: T, s: seq<T>, cmp: (T, T) -> int, j: int)
    requires 0 <= j <= |s|
    ensures Insert(x, s, cmp)[j] == x || Insert(x, s, cmp)[j] in s
  {
    var r := Insert(x, s, cmp);
    assert r[j] in multiset(r);
  }

  /** Inserting into a sorted sequence keeps it sorted. */
  lemma {:induction false} InsertSorted<T>(x: T, s: seq<T>, all: seq<T>, cmp: (T, T) -> int)
    requires TotalPreorderOn(all, cmp)
    requires x in all && forall e | e in s :: e in all
    requires SortedBy(s, cmp)
    ensures SortedBy(Insert(x, s, cmp), cmp)
    decreases |s|
  {
    if |s| == 0 {
    } else if cmp(s[0], x) > 0 {
      InsertSortedFront(x, s, all, cmp);
    } else {
      var tail := s[1..];
      SortedTail(s, cmp);
      assert forall e | e in tail :: e in s;
      InsertSorted(x, tail, all, cmp);
      var rest := Insert(x, tail, cmp);
      forall j | 0 <= j < |rest| ensures cmp(s[0], rest[j]) <= 0 {
        InsertElements(x, tail, cmp, j);
        if rest[j] != x {
          var k :| 0 <= k < |tail| && tail[k] == rest[j];
          assert s[k + 1] == rest[j];
        }
      }
      ConsSorted(s[0], rest, cmp);
    }
  }

  /** Sorting by a total preorder yields a sorted sequence. */
  lemma {:induction false} InsertionSortSorted<T>(xs: seq<T>, cmp: (T, T) -> int)
    requires TotalPreorderOn(xs, cmp)
    ensures SortedBy(InsertionSort(xs, cmp), cmp)
    decreases |xs|
  {
    if |xs| > 0 {
      var init := xs[..|xs| - 1];
      assert forall e | e in init :: e in xs;
      assert TotalPreorderOn(init, cmp);
      InsertionSortSorted(init, cmp);
      var sorted := InsertionSort(init, cmp);
      forall e | e in sorted ensures e in xs {
        assert e in multiset(sorted);
        assert e in multiset(init);
      }
      InsertSorted(xs[|xs| - 1], sorted, xs, cmp);
    }
  }

  /** `filter`: the elements satisfying `p`, in their original order. */
  function Keep<T(!new)>(xs: seq<T>, p: T -> bool): (ys: seq<T>)
    ensures |ys| <= |xs|
  {
    if |xs| == 0 then []
    else (if p(xs[0]) then [xs[0]] else []) + Keep(xs[1..], p)
  }

  /** The kept elements are exactly the elements that pass. */
  lemma {:induction false} KeepMembers<T(!new)>(xs: seq<T>, p: T -> bool)
    ensures forall x :: x in Keep(xs, p) <==> x in xs && p(x)
    decreases |xs|
  {
    if |xs| > 0 {
      KeepMembers(xs[1..], p);
      assert xs == [xs[0]] + xs[1..];
    }
  }

  /** Filtering keeps every occurrence of a passing element and none of a failing one. */
  lemma {:induction false} KeepCount<T(!new)>(xs: seq<T>, p: T -> bool, x: T)
    ensures multiset(Keep(xs, p))[x] == if p(x) then multiset(xs)[x] else 0
    decreases |xs|
  {
    if |xs| > 0 {
      assert xs == [xs[0]] + xs[1..];
      KeepCount(xs[1..], p, x);
    }
  }

  /** Filtering distributes over concatenation: the kept elements keep their order. */
  lemma {:induction false} KeepAppend<T(!new)>(a: seq<T>, b: seq<T>, p: T -> bool)
    ensures Keep(a + b, p) == Keep(a, p) + Keep(b, p)
    decreases |a|
  {
    if |a| > 0 {
      var ab := a + b;
      assert ab[0] == a[0] && ab[1..] == a[1..] + b;
      var head := if p(a[0]) then [a[0]] else [];
      assert Keep(ab, p) == head + Keep(ab[1..], p);
      assert Keep(a, p) == head + Keep(a[1..], p);
      KeepAppend(a[1..], b, p);
    }
    else {
      assert a + b == b;
    }
  }

  /** Filtering keeps everything when every element passes. */
  lemma {:induction false} KeepAll<T(!new)>(xs: seq<T>, p: T -> bool)
    requires forall x | x in xs :: p(x)
    ensures Keep(xs, p) == xs
    decreases |xs|
  {
    if |xs| > 0 {
      assert p(xs[0]);
      assert Keep(xs, p) == [xs[0]] + Keep(xs[1..], p);
      assert forall x | x in xs[1..] :: x in xs;
      KeepAll(xs[1..], p);
    }
  }

  /** Filtering by the same test twice is filtering once. */
  lemma KeepTwice<T(!new)>(xs: seq<T>, p: T -> bool)
    ensures Keep(Keep(xs, p), p) == Keep(xs, p)
  {
    KeepMembers(xs, p);
    KeepAll(Keep(xs, p), p);
  }

  /** Filters that agree on the list keep the same elements. */
  lemma {:induction false} KeepSame<T(!new)>(xs: seq<T>, p: T -> bool, q: T -> bool)
    requires forall x | x in xs :: p(x) == q(x)
    ensures Keep(xs, p) == Keep(xs, q)
    decreases |xs|
  {
    if |xs| > 0 {
      assert forall x | x in xs[1..] :: x in xs;
      KeepSame(xs[1..], p, q);
    }
  }

  /** The test passed by what passes both tests. */
  function Both<T>(p: T -> bool, q: T -> bool): T -> bool
  {
    (x: T) => p(x) && q(x)
  }

  /** Two filters in a row are one filter by both tests. */
  lemma {:induction false} KeepBoth<T(!new)>(xs: seq<T>, p: T -> bool, q: T -> bool)
    ensures Keep(Keep(xs, p), q) == Keep(xs, Both(p, q))
    decreases |xs|
  {
    if |xs| > 0 {
      KeepBoth(xs[1..], p, q);
      var head := if p(xs[0]) then [xs[0]] else [];
      assert Keep(xs, p) == head + Keep(xs[1..], p);
      KeepAppend(head, Keep(xs[1..], p), q);
    }
  }

  /** Filtering keeps nothing when no element passes. */
  lemma {:induction false} KeepNone<T(!new)>(xs: seq<T>, p: T -> bool)
    requires forall x | x in xs :: !p(x)
    ensures Keep(xs, p) == []
    decreases |xs|
  {
    if |xs| > 0 {
      assert !p(xs[0]);
      assert forall x | x in xs[1..] :: x in xs;
      KeepNone(xs[1..], p);
    }
  }

  /** Concatenate a sequence of sequences. */
  function Concat<T>(xss: seq<seq<T>>): seq<T>
  {
    if |xss| == 0 then [] else xss[0] + Concat(xss[1..])
  }

  /** An element of a concatenation lies in one of its parts. */
  lemma {:induction false} ConcatMember<T>(xss: seq<seq<T>>, x: T)
    requires x in Concat(xss)
    ensures exists i :: 0 <= i < |xss| && x in xss[i]
    decreases |xss|
  {
    if x !in xss[0] {
      ConcatMember(xss[1..], x);
      var i :| 0 <= i < |xss[1..]| && x in xss[1..][i];
      assert x in xss[i + 1];
    }
  }

  /** Reverse a sequence. */
  function Reverse<T>(xs: seq<T>): (r: seq<T>)
    ensures |r| == |xs|
    ensures forall i :: 0 <= i < |xs| ==> r[i] == xs[|xs| - 1 - i]
  {
    if |xs| == 0 then [] else Reverse(xs[1..]) + [xs[0]]
  }
}

=== FILE: text.dfy ===
/**
 * String primitives used by the PHP import builder and the TypeScript
 * client, each written to match the library routine it stands for:
 * `explode`/`String.prototype.split` on one character, `implode`/`join`,
 * `Str::contains`, `str_replace` with an empty replacement,
 * `String.prototype.replace` with a string pattern, `trim`, ASCII
 * lower-casing, code-unit string comparison and the byte/code-unit lengths
 * that `strlen` and `.length` report.
 */
module Text {

  // ---------------------------------------------------------------------------
  // Split and join on one separator character
  // ---------------------------------------------------------------------------

  /** Glue `parts` together with `c` between consecutive parts (`implode`, `join`). */
  function Join(parts: seq<string>, c: char): string
  {
    if |parts| == 0 then ""
    else if |parts| == 1 then parts[0]
    else parts[0] + [c] + Join(parts[1..], c)
  }

  /**
   * Cut `s` at every occurrence of `c` (`explode(c, s)`, `s.split(c)`):
   * there is always at least one piece, no piece contains `c`, and joining
   * the pieces back gives `s`.
   */
  function Split(s: string, c: char): (parts: seq<string>)
    ensures |parts| >= 1
    ensures forall i :: 0 <= i < |parts| ==> c !in parts[i]
    ensures Join(parts, c) == s
    decreases |s|
  {
    if |s| == 0 then [""]
    else if s[0] == c then
      var rest := Split(s[1..], c);
      assert s == [c] + s[1..];
      [""] + rest
    else
      var rest := Split(s[1..], c);
      var parts := [[s[0]] + rest[0]] + rest[1..];
      assert parts[1..] == rest[1..];
      assert s == [s[0]] + s[1..];
      parts
  }

  /** A text free of the separator splits into itself alone. */
  lemma {:induction false} SplitWithoutSeparator(a: string, c: char)
    requires c !in a
    ensures Split(a, c) == [a]
    decreases |a|
  {
    if |a| > 0 {
      SplitWithoutSeparator(a[1..], c);
      assert a == [a[0]] + a[1..];
    }
  }

  /** The first separator ends the first piece. */
  lemma {:induction false} SplitAtFirstSeparator(a: string, b: string, c: char)
    requires c !in a
    ensures Split(a + [c] + b, c) == [a] + Split(b, c)
    decreases |a|
  {
    var s := a + [c] + b;
    if |a| == 0 {
      assert s[0] == c && s[1..] == b;
    } else {
      assert s[0] == a[0] && s[1..] == a[1..] + [c] + b;
      SplitAtFirstSeparator(a[1..], b, c);
      assert [a[0]] + a[1..] == a;
    }
  }

  /** Splitting a join of separator-free parts gives the parts back. */
  lemma {:induction false} SplitJoin(parts: seq<string>, c: char)
    requires |parts| >= 1
    requires forall i :: 0 <= i < |parts| ==> c !in parts[i]
    ensures Split(Join(parts, c), c) == parts
    decreases |parts|
  {
    if |parts| == 1 {
      SplitWithoutSeparator(parts[0], c);
    } else {
      SplitJoin(parts[1..], c);
      SplitAtFirstSeparator(parts[0], Join(parts[1..], c), c);
      assert [parts[0]] + parts[1..] == parts;
    }
  }

  /** Every character of a part occurs in the join. */
  lemma {:induction false} JoinHasParts(parts: seq<string>, c: char, i: int)
    requires 0 <= i < |parts|
    ensures forall x :: x in parts[i] ==> x in Join(parts, c)
    decreases |parts|
  {
    if |parts| > 1 && i > 0 {
      JoinHasParts(parts[1..], c, i - 1);
    }
  }

  /** Every character of a join is the separator or comes from a part. */
  lemma {:induction false} JoinChars(parts: seq<string>, c: char, x: char)
    requires x in Join(parts, c)
    ensures x == c || exists i :: 0 <= i < |parts| && x in parts[i]
    decreases |parts|
  {
    if |parts| > 1 && x != c && x !in parts[0] {
      JoinChars(parts[1..], c, x);
      var i :| 0 <= i < |parts[1..]| && x in parts[1..][i];
      assert x in parts[i + 1];
    }
  }

  /** Every character of a piece occurs in the split text. */
  lemma SplitChars(s: string, c: char, i: int)
    requires 0 <= i < |Split(s, c)|
    ensures forall x :: x in Split(s, c)[i] ==> x in s
  {
    JoinHasParts(Split(s, c), c, i);
  }

  // ---------------------------------------------------------------------------
  // Searching
  // ---------------------------------------------------------------------------

  /** Index of the first `x` in `s`, or -1 (`indexOf`, `findIndex`). */
  function IndexOf<T(==)>(s: seq<T>, x: T): (i: int)
    ensures -1 <= i < |s|
    ensures i == -1 <==> x !in s
    ensures 0 <= i ==> s[i] == x && x !in s[..i]
  {
    if |s| == 0 then -1
    else if s[0] == x then 0
    else
      var j := IndexOf(s[1..], x);
      assert s[1..][..j + 1] == s[1..j + 2] by { }
      if j == -1 then -1 else j + 1
  }

  /** `t` occurs in `s` starting at position `i`. */
  ghost predicate OccursAt(s: string, t: string, i: int)
  {
    0 <= i && i + |t| <= |s| && s[i..i + |t|] == t
  }

  /** `Str::contains(s, t)` for a non-empty needle: `t` is a substring of `s`. */
  function Contains(s: string, t: string): (b: bool)
    ensures b <==> exists i :: OccursAt(s, t, i)
    decreases |s|
  {
    if |s| < |t| then false
    else if s[..|t|] == t then
      assert OccursAt(s, t, 0);
      true
    else
      var tail := s[1..];
      var rest := Contains(tail, t);
      if rest then
        assert exists i :: OccursAt(s, t, i) by {
          var i :| OccursAt(tail, t, i);
          assert tail[i..i + |t|] == s[i + 1..i + 1 + |t|];
          assert OccursAt(s, t, i + 1);
        }
        true
      else
        assert forall i :: OccursAt(s, t, i) ==> OccursAt(tail, t, i - 1) by {
          forall i | OccursAt(s, t, i) ensures OccursAt(tail, t, i - 1) {
            assert i != 0;
            assert tail[i - 1..i - 1 + |t|] == s[i..i + |t|];
          }
        }
        false
  }

  // ---------------------------------------------------------------------------
  // Removing text
  // ---------------------------------------------------------------------------

  /**
   * PHP `str_replace(pat, '', s)`: one left-to-right pass that deletes every
   * non-overlapping occurrence of `pat`; text that only forms `pat` after a
   * deletion is left alone. Nothing is added, a single-character pattern
   * leaves none of that character, and a text without `pat` is unchanged.
   */
  function RemoveAll(s: string, pat: string): (r: string)
    requires |pat| > 0
    ensures |r| <= |s|
    ensures forall x :: x in r ==> x in s
    ensures |pat| == 1 ==> pat[0] !in r
    ensures !Contains(s, pat) ==> r == s
    decreases |s|
  {
    if |s| < |pat| then
      assert |pat| == 1 ==> |s| == 0;
      s
    else if s[..|pat|] == pat then
      RemoveAll(s[|pat|..], pat)
    else
      var rest := RemoveAll(s[1..], pat);
      assert |pat| == 1 ==> s[0] != pat[0] by {
        if |pat| == 1 { assert s[..1] == [s[0]]; }
      }
      assert !Contains(s, pat) ==> [s[0]] + s[1..] == s;
      [s[0]] + rest
  }

  /** Concatenation is associative. */
  lemma AppendAssoc<T>(a: seq<T>, b: seq<T>, c: seq<T>)
    ensures a + (b + c) == (a + b) + c
  {
  }

  /** Splitting off the head of a non-empty left operand of `+`. */
  lemma ConsAppend<T>(a: seq<T>, b: seq<T>)
    requires |a| > 0
    ensures a + b == [a[0]] + (a[1..] + b)
  {
  }

  /** A text that does not start with the pattern keeps its first character. */
  lemma RemoveAllNoMatch(s: string, pat: string)
    requires |pat| > 0 && |s| > 0
    requires |s| < |pat| || s[..|pat|] != pat
    ensures RemoveAll(s, pat) == [s[0]] + RemoveAll(s[1..], pat)
  {
    assert s == [s[0]] + s[1..];
  }

  /** One character that cannot start the pattern passes through `str_replace` untouched. */
  lemma RemoveAllSkipOne(x: char, t: string, pat: string)
    requires |pat| > 0 && x != pat[0]
    ensures RemoveAll([x] + t, pat) == [x] + RemoveAll(t, pat)
  {
    var s := [x] + t;
    assert s[1..] == t;
    if |s| >= |pat| {
      assert s[..|pat|][0] == x;
    }
  }

  /** A text without the pattern's first character passes through `str_replace` untouched. */
  lemma {:induction false} RemoveAllSkip(a: string, t: string, pat: string)
    requires |pat| > 0 && pat[0] !in a
    ensures RemoveAll(a + t, pat) == a + RemoveAll(t, pat)
    decreases |a|
  {
    if |a| == 0 {
      assert a + t == t;
    } else {
      var b, u := a[1..], a[1..] + t;
      assert a + t == [a[0]] + u;
      assert pat[0] !in b by {
        assert forall i | 0 <= i < |b| :: b[i] == a[i + 1];
      }
      RemoveAllSkipOne(a[0], u, pat);
      RemoveAllSkip(b, t, pat);
      var rest := RemoveAll(t, pat);
      assert RemoveAll(a + t, pat) == [a[0]] + (b + rest);
      ConsAppend(a, rest);
    }
  }

  /** A one-character pattern absent from the text is not contained in it. */
  lemma AbsentChar(s: string, c: char)
    requires c !in s
    ensures !Contains(s, [c])
  {
    forall i | 0 <= i && i + 1 <= |s|
      ensures !OccursAt(s, [c], i)
    {
      assert s[i..i + 1][0] == s[i];
    }
  }

  /** Deleting a leading occurrence of the pattern costs exactly that occurrence. */
  lemma RemoveAllLeading(pat: string, s: string)
    requires |pat| > 0
    ensures RemoveAll(pat + s, pat) == RemoveAll(s, pat)
  {
    assert (pat + s)[..|pat|] == pat;
    assert (pat + s)[|pat|..] == s;
  }

  /**
   * JavaScript `s.replace(c, '')` with a one-character string pattern:
   * only the FIRST occurrence is removed.
   */
  function RemoveFirst(s: string, c: char): (r: string)
    ensures c !in s ==> r == s
    ensures |r| == if c in s then |s| - 1 else |s|
  {
    if |s| == 0 then s
    else if s[0] == c then s[1..]
    else [s[0]] + RemoveFirst(s[1..], c)
  }

  /** With the character present, the result is the text around its first occurrence. */
  lemma {:induction false} RemoveFirstAt(s: string, c: char)
    requires c in s
    ensures RemoveFirst(s, c) == s[..IndexOf(s, c)] + s[IndexOf(s, c) + 1..]
  {
    if s[0] != c {
      assert c in s[1..] by {
        assert s == [s[0]] + s[1..];
      }
      var t, k := s[1..], IndexOf(s[1..], c);
      assert IndexOf(s, c) == k + 1;
      calc {
        RemoveFirst(s, c);
        [s[0]] + RemoveFirst(t, c);
        { RemoveFirstAt(t, c); }
        [s[0]] + (t[..k] + t[k + 1..]);
        { AppendAssoc([s[0]], t[..k], t[k + 1..]); }
        ([s[0]] + t[..k]) + t[k + 1..];
        { assert [s[0]] + t[..k] == s[..k + 1]; assert t[k + 1..] == s[k + 2..]; }
        s[..k + 1] + s[k + 2..];
      }
    }
  }

  /** Only the first copy of the character goes: `c` stays in `a + [c] + b` minus one `c` when `b` has one. */
  lemma RemoveFirstOfAppended(a: string, c: char, b: string)
    requires c !in a
    ensures RemoveFirst(a + [c] + b, c) == a + b
  {
    var s := a + [c] + b;
    assert s[|a|] == c && s[..|a|] == a;
    assert IndexOf(s, c) == |a|;
    assert s[|a| + 1..] == b;
    RemoveFirstAt(s, c);
  }

  // ---------------------------------------------------------------------------
  // Trimming
  // ---------------------------------------------------------------------------

  /** The characters `String.prototype.trim` removes: WhiteSpace and LineTerminator. */
  predicate IsJsSpace(c: char)
  {
    || c == '\t' || c == '\n' || c == '\U{B}' || c == '\U{C}' || c == '\r' || c == ' '
    || c == '\U{A0}' || c == '\U{1680}' || ('\U{2000}' <= c <= '\U{200A}')
    || c == '\U{2028}' || c == '\U{2029}' || c == '\U{202F}' || c == '\U{205F}'
    || c == '\U{3000}' || c == '\U{FEFF}'
  }

  /** Drop leading white space: the result is the suffix after a run of spaces. */
  function TrimStart(s: string): (r: string)
    ensures |r| <= |s| && r == s[|s| - |r|..]
    ensures forall k :: 0 <= k < |s| - |r| ==> IsJsSpace(s[k])
    ensures |r| > 0 ==> !IsJsSpace(r[0])
    decreases |s|
  {
    if |s| > 0 && IsJsSpace(s[0]) then TrimStart(s[1..]) else s
  }

  /** Drop trailing white space: the result is the prefix before a run of spaces. */
  function TrimEnd(s: string): (r: string)
    ensures |r| <= |s| && r == s[..|r|]
    ensures forall k :: |r| <= k < |s| ==> IsJsSpace(s[k])
    ensures |r| > 0 ==> !IsJsSpace(r[|r| - 1])
    decreases |s|
  {
    if |s| > 0 && IsJsSpace(s[|s| - 1]) then TrimEnd(s[..|s| - 1]) else s
  }

  /** `String.prototype.trim`: a slice of `s` with no white space at either end. */
  function Trim(s: string): (r: string)
    ensures |r| <= |s|
    ensures |r| > 0 ==> !IsJsSpace(r[0]) && !IsJsSpace(r[|r| - 1])
    ensures (forall k :: 0 <= k < |s| ==> !IsJsSpace(s[k])) ==> r == s
    ensures forall x :: x in r ==> x in s
  {
    var t := TrimStart(s);
    var r := TrimEnd(t);
    assert |r| > 0 ==> r[0] == t[0];
    assert forall x :: x in r ==> x in t;
    assert forall x :: x in t ==> x in s;
    r
  }
  /** Trimming keeps every character that is not white space. */
  lemma TrimKeeps(s: string, k: int)
    requires 0 <= k < |s| && !IsJsSpace(s[k])
    ensures s[k] in Trim(s)
  {
    var t := TrimStart(s);
    var d := |s| - |t|;
    assert k >= d;
    assert t[k - d] == s[k];
    var r := TrimEnd(t);
    assert k - d < |r|;
    assert r[k - d] == s[k];
  }


  // ---------------------------------------------------------------------------
  // Case, comparison and length
  // ---------------------------------------------------------------------------

  /** ASCII lower-casing of one character. */
  function LowerChar(c: char): char
  {
    if 'A' <= c <= 'Z' then (c as int + 32) as char else c
  }

  /** `toLowerCase` restricted to ASCII letters: same length, each letter lowered. */
  function Lower(s: string): (r: string)
    ensures |r| == |s|
    ensures forall i :: 0 <= i < |s| ==> r[i] == LowerChar(s[i])
  {
    seq(|s|, i requires 0 <= i < |s| => LowerChar(s[i]))
  }

  /**
   * Lexicographic comparison by character code, the order of JavaScript's
   * `<` on two strings and of `Array.prototype.sort` without a comparator:
   * -1, 0 or 1, and 0 exactly for equal strings.
   */
  function StrCmp(a: string, b: string): (r: int)
    ensures -1 <= r <= 1
    ensures r == 0 <==> a == b
    decreases |a|
  {
    if |a| == 0 && |b| == 0 then 0
    else if |a| == 0 then -1
    else if |b| == 0 then 1
    else if a[0] < b[0] then -1
    else if a[0] > b[0] then 1
    else
      var r := StrCmp(a[1..], b[1..]);
      assert r == 0 ==> a == [a[0]] + a[1..] == [b[0]] + b[1..] == b;
      r
  }

  /** Swapping the operands flips the comparison. */
  lemma {:induction false} StrCmpAntisymmetric(a: string, b: string)
    ensures StrCmp(a, b) == -StrCmp(b, a)
    decreases |a|
  {
    if |a| > 0 && |b| > 0 && a[0] == b[0] {
      StrCmpAntisymmetric(a[1..], b[1..]);
    }
  }

  /** `StrCmp(_, _) <= 0` is transitive. */
  lemma {:induction false} StrCmpTransitive(a: string, b: string, c: string)
    requires StrCmp(a, b) <= 0 && StrCmp(b, c) <= 0
    ensures StrCmp(a, c) <= 0
    decreases |a|
  {
    if |a| > 0 && |b| > 0 && |c| > 0 && a[0] == b[0] && b[0] == c[0] {
      StrCmpTransitive(a[1..], b[1..], c[1..]);
    }
  }

  /** Number of UTF-16 code units (JavaScript `.length`). */
  function Utf16Length(s: string): (n: nat)
    ensures |s| <= n <= 2 * |s|
    ensures (forall i :: 0 <= i < |s| ==> s[i] as int < 0x1_0000) ==> n == |s|
  {
    if |s| == 0 then 0
    else (if s[0] as int >= 0x1_0000 then 2 else 1) + Utf16Length(s[1..])
  }

  /** Number of UTF-8 bytes (PHP `strlen` on UTF-8 text). */
  function Utf8Length(s: string): (n: nat)
    ensures |s| <= n <= 4 * |s|
    ensures (forall i :: 0 <= i < |s| ==> s[i] as int < 0x80) ==> n == |s|
  {
    if |s| == 0 then 0
    else
      var c := s[0] as int;
      (if c < 0x80 then 1 else if c < 0x800 then 2 else if c < 0x1_0000 then 3 else 4)
      + Utf8Length(s[1..])
  }
}

=== FILE: user_reducer.dfy ===
/**
 * The user reducer: `UPDATE_USER` spreads the updates over the user, and
 * `UPDATE_USER_ACTIVE`, `UPDATE_USER_COLOR` and `UPDATE_USER_SUBSCRIPTION`
 * spread them over one nested object, leaving every other field alone.
 * Objects are insertion-ordered tables, so a spread keeps the old keys in
 * place and appends the new ones in the updates' order.
 */
module UserReducer {
  import opened Sorting
  import opened SheetActions

  /** A field of the user: a leaf value, or a nested object of leaves. */
  datatype Value<S> = Leaf(leaf: S) | Nested(fields: Table<S>)

  /** The user: an object of fields. */
  type User<S> = Table<Value<S>>

  /** The reducer's actions; anything else is `Unrecognised`. */
  datatype UserAction<S> =
    | UpdateUser(updates: Table<Value<S>>)
    | UpdateUserActive(nested: Table<S>)
    | UpdateUserColor(nested: Table<S>)
    | UpdateUserSubscription(nested: Table<S>)
    | Unrecognised

  /** The source's keys are all readable. */
  ghost predicate Covers<V>(ks: seq<string>, src: map<string, V>)
  {
    forall i | 0 <= i < |ks| :: ks[i] in src
  }

  /** Assign `src[k]` for each `k` of `ks`, in order. */
  function Assign<V>(t: Table<V>, ks: seq<string>, src: map<string, V>): (r: Table<V>)
    requires WellKeyed(t) && Covers(ks, src)
    ensures WellKeyed(r)
    ensures |r.keys| >= |t.keys| && r.keys[..|t.keys|] == t.keys
    decreases |ks|
  {
    if |ks| == 0 then t
    else
      var next := Put(t, ks[0], src[ks[0]]);
      var r := Assign(next, ks[1..], src);
      assert r.keys[..|t.keys|] == r.keys[..|next.keys|][..|t.keys|];
      r
  }

  /** The entries an assignment leaves: each listed key updated in turn. */
  function Updated<V>(m: map<string, V>, ks: seq<string>, src: map<string, V>): map<string, V>
    requires Covers(ks, src)
    decreases |ks|
  {
    if |ks| == 0 then m else Updated(m[ks[0] := src[ks[0]]], ks[1..], src)
  }

  /** Assigning into a table updates its entries key by key. */
  lemma {:induction false} AssignEntries<V>(t: Table<V>, ks: seq<string>, src: map<string, V>)
    requires WellKeyed(t) && Covers(ks, src)
    ensures Assign(t, ks, src).entries == Updated(t.entries, ks, src)
    decreases |ks|
  {
    if |ks| > 0 {
      AssignEntries(Put(t, ks[0], src[ks[0]]), ks[1..], src);
    }
  }

  /** Updating fills in key `k` from the source exactly when it is listed, and keeps it otherwise. */
  lemma {:induction false} UpdatedAt<V>(m: map<string, V>, ks: seq<string>, src: map<string, V>, k: string)
    requires Covers(ks, src)
    ensures var r := Updated(m, ks, src);
      && (k in r <==> k in m || k in ks)
      && (k in ks ==> r[k] == src[k])
      && (k in m && k !in ks ==> r[k] == m[k])
    decreases |ks|
  {
    if |ks| > 0 {
      UpdatedAt(m[ks[0] := src[ks[0]]], ks[1..], src, k);
      assert k in ks <==> k == ks[0] || k in ks[1..] by {
        assert ks == [ks[0]] + ks[1..];
      }
    }
  }

  /** Assigning fills in key `k` from the source exactly when it is listed, and keeps it otherwise. */
  lemma AssignAt<V>(t: Table<V>, ks: seq<string>, src: map<string, V>, k: string)
    requires WellKeyed(t) && Covers(ks, src)
    ensures var r := Assign(t, ks, src);
      && (k in r.entries <==> k in t.entries || k in ks)
      && (k in ks ==> r.entries[k] == src[k])
      && (k in t.entries && k !in ks ==> r.entries[k] == t.entries[k])
  {
    AssignEntries(t, ks, src);
    UpdatedAt(t.entries, ks, src, k);
  }

  /** `{ ...a, ...b }`. */
  function Spread<V>(a: Table<V>, b: Table<V>): (r: Table<V>)
    requires WellKeyed(a) && WellKeyed(b)
    ensures WellKeyed(r)
    ensures |r.keys| >= |a.keys| && r.keys[..|a.keys|] == a.keys
  {
    Assign(a, b.keys, b.entries)
  }

  /** A spread's entries are the union of both, the later object winning. */
  lemma SpreadIsUnion<V>(a: Table<V>, b: Table<V>)
    requires WellKeyed(a) && WellKeyed(b)
    ensures Spread(a, b).entries == a.entries + b.entries
  {
    var r := Spread(a, b);
    forall k ensures (k in r.entries <==> k in a.entries + b.entries) && (k in r.entries ==> r.entries[k] == (a.entries + b.entries)[k]) {
      AssignAt(a, b.keys, b.entries, k);
    }
  }

  /** Assigning values a table already holds changes nothing. */
  lemma {:induction false} AssignHeld<V>(t: Table<V>, ks: seq<string>, src: map<string, V>)
    requires WellKeyed(t) && Covers(ks, src)
    requires forall i | 0 <= i < |ks| :: ks[i] in t.entries && t.entries[ks[i]] == src[ks[i]]
    ensures Assign(t, ks, src) == t
    decreases |ks|
  {
    if |ks| > 0 {
      assert Put(t, ks[0], src[ks[0]]) == t;
      AssignHeld(t, ks[1..], src);
    }
  }

  /** Spreading the same object twice is spreading it once. */
  lemma SpreadIdempotent<V>(a: Table<V>, b: Table<V>)
    requires WellKeyed(a) && WellKeyed(b)
    ensures Spread(Spread(a, b), b) == Spread(a, b)
  {
    forall i | 0 <= i < |b.keys| ensures b.keys[i] in Spread(a, b).entries && Spread(a, b).entries[b.keys[i]] == b.entries[b.keys[i]] {
      AssignAt(a, b.keys, b.entries, b.keys[i]);
    }
    AssignHeld(Spread(a, b), b.keys, b.entries);
  }

  /** The user and every nested object in it are objects. */
  ghost predicate Shaped<S>(state: User<S>)
  {
    WellKeyed(state) && forall k | k in state.entries && state.entries[k].Nested? :: WellKeyed(state.entries[k].fields)
  }

  /** `{ ...state[field] }`: a nested object's fields, or none when the field holds no object. */
  function FieldsOf<S>(state: User<S>, field: string): (t: Table<S>)
    requires Shaped(state)
    ensures WellKeyed(t)
  {
    if field in state.entries && state.entries[field].Nested?
    then state.entries[field].fields
    else Table([], map[])
  }

  /** `{ ...state, [field]: { ...state[field], ...updates } }`. */
  function UpdateNested<S>(state: User<S>, field: string, updates: Table<S>): (r: User<S>)
    requires Shaped(state) && WellKeyed(updates)
    ensures Shaped(r)
  {
    Put(state, field, Nested(Spread(FieldsOf(state, field), updates)))
  }

  /** Actions whose tables are objects. */
  ghost predicate Applicable<S>(action: UserAction<S>)
  {
    && (action.UpdateUser? ==> Shaped(action.updates))
    && (!action.UpdateUser? && !action.Unrecognised? ==> WellKeyed(action.nested))
  }

  /** `userReducer`. */
  function Reduce<S>(state: User<S>, action: UserAction<S>): (r: User<S>)
    requires Shaped(state) && Applicable(action)
    ensures Shaped(r)
    ensures |r.keys| >= |state.keys| && r.keys[..|state.keys|] == state.keys
  {
    match action
    case UpdateUser(updates) =>
      SpreadIsUnion(state, updates);
      Spread(state, updates)
    case UpdateUserActive(updates) => UpdateNested(state, "active", updates)
    case UpdateUserColor(updates) => UpdateNested(state, "color", updates)
    case UpdateUserSubscription(updates) => UpdateNested(state, "subscription", updates)
    case Unrecognised => state
  }

  /** The nested object an action updates. */
  function Target<S>(action: UserAction<S>): string
    requires !action.UpdateUser? && !action.Unrecognised?
  {
    match action
    case UpdateUserActive(_) => "active"
    case UpdateUserColor(_) => "color"
    case UpdateUserSubscription(_) => "subscription"
  }

  /** `UPDATE_USER` replaces the fields present in the updates and leaves every other field unchanged. */
  lemma UpdateUserMerges<S>(state: User<S>, updates: Table<Value<S>>)
    requires Shaped(state) && Shaped(updates)
    ensures Reduce(state, UpdateUser(updates)).entries == state.entries + updates.entries
    ensures forall k | k in state.entries && k !in updates.entries :: Reduce(state, UpdateUser(updates)).entries[k] == state.entries[k]
  {
    SpreadIsUnion(state, updates);
  }

  /**
   * A nested update changes only its own field, which becomes the old
   * nested object with the updates spread over it; the keys stay in place.
   */
  lemma NestedUpdateIsolated<S>(state: User<S>, action: UserAction<S>)
    requires Shaped(state) && Applicable(action) && !action.UpdateUser? && !action.Unrecognised?
    ensures var r := Reduce(state, action);
      var f := Target(action);
      && r.entries == state.entries[f := Nested(Spread(FieldsOf(state, f), action.nested))]
      && (forall k | k in state.entries && k != f :: r.entries[k] == state.entries[k])
      && r.entries[f].Nested? && r.entries[f].fields.entries == FieldsOf(state, f).entries + action.nested.entries
      && (f in state.entries ==> r.keys == state.keys)
  {
    var f := Target(action);
    SpreadIsUnion(FieldsOf(state, f), action.nested);
  }

  /** An unrecognised action returns the state unchanged. */
  lemma UnrecognisedIsIdentity<S>(state: User<S>)
    requires Shaped(state)
    ensures Reduce(state, Unrecognised) == state
  {
  }

  /** Updating one nested object twice with the same updates is updating it once. */
  lemma NestedIdempotent<S>(state: User<S>, field: string, updates: Table<S>)
    requires Shaped(state) && WellKeyed(updates)
    ensures UpdateNested(UpdateNested(state, field, updates), field, updates) == UpdateNested(state, field, updates)
  {
    var once := UpdateNested(state, field, updates);
    var inner := Spread(FieldsOf(state, field), updates);
    assert once == Put(state, field, Nested(inner));
    assert FieldsOf(once, field) == inner;
    SpreadIdempotent(FieldsOf(state, field), updates);
    assert UpdateNested(once, field, updates) == Put(once, field, Nested(inner));
    PutHeld(once, field, Nested(inner));
  }

  /** Putting the value a key already holds changes nothing. */
  lemma PutHeld<V>(t: Table<V>, k: string, v: V)
    requires WellKeyed(t) && k in t.entries && t.entries[k] == v
    ensures Put(t, k, v) == t
  {
    assert t.entries[k := v] == t.entries;
  }

  /** Applying the same action twice gives the same user as applying it once. */
  lemma ReduceIdempotent<S>(state: User<S>, action: UserAction<S>)
    requires Shaped(state) && Applicable(action)
    ensures Reduce(Reduce(state, action), action) == Reduce(state, action)
  {
    match action
    case UpdateUser(updates) =>
      SpreadIdempotent(state, updates);
    case Unrecognised =>
    case UpdateUserActive(updates) =>
      NestedIdempotent(state, "active", updates);
    case UpdateUserColor(updates) =>
      NestedIdempotent(state, "color", updates);
    case UpdateUserSubscription(updates) =>
      NestedIdempotent(state, "subscription", updates);
  }
}

=== FILE: values.dfy ===
/**
 * Cell and filter values as the sheet engine compares them
 * (`resolvers.ts`): `resolveValue` turns a cell's text into a number or a
 * string, `resolveFilter` tests a cell against a `|`-separated list of
 * alternatives, and lodash's `compareAscending` orders resolved values
 * for the sort step.
 *
 * JavaScript numbers are modelled by the integers: `Number(text)` is
 * `ParseNumber`, which reads optionally signed decimal integers (after
 * trimming white space; blank text is 0) and reports every other text as
 * not a number.
 */
module Values {
  import opened Wrappers
  import opened Text
  import opened Ordering

  /** A resolved value: `resolveValue`'s number, or its string when the text is not a number. */
  datatype Val = Num(n: int) | Str(s: string)

  /** The comparison operators a filter can carry. */
  datatype FilterType = Eq | Ne | Gt | Ge | Lt | Le

  // ---------------------------------------------------------------------------
  // Numbers as text
  // ---------------------------------------------------------------------------

  predicate IsDigit(c: char)
  {
    '0' <= c <= '9'
  }

  /** Characters that can occur in text `Number` reads as an integer. */
  predicate IsNumeralChar(c: char)
  {
    IsDigit(c) || IsJsSpace(c) || c == '-' || c == '+'
  }

  /** A non-empty run of decimal digits. */
  predicate IsDigits(s: string)
  {
    |s| > 0 && forall i :: 0 <= i < |s| ==> IsDigit(s[i])
  }

  /** The value of a run of decimal digits. */
  function DigitsValue(s: string): nat
    requires forall i :: 0 <= i < |s| ==> IsDigit(s[i])
  {
    if |s| == 0 then 0
    else
      assert IsDigit(s[|s| - 1]);
      DigitsValue(s[..|s| - 1]) * 10 + (s[|s| - 1] as int - '0' as int)
  }

  /**
   * `Number(text)` on integer text: white space around the numeral is
   * ignored, blank text is 0, and `None` stands for `NaN`.
   */
  function ParseNumber(s: string): (r: Option<int>)
    ensures (forall k :: 0 <= k < |s| ==> IsJsSpace(s[k])) ==> r == Some(0)
  {
    var t := Trim(s);
    if |t| == 0 then Some(0)
    else if t[0] == '-' && IsDigits(t[1..]) then Some(0 - DigitsValue(t[1..]))
    else if t[0] == '+' && IsDigits(t[1..]) then Some(DigitsValue(t[1..]))
    else if IsDigits(t) then Some(DigitsValue(t))
    else
      None
  }

  /** Text holding a character that cannot appear in a numeral is `NaN`. */
  lemma ParseNumberRejects(s: string, k: int)
    requires 0 <= k < |s| && !IsNumeralChar(s[k])
    ensures ParseNumber(s) == None
  {
    TrimKeeps(s, k);
    var t := Trim(s);
    var i :| 0 <= i < |t| && t[i] == s[k];
    if i > 0 {
      assert t[1..][i - 1] == t[i];
    }
  }

  function DigitChar(d: int): char
    requires 0 <= d < 10
  {
    ('0' as int + d) as char
  }

  /** The decimal numeral of a natural number, without leading zeros. */
  function ShowNat(n: nat): (s: string)
    ensures IsDigits(s)
  {
    if n < 10 then [DigitChar(n)] else ShowNat(n / 10) + [DigitChar(n % 10)]
  }

  /** `String(n)` for an integer `n`. */
  function ShowInt(n: int): string
  {
    if n < 0 then "-" + ShowNat(-n) else ShowNat(n)
  }

  /** Reading a numeral back gives the number. */
  lemma {:induction false} DigitsValueShowNat(n: nat)
    ensures DigitsValue(ShowNat(n)) == n
    decreases n
  {
    if n >= 10 {
      var s := ShowNat(n);
      assert s[..|s| - 1] == ShowNat(n / 10);
      DigitsValueShowNat(n / 10);
    }
  }

  /** `Number(String(n)) == n` for every integer. */
  lemma ParseShowInt(n: int)
    ensures ParseNumber(ShowInt(n)) == Some(n)
  {
    var s := ShowInt(n);
    NumeralChars(n);
    assert Trim(s) == s;
    if n < 0 {
      DigitsValueShowNat(-n);
      assert s[1..] == ShowNat(-n);
    } else {
      DigitsValueShowNat(n);
    }
  }

  // ---------------------------------------------------------------------------
  // resolveValue
  // ---------------------------------------------------------------------------

  /** The text `resolveValue` hands to `Number`: `null` reads as `""`, and the first `%` is dropped. */
  function Stripped(v: Option<string>): string
  {
    match v
    case None => ""
    case Some(s) => RemoveFirst(s, '%')
  }

  /**
   * `resolveValue`: the number the stripped text denotes, or the stripped
   * text itself when it is not a number. A string result therefore never
   * reads as a number.
   */
  function ResolveValue(v: Option<string>): (r: Val)
    ensures r.Str? <==> ParseNumber(Stripped(v)) == None
    ensures r.Str? ==> r.s == Stripped(v) && ParseNumber(r.s) == None
    ensures r.Num? ==> ParseNumber(Stripped(v)) == Some(r.n)
  {
    var text := Stripped(v);
    match ParseNumber(text)
    case Some(n) => Num(n)
    case None => Str(text)
  }

  /** A numeral holds neither `%` nor white space. */
  lemma NumeralChars(n: int)
    ensures '%' !in ShowInt(n)
    ensures forall k :: 0 <= k < |ShowInt(n)| ==> !IsJsSpace(ShowInt(n)[k])
  {
    var s := ShowInt(n);
    if n < 0 {
      assert s == "-" + ShowNat(-n);
      assert forall k :: 1 <= k < |s| ==> s[k] == ShowNat(-n)[k - 1];
    }
  }

  /** A missing value and the empty text both resolve to the number 0. */
  lemma ResolveEmpty()
    ensures ResolveValue(None) == Num(0)
    ensures ResolveValue(Some("")) == Num(0)
  {
    assert Stripped(Some("")) == "";
  }

  /** A numeral resolves to its number. */
  lemma ResolveNumeral(n: int)
    ensures ResolveValue(Some(ShowInt(n))) == Num(n)
  {
    NumeralChars(n);
    ParseShowInt(n);
  }

  /** A percentage resolves to its number: the `%` is dropped. */
  lemma ResolvePercent(n: int)
    ensures ResolveValue(Some(ShowInt(n) + "%")) == Num(n)
  {
    var s := ShowInt(n);
    NumeralChars(n);
    RemoveFirstOfAppended(s, '%', "");
    assert s + "%" == s + ['%'] + "";
    assert Stripped(Some(s + "%")) == s;
    ParseShowInt(n);
  }

  /** Stripping `s%%` drops one `%` when `s` holds none. */
  lemma StrippedDouble(s: string)
    requires '%' !in s
    ensures Stripped(Some(s + "%%")) == s + "%"
  {
    RemoveFirstOfAppended(s, '%', "%");
    assert s + "%%" == s + ['%'] + "%";
  }

  /** Text ending in `%` is not a number. */
  lemma TrailingPercentRejected(t: string)
    requires |t| > 0 && t[|t| - 1] == '%'
    ensures ParseNumber(t) == None
  {
    assert !IsNumeralChar('%');
    ParseNumberRejects(t, |t| - 1);
  }

  /** Only the first `%` is dropped: `"5%%"` stays the string `"5%"`. */
  lemma ResolveDoublePercent(n: int)
    ensures ResolveValue(Some(ShowInt(n) + "%%")) == Str(ShowInt(n) + "%")
  {
    var s := ShowInt(n);
    NumeralChars(n);
    StrippedDouble(s);
    TrailingPercentRejected(s + "%");
  }

  /** Text that is not a number and has no `%` resolves to itself. */
  lemma ResolveText(s: string)
    requires '%' !in s && ParseNumber(s) == None
    ensures ResolveValue(Some(s)) == Str(s)
  {
  }

  // ---------------------------------------------------------------------------
  // Comparing resolved values
  // ---------------------------------------------------------------------------

  /** Both values are numbers or both are strings. */
  predicate SameKind(x: Val, y: Val)
  {
    x.Num? == y.Num?
  }

  /**
   * JavaScript `x == y`. Between a number and a string, the string is
   * converted with `Number`, which gives `NaN` for a resolved string, so
   * the comparison is false.
   */
  predicate LooseEq(x: Val, y: Val)
  {
    match (x, y)
    case (Num(a), Num(b)) => a == b
    case (Str(a), Str(b)) => a == b
    case _ => false
  }

  /** JavaScript `x < y`, false between a number and a string for the same reason. */
  predicate Less(x: Val, y: Val)
  {
    match (x, y)
    case (Num(a), Num(b)) => a < b
    case (Str(a), Str(b)) => StrCmp(a, b) < 0
    case _ => false
  }

  /** JavaScript `x <= y`, false between a number and a string for the same reason. */
  predicate LessEq(x: Val, y: Val)
  {
    match (x, y)
    case (Num(a), Num(b)) => a <= b
    case (Str(a), Str(b)) => StrCmp(a, b) <= 0
    case _ => false
  }

  /** Whether `cell <op> alternative` holds. */
  predicate Holds(op: FilterType, cell: Val, alt: Val)
  {
    match op
    case Eq => LooseEq(cell, alt)
    case Ne => !LooseEq(cell, alt)
    case Gt => Less(alt, cell)
    case Ge => LessEq(alt, cell)
    case Lt => Less(cell, alt)
    case Le => LessEq(cell, alt)
  }

  /** A number never compares with a string: only `!=` holds between them. */
  lemma MixedKindsNeverCompare(op: FilterType, x: Val, y: Val)
    requires !SameKind(x, y)
    ensures Holds(op, x, y) <==> op == Ne
  {
  }

  /**
   * lodash's `compareAscending` on two resolved values: -1, 0 or 1,
   * negative exactly when `x < y` and positive exactly when `y < x`; so a
   * number and a string tie.
   */
  function ValCmp(x: Val, y: Val): (r: int)
    ensures -1 <= r <= 1
    ensures r < 0 <==> Less(x, y)
    ensures r > 0 <==> Less(y, x)
  {
    match (x, y)
    case (Num(a), Num(b)) => if a < b then -1 else if a > b then 1 else 0
    case (Str(a), Str(b)) => StrCmpAntisymmetric(a, b); StrCmp(a, b)
    case _ => 0
  }

  /** Swapping the operands negates `compareAscending`. */
  lemma ValAntisymmetric(x: Val, y: Val)
    ensures ValCmp(x, y) == -ValCmp(y, x)
  {
    if x.Str? && y.Str? {
      StrCmpAntisymmetric(x.s, y.s);
    }
  }

  /** `ValCmp(_, _) <= 0` is transitive on values of one kind. */
  lemma ValTransitive(x: Val, y: Val, z: Val)
    requires SameKind(x, y) && SameKind(y, z)
    requires ValCmp(x, y) <= 0 && ValCmp(y, z) <= 0
    ensures ValCmp(x, z) <= 0
  {
    if x.Str? {
      StrCmpAntisymmetric(x.s, y.s);
      StrCmpAntisymmetric(y.s, z.s);
      StrCmpTransitive(x.s, y.s, z.s);
    }
  }

  /** On values of one kind, `compareAscending` is a total preorder. */
  lemma ValPreorder(x: Val, y: Val, z: Val)
    requires SameKind(x, y) && SameKind(y, z)
    ensures Preorder3(x, y, z, ValCmp)
  {
    ValAntisymmetric(x, y);
    ValAntisymmetric(y, z);
    ValAntisymmetric(x, z);
    if ValCmp(x, y) <= 0 && ValCmp(y, z) <= 0 { ValTransitive(x, y, z); }
    if ValCmp(y, z) <= 0 && ValCmp(z, x) <= 0 { ValTransitive(y, z, x); }
    if ValCmp(z, x) <= 0 && ValCmp(x, y) <= 0 { ValTransitive(z, x, y); }
    if ValCmp(x, z) <= 0 && ValCmp(z, y) <= 0 { ValTransitive(x, z, y); }
    if ValCmp(z, y) <= 0 && ValCmp(y, x) <= 0 { ValTransitive(z, y, x); }
    if ValCmp(y, x) <= 0 && ValCmp(x, z) <= 0 { ValTransitive(y, x, z); }
  }

  /**
   * Across kinds `compareAscending` is not transitive: 1 ties with "a" and
   * "a" ties with 0, yet 1 sorts after 0. A sort column mixing numbers and
   * strings therefore has no well-defined order.
   */
  lemma MixedKindsNotTransitive()
    ensures ValCmp(Num(1), Str("a")) == 0 && ValCmp(Str("a"), Num(0)) == 0
    ensures ValCmp(Num(1), Num(0)) > 0
  {
  }

  // ---------------------------------------------------------------------------
  // resolveFilter
  // ---------------------------------------------------------------------------

  /** `some`: whether `p` holds of at least one element. */
  function Any<T>(xs: seq<T>, p: T -> bool): (b: bool)
    ensures b <==> exists i :: 0 <= i < |xs| && p(xs[i])
  {
    if |xs| == 0 then false
    else
      var rest := Any(xs[1..], p);
      assert rest <==> exists i :: 1 <= i < |xs| && p(xs[i]) by {
        if rest {
          var i :| 0 <= i < |xs[1..]| && p(xs[1..][i]);
          assert p(xs[i + 1]);
        }
        if exists i :: 1 <= i < |xs| && p(xs[i]) {
          var i :| 1 <= i < |xs| && p(xs[i]);
          assert xs[1..][i - 1] == xs[i];
        }
      }
      p(xs[0]) || rest
  }

  /** `every`: whether `p` holds of all elements. */
  function All<T>(xs: seq<T>, p: T -> bool): (b: bool)
    ensures b <==> forall i :: 0 <= i < |xs| ==> p(xs[i])
  {
    if |xs| == 0 then true
    else
      var rest := All(xs[1..], p);
      assert rest <==> forall i :: 1 <= i < |xs| ==> p(xs[i]) by {
        if rest {
          forall i | 1 <= i < |xs| ensures p(xs[i]) {
            assert xs[1..][i - 1] == xs[i];
          }
        }
        if forall i :: 1 <= i < |xs| ==> p(xs[i]) {
          forall i | 0 <= i < |xs[1..]| ensures p(xs[1..][i]) {
            assert xs[1..][i] == xs[i + 1];
          }
        }
      }
      p(xs[0]) && rest
  }

  /** The filter's alternatives: its text split at every `|`, each piece trimmed. */
  function Alternatives(filterValue: string): (alts: seq<string>)
    ensures |alts| == |Split(filterValue, '|')| >= 1
    ensures forall i :: 0 <= i < |alts| ==> alts[i] == Trim(Split(filterValue, '|')[i])
  {
    var parts := Split(filterValue, '|');
    seq(|parts|, i requires 0 <= i < |parts| => Trim(parts[i]))
  }

  /** Text without `|` is one alternative, trimmed. */
  lemma SingleAlternative(filterValue: string)
    requires '|' !in filterValue
    ensures Alternatives(filterValue) == [Trim(filterValue)]
  {
    SplitWithoutSeparator(filterValue, '|');
  }

  /** Joining pieces with `|` gives back the pieces as alternatives, trimmed. */
  lemma AlternativesOfJoin(parts: seq<string>)
    requires |parts| >= 1
    requires forall i :: 0 <= i < |parts| ==> '|' !in parts[i]
    ensures |Alternatives(Join(parts, '|'))| == |parts|
    ensures forall i :: 0 <= i < |parts| ==> Alternatives(Join(parts, '|'))[i] == Trim(parts[i])
  {
    SplitJoin(parts, '|');
  }

  /** Whether the cell passes `op` against one alternative's text. */
  predicate Passes(op: FilterType, cell: Val, alt: string)
  {
    Holds(op, cell, ResolveValue(Some(alt)))
  }

  /**
   * `resolveFilter`: `!=` holds when the cell differs from every
   * alternative; every other operator holds when it holds against at least
   * one alternative.
   */
  function ResolveFilter(cell: Option<string>, filterValue: string, op: FilterType): (b: bool)
    ensures var alts, c := Alternatives(filterValue), ResolveValue(cell);
      op != Ne ==> (b <==> exists i :: 0 <= i < |alts| && Holds(op, c, ResolveValue(Some(alts[i]))))
    ensures var alts, c := Alternatives(filterValue), ResolveValue(cell);
      op == Ne ==> (b <==> forall i :: 0 <= i < |alts| ==> !LooseEq(c, ResolveValue(Some(alts[i]))))
  {
    var c := ResolveValue(cell);
    var alts := Alternatives(filterValue);
    if op == Ne then All(alts, (a: string) => Passes(Ne, c, a))
    else Any(alts, (a: string) => Passes(op, c, a))
  }

  /** `!=` is exactly the negation of `=` on the same cell and filter text. */
  lemma NeIsNotEq(cell: Option<string>, filterValue: string)
    ensures ResolveFilter(cell, filterValue, Ne) == !ResolveFilter(cell, filterValue, Eq)
  {
  }

  /** Against filter text with one alternative, `=` is loose equality with that alternative. */
  lemma EqOneAlternative(cell: Option<string>, t: string, a: string)
    requires Alternatives(t) == [a]
    ensures ResolveFilter(cell, t, Eq) <==> LooseEq(ResolveValue(cell), ResolveValue(Some(a)))
  {
    var alts, c, v := Alternatives(t), ResolveValue(cell), ResolveValue(Some(a));
    assert alts[0] == a;
    var b := ResolveFilter(cell, t, Eq);
    assert b <==> exists i :: 0 <= i < |alts| && Holds(Eq, c, ResolveValue(Some(alts[i])));
    if b {
      var i :| 0 <= i < |alts| && Holds(Eq, c, ResolveValue(Some(alts[i])));
      assert i == 0;
    } else {
      assert !Holds(Eq, c, ResolveValue(Some(alts[0])));
    }
    assert Holds(Eq, c, v) == LooseEq(c, v);
  }

  /** A numeral cell passes `=` against a single numeral exactly when the numbers are equal. */
  lemma NumeralEqNumeral(m: int, n: int)
    ensures ResolveFilter(Some(ShowInt(m)), ShowInt(n), Eq) <==> m == n
  {
    var t := ShowInt(n);
    NumeralChars(n);
    NumeralHasNoBar(n);
    SingleAlternative(t);
    EqOneAlternative(Some(ShowInt(m)), t, t);
    ResolveNumeral(m);
    ResolveNumeral(n);
  }

  /** A numeral holds no `|`, so a filter on it has one alternative. */
  lemma NumeralHasNoBar(n: int)
    ensures '|' !in ShowInt(n)
  {
    var digits := ShowNat(if n < 0 then -n else n);
    assert '|' !in digits;
    if n < 0 {
      assert ShowInt(n) == "-" + digits;
    }
  }

  /** A number never passes a comparison filter whose alternatives all resolve to strings. */
  lemma NumberAgainstTextFails(cell: Option<string>, filterValue: string, op: FilterType)
    requires op != Ne
    requires ResolveValue(cell).Num?
    requires forall i :: 0 <= i < |Alternatives(filterValue)| ==> ResolveValue(Some(Alternatives(filterValue)[i])).Str?
    ensures !ResolveFilter(cell, filterValue, op)
  {
  }
}

=== FILE: visible_rows.dfy ===
/**
 * `resolveVisibleRows` of the sheet resolvers: the rows a sheet shows,
 * in the order it shows them. The sheet's rows are filtered (every filter
 * must pass), sorted by its sorts with lodash `orderBy`, and, when the
 * sheet has groups, clustered by a text key built from the group columns
 * with every cluster followed by a `'ROW_BREAK'`.
 *
 * The sheet's state is a set of id-keyed tables (rows, cells, filters,
 * groups, sorts); a row maps column ids to cell ids.
 */
module VisibleRows {
  import opened Wrappers
  import opened Text
  import opened Sorting
  import opened Ordering
  import opened Values
  import opened Grouping

  /** A sort's or group's `order`: `'ASC'`, or anything else, read as descending. */
  datatype SortOrder = ASC | DESC

  /** A cell: its text, or `null`. */
  datatype Cell = Cell(value: Option<string>)

  /** A row: its id and, per column id, the id of its cell in that column. */
  datatype Row = Row(id: string, cells: map<string, string>)

  datatype Filter = Filter(columnId: string, value: string, op: FilterType)

  datatype Sort = Sort(columnId: string, order: SortOrder)

  datatype Group = Group(columnId: string, order: SortOrder)

  /** The sheet: its row ids and the ids of its filters, groups and sorts, in order. */
  datatype Sheet = Sheet(rows: seq<string>, filters: seq<string>, groups: seq<string>, sorts: seq<string>)

  /** The id-keyed tables; the filter table may be absent altogether. */
  datatype Store = Store(
    rows: map<string, Row>,
    cells: map<string, Cell>,
    filters: Option<map<string, Filter>>,
    groups: map<string, Group>,
    sorts: map<string, Sort>)

  // ---------------------------------------------------------------------------
  // Looking up cells
  // ---------------------------------------------------------------------------

  /** The row exists, has a cell id for the column, and that cell exists. */
  predicate CellResolvable(store: Store, rowId: string, columnId: string)
  {
    && rowId in store.rows
    && columnId in store.rows[rowId].cells
    && store.rows[rowId].cells[columnId] in store.cells
  }

  /** `cells[rows[rowId].cells[columnId]].value`. */
  function CellValue(store: Store, rowId: string, columnId: string): Option<string>
    requires CellResolvable(store, rowId, columnId)
  {
    store.cells[store.rows[rowId].cells[columnId]].value
  }

  // ---------------------------------------------------------------------------
  // Filter step
  // ---------------------------------------------------------------------------

  /** The row's cell passes the filter (both must resolve). */
  predicate PassesFilter(store: Store, rowId: string, f: Filter)
  {
    CellResolvable(store, rowId, f.columnId) && ResolveFilter(CellValue(store, rowId, f.columnId), f.value, f.op)
  }

  /** Every filter id names a stored filter the row's cell passes. */
  predicate PassesAll(store: Store, rowId: string, fids: seq<string>)
    requires store.filters.Some?
  {
    forall fid | fid in fids :: fid in store.filters.value && PassesFilter(store, rowId, store.filters.value[fid])
  }

  /**
   * What `filterIds.every(...)` reads on one row without failing. It reads
   * the filters left to right and stops at the first one the row fails, so
   * every filter up to and including that one must exist and its cell must
   * resolve, and the filters after it are never read.
   */
  predicate FiltersReadable(store: Store, rowId: string, fids: seq<string>)
    requires store.filters.Some?
    decreases |fids|
  {
    |fids| == 0 ||
      (&& fids[0] in store.filters.value
       && CellResolvable(store, rowId, store.filters.value[fids[0]].columnId)
       && (PassesFilter(store, rowId, store.filters.value[fids[0]]) ==> FiltersReadable(store, rowId, fids[1..])))
  }

  /**
   * `filterIds.every(...)` on one row, evaluated left to right as far as it
   * reads: true exactly when the row passes every filter.
   */
  function EveryFilter(store: Store, rowId: string, fids: seq<string>): (pass: bool)
    requires store.filters.Some? && FiltersReadable(store, rowId, fids)
    ensures pass <==> PassesAll(store, rowId, fids)
    decreases |fids|
  {
    if |fids| == 0 then true
    else
      var f := store.filters.value[fids[0]];
      assert forall fid | fid in fids :: fid == fids[0] || fid in fids[1..];
      ResolveFilter(CellValue(store, rowId, f.columnId), f.value, f.op) && EveryFilter(store, rowId, fids[1..])
  }

  /**
   * Once the row fails a filter, `every` reads no further: the ids after a
   * failing filter may be missing and their cells unresolvable.
   */
  lemma EveryStopsAtFailure(store: Store, rowId: string, fid: string, rest: seq<string>)
    requires store.filters.Some? && fid in store.filters.value
    requires CellResolvable(store, rowId, store.filters.value[fid].columnId)
    requires !PassesFilter(store, rowId, store.filters.value[fid])
    ensures FiltersReadable(store, rowId, [fid] + rest)
    ensures !EveryFilter(store, rowId, [fid] + rest)
  {
  }

  /** One row with a cell `2` in column `c1` only; filters `f1` (`c1 = 1`) and `f2` (`c2 = 1`). */
  function ShortCircuitStore(): (store: Store)
    ensures store.filters.Some?
  {
    Store(map["r" := Row("r", map["c1" := "x1"])], map["x1" := Cell(Some(ShowInt(2)))],
          Some(map["f1" := Filter("c1", ShowInt(1), Eq), "f2" := Filter("c2", ShowInt(1), Eq)]), map[], map[])
  }

  /**
   * A row that fails its first filter is dropped, and nothing is read for
   * the second filter, whose column has no cell in that row.
   */
  lemma FailingFirstFilterHidesRow()
    ensures FilterResolvable(Sheet(["r"], ["f1", "f2"], [], []), ShortCircuitStore())
    ensures FilterStep(Sheet(["r"], ["f1", "f2"], [], []), ShortCircuitStore()) == []
  {
    var store := ShortCircuitStore();
    var sheet := Sheet(["r"], ["f1", "f2"], [], []);
    var f1 := store.filters.value["f1"];
    assert f1 == Filter("c1", ShowInt(1), Eq);
    assert CellResolvable(store, "r", "c1");
    assert CellValue(store, "r", "c1") == Some(ShowInt(2));
    NumeralEqNumeral(2, 1);
    assert !PassesFilter(store, "r", f1);
    EveryStopsAtFailure(store, "r", "f1", ["f2"]);
    assert sheet.filters == ["f1"] + ["f2"];
    assert !PassesFilters(sheet, store, "r");
    assert FilterStep(sheet, store) == PassingIds(["r"], sheet, store);
  }

  /**
   * What the filter step reads without failing: when there is a filter
   * table, every row of the sheet exists (its `id` is read even with no
   * filters) and `every` can read as far as it goes on that row.
   */
  predicate FilterResolvable(sheet: Sheet, store: Store)
  {
    store.filters.Some? ==>
      forall rowId | rowId in sheet.rows :: rowId in store.rows && FiltersReadable(store, rowId, sheet.filters)
  }

  /** The row passes every filter of the sheet. */
  predicate PassesFilters(sheet: Sheet, store: Store, rowId: string)
  {
    && store.filters.Some?
    && rowId in store.rows
    && PassesAll(store, rowId, sheet.filters)
  }

  /** `PassesFilters` as a test on row ids. */
  function Passing(sheet: Sheet, store: Store): string -> bool
  {
    (rowId: string) => PassesFilters(sheet, store, rowId)
  }

  /**
   * The `map`/`filter(Boolean)` pass: for every passing row its stored
   * `id`, dropping the empty id (which is falsy).
   */
  function PassingIds(rowIds: seq<string>, sheet: Sheet, store: Store): (ids: seq<string>)
    ensures |ids| <= |rowIds|
    ensures forall id | id in ids :: id != ""
  {
    if |rowIds| == 0 then []
    else
      var r := rowIds[0];
      var keep := PassesFilters(sheet, store, r) && store.rows[r].id != "";
      (if keep then [store.rows[r].id] else []) + PassingIds(rowIds[1..], sheet, store)
  }

  /** The filter step: every row when there is no filter table, else the passing rows' ids. */
  function FilterStep(sheet: Sheet, store: Store): (ids: seq<string>)
    requires FilterResolvable(sheet, store)
    ensures store.filters.None? ==> ids == sheet.rows
    ensures |ids| <= |sheet.rows|
  {
    if store.filters.None? then sheet.rows else PassingIds(sheet.rows, sheet, store)
  }

  /** Every stored row is filed under its own id, and no id is empty. */
  predicate IdsConsistent(store: Store)
  {
    forall rowId | rowId in store.rows :: store.rows[rowId].id == rowId && rowId != ""
  }

  /** With consistent ids, the passing pass keeps exactly the passing rows, in order. */
  lemma {:induction false} PassingIdsKeep(rowIds: seq<string>, sheet: Sheet, store: Store)
    requires IdsConsistent(store)
    ensures PassingIds(rowIds, sheet, store) == Keep(rowIds, Passing(sheet, store))
    decreases |rowIds|
  {
    if |rowIds| > 0 {
      PassingIdsKeep(rowIds[1..], sheet, store);
    }
  }

  /**
   * With a filter table and consistent ids, the filter step is the
   * subsequence of the sheet's rows that pass every filter, in order.
   */
  lemma FilterStepKeepsPassing(sheet: Sheet, store: Store)
    requires FilterResolvable(sheet, store)
    requires store.filters.Some? && IdsConsistent(store)
    ensures FilterStep(sheet, store) == Keep(sheet.rows, Passing(sheet, store))
    ensures forall id :: id in FilterStep(sheet, store) <==> id in sheet.rows && PassesFilters(sheet, store, id)
    ensures forall id | id in sheet.rows :: id in FilterStep(sheet, store) <==> EveryFilter(store, id, sheet.filters)
  {
    PassingIdsKeep(sheet.rows, sheet, store);
    KeepMembers(sheet.rows, Passing(sheet, store));
  }

  // ---------------------------------------------------------------------------
  // Sort step
  // ---------------------------------------------------------------------------

  /** Every sort of the sheet exists and the row has a cell in its column. */
  predicate RowSortable(sheet: Sheet, store: Store, rowId: string)
  {
    forall sid | sid in sheet.sorts :: sid in store.sorts && CellResolvable(store, rowId, store.sorts[sid].columnId)
  }

  /** What the sort step reads without failing. */
  predicate SortResolvable(sheet: Sheet, store: Store, ids: seq<string>)
  {
    && (forall sid | sid in sheet.sorts :: sid in store.sorts)
    && forall id | id in ids :: RowSortable(sheet, store, id)
  }

  /**
   * A row's sort criteria: per sort, its resolved cell value; with no
   * sorts, lodash sorts by the id itself.
   */
  function SortCriteria(sheet: Sheet, store: Store, rowId: string): (crit: seq<Val>)
    requires RowSortable(sheet, store, rowId)
    ensures |crit| == if |sheet.sorts| == 0 then 1 else |sheet.sorts|
  {
    if |sheet.sorts| == 0 then [Str(rowId)]
    else
      seq(|sheet.sorts|, i requires 0 <= i < |sheet.sorts| =>
        ResolveValue(CellValue(store, rowId, store.sorts[sheet.sorts[i]].columnId)))
  }

  /** Per sort, `'asc'` for `'ASC'` and `'desc'` otherwise. */
  function SortOrders(sheet: Sheet, store: Store): (orders: seq<Order>)
    requires forall sid | sid in sheet.sorts :: sid in store.sorts
    ensures |orders| == |sheet.sorts|
  {
    seq(|sheet.sorts|, i requires 0 <= i < |sheet.sorts| =>
      if store.sorts[sheet.sorts[i]].order == ASC then Asc else Desc)
  }

  /** The criteria of every row of `ids`, in order. */
  function CriteriaOf(sheet: Sheet, store: Store, ids: seq<string>): (crit: seq<seq<Val>>)
    requires SortResolvable(sheet, store, ids)
    ensures |crit| == |ids|
    ensures forall k :: 0 <= k < |ids| ==> crit[k] == SortCriteria(sheet, store, ids[k])
  {
    seq(|ids|, k requires 0 <= k < |ids| => SortCriteria(sheet, store, ids[k]))
  }

  /** The sort step: `orderBy(ids, sortBy, sortOrder)`, a permutation of `ids`. */
  function SortStep(sheet: Sheet, store: Store, ids: seq<string>): (sorted: seq<string>)
    requires SortResolvable(sheet, store, ids)
    ensures multiset(sorted) == multiset(ids)
  {
    OrderBy(ids, CriteriaOf(sheet, store, ids), SortOrders(sheet, store), ValCmp)
  }

  /** Within every sort column, the rows' values are all numbers or all strings. */
  predicate ColumnsOfOneKind(sheet: Sheet, store: Store, ids: seq<string>)
    requires SortResolvable(sheet, store, ids)
  {
    forall a, b, i | a in ids && b in ids && 0 <= i < |sheet.sorts| ::
      SameKind(SortCriteria(sheet, store, a)[i], SortCriteria(sheet, store, b)[i])
  }

  /** One-kind columns make every criteria column a total preorder. */
  lemma OneKindPreordered(sheet: Sheet, store: Store, ids: seq<string>)
    requires SortResolvable(sheet, store, ids)
    requires ColumnsOfOneKind(sheet, store, ids)
    ensures ColumnsPreordered(CriteriaOf(sheet, store, ids), ValCmp)
  {
    var crit := CriteriaOf(sheet, store, ids);
    forall i, j, k | 0 <= i < |crit| && 0 <= j < |crit| && 0 <= k < |crit|
      ensures PointwisePreorder(crit[i], crit[j], crit[k], ValCmp)
    {
      forall n | 0 <= n < |crit[i]| ensures Preorder3(crit[i][n], crit[j][n], crit[k][n], ValCmp) {
        if |sheet.sorts| == 0 {
          assert crit[i][n].Str? && crit[j][n].Str? && crit[k][n].Str?;
        } else {
          assert SameKind(crit[i][n], crit[j][n]) && SameKind(crit[j][n], crit[k][n]) by {
            assert ids[i] in ids && ids[j] in ids && ids[k] in ids;
          }
        }
        ValPreorder(crit[i][n], crit[j][n], crit[k][n]);
      }
    }
  }

  /**
   * Row `x` may precede row `y` of `ids` after the sort step: it is below
   * `y` on the criteria in the sorts' directions, or tied with it and
   * earlier in `ids`.
   */
  ghost predicate InSortOrder(sheet: Sheet, store: Store, ids: seq<string>, x: string, y: string)
    requires SortResolvable(sheet, store, ids)
  {
    && x in ids && y in ids
    && var c := CompareCriteria(SortCriteria(sheet, store, x), SortCriteria(sheet, store, y), SortOrders(sheet, store), ValCmp);
      c < 0 || (c == 0 && IndexOf(ids, x) < IndexOf(ids, y))
  }

  /**
   * Two rows of the sort step, the earlier compared with the later, are in
   * sort order whenever every criteria column is a total preorder.
   */
  lemma SortStepPair(sheet: Sheet, store: Store, ids: seq<string>, i: int, j: int)
    requires SortResolvable(sheet, store, ids)
    requires ColumnsPreordered(CriteriaOf(sheet, store, ids), ValCmp)
    requires Distinct(ids)
    requires 0 <= i < j < |ids|
    ensures var sorted := SortStep(sheet, store, ids); InSortOrder(sheet, store, ids, sorted[i], sorted[j])
  {
    var crit := CriteriaOf(sheet, store, ids);
    var orders := SortOrders(sheet, store);
    var sorted := SortStep(sheet, store, ids);
    assert sorted[i] in multiset(ids) && sorted[j] in multiset(ids);
    OrderByStable(ids, crit, orders, ValCmp, i, j);
    var p, q := IndexOf(ids, sorted[i]), IndexOf(ids, sorted[j]);
    assert crit[p] == SortCriteria(sheet, store, sorted[i]);
    assert crit[q] == SortCriteria(sheet, store, sorted[j]);
  }

  /**
   * The sort step orders rows lexicographically by their sort criteria,
   * each in its sort's direction (by id when there are no sorts), and is
   * stable: rows tied on every criterion keep their filtered order.
   * This needs each sort column to hold values of one kind.
   */
  lemma SortStepOrdered(sheet: Sheet, store: Store, ids: seq<string>)
    requires SortResolvable(sheet, store, ids)
    requires ColumnsOfOneKind(sheet, store, ids)
    requires Distinct(ids)
    ensures var sorted := SortStep(sheet, store, ids);
      forall i, j | 0 <= i < j < |sorted| :: InSortOrder(sheet, store, ids, sorted[i], sorted[j])
  {
    var sorted := SortStep(sheet, store, ids);
    OneKindPreordered(sheet, store, ids);
    forall i, j | 0 <= i < j < |sorted| ensures InSortOrder(sheet, store, ids, sorted[i], sorted[j]) {
      SortStepPair(sheet, store, ids, i, j);
    }
  }

  // ---------------------------------------------------------------------------
  // Group step
  // ---------------------------------------------------------------------------

  /** A JavaScript value read for grouping: `undefined`, `null`, or text. */
  datatype JsText = Undefined | Null | Text(s: string)

  /** `String(v)`, as a `groupBy` property key. */
  function Show(v: JsText): string
  {
    match v
    case Undefined => "undefined"
    case Null => "null"
    case Text(s) => s
  }

  /** One step of the key's `reduce`: the lowered text when truthy, then `-`. */
  function KeyPart(v: JsText): string
  {
    (if v.Text? && v.s != "" then Lower(v.s) else "") + "-"
  }

  /** The parts every group after the first adds to the key. */
  function LaterParts(vs: seq<JsText>): string
  {
    if |vs| == 0 then "" else KeyPart(vs[0]) + LaterParts(vs[1..])
  }

  /**
   * The group key of a row's group values: a `reduce` without a seed, so
   * the first value is taken as it is (not lowered, and `undefined` or
   * `null` spelled out) and every later value adds its part.
   */
  function CombineKey(vs: seq<JsText>): string
    requires |vs| >= 1
  {
    Show(vs[0]) + LaterParts(vs[1..])
  }

  /** A single group value is the key as it is. */
  lemma CombineKeyOne(v: JsText)
    ensures CombineKey([v]) == Show(v)
  {
  }

  /** `CombineKey` is the left fold of the `reduce` callback `combined + part`. */
  lemma {:induction false} CombineKeyStep(vs: seq<JsText>, v: JsText)
    requires |vs| >= 1
    ensures CombineKey(vs + [v]) == CombineKey(vs) + KeyPart(v)
  {
    assert (vs + [v])[0] == vs[0];
    assert (vs + [v])[1..] == vs[1..] + [v];
    LaterPartsAppend(vs[1..], v);
    AppendAssoc(Show(vs[0]), LaterParts(vs[1..]), KeyPart(v));
  }

  /** The later parts of a longer list are the earlier ones followed by the new value's part. */
  lemma {:induction false} LaterPartsAppend(vs: seq<JsText>, v: JsText)
    ensures LaterParts(vs + [v]) == LaterParts(vs) + KeyPart(v)
    decreases |vs|
  {
    if |vs| > 0 {
      assert (vs + [v])[1..] == vs[1..] + [v];
      LaterPartsAppend(vs[1..], v);
    } else {
      assert vs + [v] == [v];
    }
  }

  /**
   * The first value keeps its case and a missing one is spelled out; a
   * later value is lowered and an empty or missing one adds nothing but
   * its `-`.
   */
  lemma CombineKeyExamples()
    ensures CombineKey([Text("Ab"), Text("Cd")]) == "Abcd-"
    ensures CombineKey([Undefined, Null, Text("")]) == "undefined--"
  {
    assert Lower("Cd") == "cd";
  }

  /** The value a group reads: `undefined` when the row, its cell id or the cell is missing. */
  function GroupValue(store: Store, rowId: string, columnId: string): JsText
  {
    if !CellResolvable(store, rowId, columnId) then Undefined
    else
      match CellValue(store, rowId, columnId)
      case None => Null
      case Some(s) => Text(s)
  }

  /**
   * What the group step reads without failing. The first group's `order`
   * is always read. The other group records are read only inside the
   * `groupBy` callback, and only for a row that exists, because of the
   * short circuit in `rows[rowId] && ...`.
   */
  predicate GroupsResolvable(sheet: Sheet, store: Store, ids: seq<string>)
  {
    && (|sheet.groups| > 0 ==> sheet.groups[0] in store.groups)
    && forall id | id in ids && id in store.rows :: forall gid | gid in sheet.groups :: gid in store.groups
  }

  /**
   * What the callback reads for one group of one row. A missing row gives
   * `undefined` without reading the group. A stored row with a missing
   * group record would throw; `GroupsResolvable` rules that out, so the
   * `undefined` given there is never used.
   */
  function GroupRead(store: Store, rowId: string, gid: string): JsText
  {
    if gid in store.groups then GroupValue(store, rowId, store.groups[gid].columnId) else Undefined
  }

  /** A row's group key. */
  function GroupKey(sheet: Sheet, store: Store, rowId: string): string
    requires |sheet.groups| >= 1
  {
    CombineKey(seq(|sheet.groups|, i requires 0 <= i < |sheet.groups| => GroupRead(store, rowId, sheet.groups[i])))
  }

  /**
   * For a stored row whose groups all exist, the key combines the values
   * read through every group record, as the callback does.
   */
  lemma GroupKeyReadsGroups(sheet: Sheet, store: Store, rowId: string)
    requires |sheet.groups| >= 1 && rowId in store.rows
    requires forall gid | gid in sheet.groups :: gid in store.groups
    ensures GroupKey(sheet, store, rowId) ==
      CombineKey(seq(|sheet.groups|, i requires 0 <= i < |sheet.groups| =>
        GroupValue(store, rowId, store.groups[sheet.groups[i]].columnId)))
  {
    var a := seq(|sheet.groups|, i requires 0 <= i < |sheet.groups| => GroupRead(store, rowId, sheet.groups[i]));
    var b := seq(|sheet.groups|, i requires 0 <= i < |sheet.groups| =>
      GroupValue(store, rowId, store.groups[sheet.groups[i]].columnId));
    assert forall i | 0 <= i < |sheet.groups| :: sheet.groups[i] in sheet.groups;
    assert a == b;
  }

  /** A missing row's key reads no group: every value is `undefined`. */
  lemma GroupKeyMissingRow(sheet: Sheet, store: Store, rowId: string)
    requires |sheet.groups| >= 1 && rowId !in store.rows
    ensures GroupKey(sheet, store, rowId) == CombineKey(seq(|sheet.groups|, i => Undefined))
  {
    var a := seq(|sheet.groups|, i requires 0 <= i < |sheet.groups| => GroupRead(store, rowId, sheet.groups[i]));
    assert a == seq(|sheet.groups|, i => Undefined);
  }

  // ---------------------------------------------------------------------------
  // resolveVisibleRows
  // ---------------------------------------------------------------------------

  /** A row's group key as a key function. */
  function KeyOf(sheet: Sheet, store: Store): string -> string
    requires |sheet.groups| >= 1
  {
    (id: string) => GroupKey(sheet, store, id)
  }

  /** The distinct group keys of the given rows. */
  function DistinctKeys(sheet: Sheet, store: Store, ids: seq<string>): set<string>
    requires |sheet.groups| >= 1
  {
    set id | id in ids :: KeyOf(sheet, store)(id)
  }

  /** The visible list of the clusters of a permutation of `filtered`, as the grouped branch builds it. */
  lemma GroupedOutput(sheet: Sheet, store: Store, filtered: seq<string>, sorted: seq<string>, ascending: bool)
    requires |sheet.groups| >= 1
    requires multiset(sorted) == multiset(filtered)
    ensures var es := Flatten(GroupRows(sorted, KeyOf(sheet, store), ascending));
      && multiset(RowIdsOf(es)) == multiset(filtered)
      && BreakCount(es) == |DistinctKeys(sheet, store, filtered)|
      && (|filtered| > 0 ==> |es| > 0 && es[|es| - 1] == RowBreak)
  {
    var keyOf := KeyOf(sheet, store);
    GroupedEntries(sorted, filtered, keyOf, ascending);
  }

  /**
   * `resolveVisibleRows`: the filtered rows, sorted; with groups, the
   * clusters of `GroupRows` (keys ascending when the first group is
   * `'ASC'`, descending otherwise), each followed by one break. The rows
   * shown are always exactly the filtered rows; with groups there is one
   * break per distinct key, and the list ends in a break.
   */
  function ResolveVisibleRows(sheet: Sheet, store: Store): (es: seq<Entry>)
    requires FilterResolvable(sheet, store)
    requires SortResolvable(sheet, store, FilterStep(sheet, store))
    requires GroupsResolvable(sheet, store, FilterStep(sheet, store))
    ensures multiset(RowIdsOf(es)) == multiset(FilterStep(sheet, store))
    ensures |sheet.groups| == 0 ==> BreakCount(es) == 0 && RowIdsOf(es) == SortStep(sheet, store, FilterStep(sheet, store))
    ensures |sheet.groups| > 0 ==> BreakCount(es) == |DistinctKeys(sheet, store, FilterStep(sheet, store))|
    ensures |sheet.groups| > 0 && |FilterStep(sheet, store)| > 0 ==> |es| > 0 && es[|es| - 1] == RowBreak
  {
    var filtered := FilterStep(sheet, store);
    var sorted := SortStep(sheet, store, filtered);
    if |sheet.groups| == 0 then
      RowsEntries(sorted);
      Rows(sorted)
    else
      var ascending := store.groups[sheet.groups[0]].order == ASC;
      GroupedOutput(sheet, store, filtered, sorted, ascending);
      Flatten(GroupRows(sorted, KeyOf(sheet, store), ascending))
  }

  /**
   * With no rows to group, only the first group record is read: a sheet
   * whose second group id names nothing stored still shows an empty list.
   */
  lemma DanglingSecondGroupAccepted()
    ensures var sheet, store := Sheet([], [], ["g1", "g2"], []), Store(map[], map[], None, map["g1" := Group("c", ASC)], map[]);
      && FilterResolvable(sheet, store)
      && SortResolvable(sheet, store, FilterStep(sheet, store))
      && GroupsResolvable(sheet, store, FilterStep(sheet, store))
      && ResolveVisibleRows(sheet, store) == []
  {
    var sheet, store := Sheet([], [], ["g1", "g2"], []), Store(map[], map[], None, map["g1" := Group("c", ASC)], map[]);
    assert FilterStep(sheet, store) == [];
    assert SortStep(sheet, store, []) == [];
  }
}

=== FILE: wrappers.dfy ===
/** Small failure-compatible wrappers shared by every module of the model. */
module Wrappers {

  /** A value that may be absent: JavaScript's `undefined`/`null`, PHP's `null`. */
  datatype Option<+T> = None | Some(value: T) {

    /** The wrapped value, or `default` when absent. */
    function GetOr(default: T): T
    {
      match this
      case Some(v) => v
      case None => default
    }
  }

  /** Either a computed value or the reason the source would have thrown. */
  datatype Result<+R, +E> = Success(value: R) | Failure(error: E)
}
